=== FILE: README.md ===
# Resume / job-description tailor: a Dafny model of the matching and scoring engine

This project models the deterministic core of an ATS ("applicant tracking
system") resume tailor. The tailor reads a resume and a job description and
finds the requirements the resume does not cover. It scores the match on five
weighted components and proposes edits ranked by their estimated score gain.
The model follows the Python modules one by one:

| file | module | models |
|---|---|---|
| `wrappers.dfy` | `Wrappers` | `Option` / `Result` and first-hit searches used throughout |
| `text.dfy` | `Text` | the Python string operations the core relies on: `lower`, `strip`, `in`, `split`, `join`, `title`, `str(n)` |
| `ratios.dfy` | `Ratios` | the bounded ratios behind the sub-scores |
| `skills.dfy` | `Skills` | `SkillsMatcher`: the reverse index, the three-tier `match_skill`, `_find_canonical`, extraction, normalisation |
| `jd.dfy` | `Jd` | `JDExtractor`: header bucketing, requirement lines, skills, years, the technical flag, skill unions |
| `evidence.dfy` | `Evidence` | `EvidenceRetriever`: indexing bookkeeping, classification, the skill boost, top-k and batch retrieval |
| `scorer.dfy` | `Scorer` | `ATSScorer`: the weight check, the five sub-scores, the overall score, the explanation, the gain estimate |
| `sectionizer.dfy` | `Sectionizer` | `ResumeSectionizer`: the section table, header capture, the section state machine, bullets, experience entries |
| `suggestions.dfy` | `Suggestions` | `SuggestionGenerator`: skill insertion, action-verb selection, LLM-answer clean-up, backend dispatch |
| `tailor.dfy` | `Tailor` | `ATSTailor.analyze` and its helpers: validation, index units, the must-have evidence loop, the resume title, suggestion ranking, the report |

Strings are `seq<char>`. Lower-casing and whitespace are the ASCII parts of
Python's `str.lower` and `str.isspace`. Scores are exact `real`s, and
`int(x)` is modelled as truncation toward zero. Every foreign call is a
function parameter:
- the nearest-neighbour search is a `Search` oracle, assumed to answer like an exact ranked index (`Evidence.SearchOk`);
- the LLM backend is a `call(backend, prompt)` function;
- the document parser and `_clean_text` are `readFile` and `cleanText`;
- contact extraction, `extract_job_title`, the job-header heuristics and Python's set-to-list order are also parameters.
The `Tailor.Oracles` datatype bundles them for `analyze`.

Several behaviours of the code are modelled as written and stated as lemmas:
- A line containing "preferred qualifications" opens a MUST-HAVE section, because "qualifications" is a must-have marker that is tried first (`Jd.PreferredQualificationsIsMustHave`).
- A requirement like "3+ years of Python" loses its number to the bullet stripping (`Jd.LeadingYearsLost`).
- A resume line like "- managed a team" gives no bullet, because the marker class includes lower-case letters (`Sectionizer.MarkerOnlyLineVanishes`).
- A resume whose first line is blank gets no HEADER section (`Sectionizer.BlankFirstLineNoHeader`).
- With `tau_high` above 1.0, the cap in the skill boost can demote a present match (`Evidence.BoostCanDemoteAboveOne`).
- "Skills: Python" on a line of its own is read as the SKILLS heading (`Sectionizer.SkillsLineIsHeading`).

Content lines are kept as they appear in the text: `sectionize` appends
each non-heading line unstripped (src/extractors/resume_sectionizer.py:163-164),
so a section's content can carry trailing whitespace, and the model keeps
it too.

## Model

| member | source | states |
|---|---|---|
| Text.Split | src/extractors/resume_sectionizer.py:113 | `split('\n')` yields at least one piece and no piece holds the separator |
| Text.JoinSplit | src/extractors/resume_sectionizer.py:113 | joining the lines of a split with the separator restores the text, so splitting loses nothing |
| Text.SplitJoin | src/extractors/resume_sectionizer.py:200 | splitting section content that was joined from separator-free lines gives back exactly those lines |
| Text.JoinContains | src/scoring/ats_scorer.py:229 | every string of a list occurs in its join |
| Text.StripIdempotent | src/core/ats_tailor.py:228-229 | stripping twice is stripping once |
| Text.LowerStrip | src/matching/skills_matcher.py:65 | lower-casing commutes with stripping |
| Text.TitlePointwise | src/matching/skills_matcher.py:115 | `title()` upper-cases exactly the letters that start a run of letters, lower-cases the other letters and keeps other characters |
| Text.DigitsValueOfNatToString | src/core/ats_tailor.py:150 | the decimal rendering of a number reads back as that number |
| Ratios.CappedRatioFacts | src/scoring/ats_scorer.py:145-147 | `min(1.0, n / d)` is full exactly when n reaches d and otherwise equals n / d |
| Ratios.FractionMonotone | src/scoring/ats_scorer.py:209-212 | a larger part of the same whole is a larger fraction |
| Skills.CategoryListings | src/matching/skills_matcher.py:44-45 | one listing per skill of a category, in the category's order, each carrying the category's name |
| Skills.ListingsCover | src/matching/skills_matcher.py:44-45 | every skill of every category appears among the listings with its category |
| Skills.SkillEntries | src/matching/skills_matcher.py:46-51 | a skill writes its lower-cased canonical name first, then each lower-cased alias in order, all to its category |
| Skills.IndexOf | src/matching/skills_matcher.py:40-53 | the reverse index holds exactly the keys some assignment wrote, each mapped to the category of the last assignment that wrote it |
| Skills.IndexStep | src/matching/skills_matcher.py:47-51 | one more dictionary assignment keeps that last-write-wins invariant |
| Skills.EntriesHaveNames | src/matching/skills_matcher.py:44-51 | every listed skill's lower-cased canonical name and every lower-cased alias are written to the index |
| Skills.AllNamesIndexed | src/matching/skills_matcher.py:40-53 | every name of the taxonomy, canonical or alias, lower-cased, is a key of the reverse index |
| Skills.LaterCategoryWins | src/matching/skills_matcher.py:44-51 | when two categories list the same name the index attributes it to the later category |
| Skills.IndexedName | src/matching/skills_matcher.py:40-53 | conversely every index key is the lower-cased canonical name or an alias of some listed skill |
| Skills.CategorySkills | src/matching/skills_matcher.py:107 | the skills of the first category with the given name, and none for a category the taxonomy lacks |
| Skills.GetCategorySkills | src/matching/skills_matcher.py:165-167 | the canonical names of the category's skills in order; an empty list for an unknown category |
| Skills.GetAllCategories | src/matching/skills_matcher.py:169-171 | the category names, one per category, in taxonomy order |
| Skills.FirstNaming | src/matching/skills_matcher.py:109-113 | none exactly when no skill answers to the key by canonical name or alias; otherwise a skill that does |
| Skills.FindCanonical | src/matching/skills_matcher.py:105-115 | the canonical name of the first skill of the category that answers to the key, or, when none answers, the key in title case |
| Skills.FirstRelatedAlias | src/matching/skills_matcher.py:92-93 | none exactly when no alias contains or is contained in the key; otherwise the first such alias, no earlier alias being related |
| Skills.FuzzyAt | src/matching/skills_matcher.py:81-101 | for one listing: a match exactly when its canonical name or an alias is related to the key; confidence 0.8 exactly when the canonical name is related, then with that name and its indexed category; otherwise 0.7 with the first related alias's indexed category and the canonical name looked up through it; the alias reported is the input text |
| Skills.FuzzyMatch | src/matching/skills_matcher.py:79-103 | none exactly when no listing relates to the key; otherwise the match is the one-listing result of the first listing that relates, no earlier listing relating |
| Skills.MatchSkill | src/matching/skills_matcher.py:55-103 | an indexed key matches at confidence 1.0 with its indexed category and looked-up canonical name, reporting the text as alias exactly when it differs from that name; any other key goes to the fuzzy pass |
| Skills.MatchSkillNone | src/matching/skills_matcher.py:55-103 | no match exactly when the stripped lower-cased text is related to no canonical name and no alias |
| Skills.BlankMatchesFirstSkill | src/matching/skills_matcher.py:65-89 | a blank text becomes the empty key, contained in every name, so it fuzzily matches the first listed skill at 0.8 unless a blank name is indexed |
| Skills.NormalizeSkill | src/matching/skills_matcher.py:173-176 | the canonical name of the match, the text unchanged when nothing matches, and the looked-up canonical name for an indexed key |
| Skills.FirstAliasIn | src/matching/skills_matcher.py:152-161 | none exactly when no alias occurs in the text; otherwise the first alias, in listing order, that occurs (no earlier alias occurs) |
| Skills.ExtractFrom | src/matching/skills_matcher.py:138-161 | from a set of names already seen: exactly the matches of the listings that are mentioned, not seen and not preceded by a mentioned listing of the same name, in taxonomy order, each with that listing's category, at 1.0 by its canonical name when that occurs and otherwise at 0.9 by its first occurring alias; hence nothing seen is reported again, no name twice, every mentioned listing ends up seen or reported |
| Skills.ReportStep | src/matching/skills_matcher.py:141-161 | reporting a justified listing then continuing with its name seen keeps the extraction invariant |
| Skills.SkipStep | src/matching/skills_matcher.py:141-153 | skipping a listing that is unmentioned or already seen keeps the extraction invariant |
| Skills.ExtractSkills | src/matching/skills_matcher.py:123-163 | exactly the matches of the first listing of each mentioned skill, in taxonomy order, with that listing's category (canonical name present at 1.0 with no alias, or canonical absent and the first occurring alias at 0.9); no canonical name twice; every mentioned skill is reported |
| Skills.ExtractedAreMentioned | src/matching/skills_matcher.py:123-163 | the set of canonical names extracted equals the set of canonical names of skills mentioned in the lower-cased text |
| Jd.SectionTypeOf | src/extractors/jd_extractor.py:124-138 | must-have exactly when a must-have marker occurs; preferred exactly when none does and a preferred marker occurs; responsibility exactly when only a responsibility marker occurs; never nice-to-have |
| Jd.PreferredQualificationsIsMustHave | src/extractors/jd_extractor.py:31-39 | a line containing "preferred qualifications" also contains "qualifications", so it opens a must-have section, never a preferred one |
| Jd.KindOfLine | src/extractors/jd_extractor.py:105-119 | a line is blank exactly when it strips to nothing, a header of the kind its stripped lower-cased form announces, and content exactly when non-blank and announcing nothing |
| Jd.Classify | src/extractors/jd_extractor.py:102-106 | one classification per line, keeping the line's kind and its stripped form |
| Jd.AddLine | src/extractors/jd_extractor.py:118-119 | appending to the current section grows that bucket by the line and leaves every other bucket and the current section alone; nice-to-have has no bucket |
| Jd.GovernedSnoc | src/extractors/jd_extractor.py:112-115 | after one more line the governing header is that line if it is a header, else the one before |
| Jd.CurrentIsLatestHeader | src/extractors/jd_extractor.py:103-115 | the loop's current section is some kind exactly when the latest header line announced that kind |
| Jd.BucketStep | src/extractors/jd_extractor.py:105-118 | one loop iteration: a header sets the current kind, and only the current kind's bucket grows, by the stripped content line |
| Jd.BucketOrder | src/extractors/jd_extractor.py:101-118 | the bucket of a kind after the loop is exactly its governed content lines, stripped, in line order and one per line |
| Jd.BucketMembership | src/extractors/jd_extractor.py:96-119 | a stripped line is in a kind's bucket exactly when it is a content line governed by a header of that kind; blank lines, headers and lines before the first header are dropped |
| Jd.SectionsOf | src/extractors/jd_extractor.py:121-122 | at most three sections, in the order must-have, preferred, responsibility, each the newline join of a non-empty bucket, and every non-empty bucket present |
| Jd.SplitIntoSections | src/extractors/jd_extractor.py:94-122 | at most three sections in rank order, none nice-to-have; each splits back into exactly its governed content lines in order, and every kind with such lines has its section |
| Jd.CleanRequirementLine | src/extractors/jd_extractor.py:145-155 | the cleaned line starts with no bullet character (space, bullet glyph, dash, star, plus, digit, dot) and occurs in the stripped line |
| Jd.CleanShape | src/extractors/jd_extractor.py:155 | stripping what is left after the bullet run keeps it free of a leading bullet character and inside the original |
| Jd.Candidates | src/extractors/jd_extractor.py:147-158 | one decision per line: kept when at least ten characters long once stripped and non-empty after cleaning, with its cleaned form |
| Jd.KeptLines | src/extractors/jd_extractor.py:147-160 | the cleaned forms of the kept candidates, in input order, one per kept candidate and nothing else |
| Jd.RequirementLines | src/extractors/jd_extractor.py:140-160 | exactly the cleaned forms of the input lines passing the length and emptiness tests, in input order and one per such line; each non-empty and starting with no bullet character |
| Jd.ExtractRequirementLines | src/extractors/jd_extractor.py:140-160 | the cleaned forms of the newline-separated lines that pass the length and emptiness tests, in order; none starts with a bullet character |
| Jd.KeptLinesSound | src/extractors/jd_extractor.py:147-158 | every kept line is the cleaned form of an input line that passes the length test |
| Jd.KeptLinesComplete | src/extractors/jd_extractor.py:147-158 | every input line that passes the length test and survives cleaning is kept |
| Jd.SkillsIn | src/extractors/jd_extractor.py:187-198 | a canonical name is taken exactly when its skill's canonical name or an alias occurs in the lower-cased text |
| Jd.ExtractJdSkills | src/extractors/jd_extractor.py:181-200 | the de-duplicated skills are exactly the canonical names of the taxonomy skills the text mentions |
| Jd.JdSkillsAgreeWithMatcher | src/extractors/jd_extractor.py:181-200 | the extractor's skills equal the canonical names the skills matcher's extraction reports for the same text |
| Jd.UnitWordMeaning | src/extractors/jd_extractor.py:48 | the unit group `years?` or `yrs?` matches exactly when the text starts with "year" or "yr" in any case |
| Jd.ExtractYearsNone | src/extractors/jd_extractor.py:202-207 | no years exactly when the years pattern matches at no position |
| Jd.ExtractYears | src/extractors/jd_extractor.py:202-206 | no years exactly when the pattern matches nowhere; otherwise the value of the leftmost match, which starts at a digit |
| Jd.ExtractYearsFirst | src/extractors/jd_extractor.py:202-207 | otherwise the years are the value read at the leftmost matching position, which holds a digit |
| Jd.YearsRoundTrip | src/extractors/jd_extractor.py:47-50 | a number rendered in decimal, an optional plus and a unit word after digit-free text is read back as that number |
| Jd.FirstMatchWins | src/extractors/jd_extractor.py:204-206 | a match with no digit before it is the one `search` returns |
| Jd.MatchDigits | src/extractors/jd_extractor.py:48 | the pattern matches a digit run followed by a unit and yields the run's value |
| Jd.LeadingYearsLost | src/extractors/jd_extractor.py:145-155 | a line whose only digits lead it loses them to the bullet stripping, so its requirement has no years |
| Jd.IsTechnical | src/extractors/jd_extractor.py:209-229 | not technical exactly when no technical indicator occurs and some soft indicator does |
| Jd.TechnicalWins | src/extractors/jd_extractor.py:213-216 | a text with a technical indicator stays technical whatever is added before or after it |
| Jd.TaggedLines | src/extractors/jd_extractor.py:83-90 | line k of group g is tagged with the group's kind at position (lines of the groups before g) + k and the output holds nothing else; every tagged line comes from a group with that kind; increasing group ranks give ranked output |
| Jd.RequirementItems | src/extractors/jd_extractor.py:68-92 | the requirement lines of the whole description: never nice-to-have, ranked must-have before preferred before responsibility, each cleaned and non-empty, and each section line at its position, group after group in order |
| Jd.ExtractRequirements | src/extractors/jd_extractor.py:68-92 | one requirement per requirement line, with its line's kind; none nice-to-have; kinds in section order |
| Jd.RequirementsAreParsed | src/extractors/jd_extractor.py:162-179 | each requirement carries the skills, years and technical flag computed from its own text |
| Jd.ParseRequirement | src/extractors/jd_extractor.py:162-179 | the requirement keeps its text and kind; its skills are exactly the canonical names of the mentioned taxonomy skills, its years the leftmost years match, and it is non-technical exactly when no technical and some soft indicator occurs |
| Jd.RequirementsComeFromLines | src/extractors/jd_extractor.py:68-160 | every requirement's text is the cleaned form of a kept content line governed by a header of the requirement's kind |
| Jd.SectionSplitsToBucket | src/extractors/jd_extractor.py:122-142 | splitting a joined section on newlines gives its bucket back |
| Jd.LinesBecomeRequirements | src/extractors/jd_extractor.py:68-160 | conversely every kept content line under a header of a requirement kind becomes a requirement of that kind |
| Jd.SkillsOfKind | src/extractors/jd_extractor.py:257-275 | a skill is in the union exactly when some requirement of the kind lists it |
| Jd.MustHaveSkills | src/extractors/jd_extractor.py:257-265 | a skill is a must-have skill exactly when some must-have requirement lists it |
| Jd.PreferredSkills | src/extractors/jd_extractor.py:267-275 | a skill is a preferred skill exactly when some preferred requirement lists it |
| Jd.OtherKindsIgnored | src/extractors/jd_extractor.py:261-263 | requirements of other kinds, added first or last, leave the union unchanged |
| Evidence.NewRetriever | src/matching/evidence_retriever.py:33-57 | a new retriever keeps the given thresholds and `top_k` and has nothing indexed |
| Evidence.IndexResume | src/matching/evidence_retriever.py:59-82 | fails exactly on an empty unit list, where the encoded array has no second axis to read the dimension from; otherwise stores one text and one location per unit, in input order, keeps the thresholds, and marks the retriever indexed |
| Evidence.ClassifyMonotone | src/matching/evidence_retriever.py:120-125 | a higher similarity never gets a worse status under the same thresholds |
| Evidence.Classify | src/matching/evidence_retriever.py:119-125 | present exactly at or above `tau_high`, weak exactly from `tau_low` up to `tau_high`, missing below both |
| Evidence.Reclassify | src/matching/evidence_retriever.py:135-139 | a boosted score at or above `tau_high` is present, from `tau_low` up to `tau_high` weak, and below both keeps the earlier status |
| Evidence.ClassifyDefaults | src/matching/evidence_retriever.py:36-37 | with the default thresholds 0.75 and 0.50, a score of 0.75 is present, 0.74 and 0.50 are weak, 0.49 is missing |
| Evidence.SkillHits | src/matching/evidence_retriever.py:129-130 | the number of requirement skills occurring, lower-cased, in the unit's lower-cased text: at most the number of skills, zero exactly when none occurs |
| Evidence.Boosted | src/matching/evidence_retriever.py:131-133 | no hit leaves the score unchanged; with n hits the score becomes score + 0.05·n when that is at most 1.0 and 1.0 otherwise, so it is never lowered from a score of at most 1.0 |
| Evidence.BoostNeverDemotes | src/matching/evidence_retriever.py:133-139 | re-evaluating a boosted, capped score never worsens the status, provided the score or `tau_high` is at most 1.0 |
| Evidence.BoostCanDemoteAboveOne | src/matching/evidence_retriever.py:133-139 | with `tau_high` 1.1 a present score of 1.2 is capped to 1.0 and re-evaluated to weak |
| Evidence.ReclassifyIsClassify | src/matching/evidence_retriever.py:120-139 | with ordered thresholds and a score of at most 1.0, the re-evaluation equals classifying the boosted score afresh |
| Evidence.RetrieveEvidence | src/matching/evidence_retriever.py:84-150 | an error exactly when nothing is indexed, and a no-candidate error exactly when `top_k` is zero or there are no texts; otherwise the record names the requirement and the best unit's text and location, its similarity the best score boosted by 0.05 per requirement skill occurring in that unit and capped at 1.0, its status re-evaluated on the boosted score when some skill occurs and the raw classification otherwise, never worse than the raw classification for scores of at most 1.0 |
| Evidence.RetrieveTopK | src/matching/evidence_retriever.py:152-193 | an error exactly when nothing is indexed; otherwise min(k or `top_k`, number of texts) candidates, each the text, score and location of its hit, scores non-increasing |
| Evidence.BatchRetrieve | src/matching/evidence_retriever.py:195-217 | a non-empty batch fails exactly when a single retrieval fails (not indexed, or nothing to search), with that error; otherwise one record per query, each what a single retrieval with the query's skills (or none) gives |
| Evidence.BatchKeepsOrder | src/matching/evidence_retriever.py:208-217 | the i-th record of a batch answers the i-th query |
| Scorer.NewScorer | src/scoring/ats_scorer.py:30-59 | the weights are accepted exactly when their total lies within 0.01 of 1.0, and a refusal reports the total |
| Scorer.ScorerConstruction | src/scoring/ats_scorer.py:32-36 | the default weights 0.35, 0.25, 0.15, 0.15, 0.10 are accepted; weights totalling 0.90 are refused |
| Scorer.CoveredCount | src/scoring/ats_scorer.py:139-142 | the number of present or weak records never exceeds the number of records |
| Scorer.Coverage | src/scoring/ats_scorer.py:125-147 | in [0, 1]; 1.0 with no must-have skills; full exactly when the covered records are at least as many as the must-have skills; otherwise covered records over must-have skills |
| Scorer.Explicitness | src/scoring/ats_scorer.py:149-171 | in [0, 1]; 1.0 with no must-have skills; full exactly when every must-have skill is named case-insensitively among the resume's; otherwise the named share |
| Scorer.AllNamed | src/scoring/ats_scorer.py:149-171 | every must-have skill counts as named exactly when each is equal, case-insensitively, to some skill found in the resume |
| Scorer.RoleAlignment | src/scoring/ats_scorer.py:173-212 | in [0, 1]; 0.5 when either title is empty; 1.0 for case-insensitively equal titles; otherwise the role-keyword overlap |
| Scorer.RoleOverlap | src/scoring/ats_scorer.py:202-212 | 0.5 when the job title names no role keyword; otherwise the share of its role keywords the resume title also names, full exactly when it names all of them |
| Scorer.KeywordScore | src/scoring/ats_scorer.py:214-241 | in [0, 1]; 1.0 with no keywords; full exactly when every keyword is among the resume's skills or in the joined bullets, case-insensitively; otherwise the found share |
| Scorer.ExplicitnessAtMostKeywords | src/scoring/ats_scorer.py:149-241 | over the same skill set the keyword score is never below explicitness, since a named skill is also a found keyword |
| Scorer.BulletScore | src/scoring/ats_scorer.py:265-284 | one bullet scores in [0, 1], and 1 exactly when it has at most 28 words, starts with an action verb and holds a digit |
| Scorer.ScoreSum | src/scoring/ats_scorer.py:284-287 | the bullets' scores sum to at most one per bullet, reaching that only when every bullet is perfect |
| Ratios.SumOfUnitScores | src/scoring/ats_scorer.py:284-287 | a sum of scores in [0, 1] lies between 0 and their count, and equals the count exactly when every score is 1 |
| Scorer.WritingQuality | src/scoring/ats_scorer.py:243-289 | in [0, 1]; 0.5 with no bullets; otherwise the mean bullet score (the cap at 1.0 never applies), full exactly when every bullet scores full |
| Scorer.Trunc | src/scoring/ats_scorer.py:105 | `int(x)` truncates toward zero: within one below a non-negative number and within one above a negative one |
| Scorer.TruncMonotone | src/scoring/ats_scorer.py:105 | truncation is monotone |
| Scorer.WeightedSumBounds | src/scoring/ats_scorer.py:96-102 | with non-negative weights and unit-range components the weighted sum lies between 0 and the weight total |
| Scorer.ComputeBreakdown | src/scoring/ats_scorer.py:88-93 | every component of the breakdown lies in [0, 1] |
| Scorer.CalculateScore | src/scoring/ats_scorer.py:61-123 | the overall score is the weighted sum times 100 truncated; with non-negative weights it lies between 0 and the truncated weight total, and within 0..100 when the weights total at most 1.0; the explanation is that of the breakdown and score |
| Scorer.OverallBounds | src/scoring/ats_scorer.py:96-105 | the truncated weighted sum stays within 0 and 100 times the weight total for non-negative weights |
| Scorer.EmptyInputsScenario | src/scoring/ats_scorer.py:135-160 | with no must-have skills and no bullets coverage and explicitness are 1.0 and writing quality is 0.5 |
| Scorer.SingleSkillScenario | src/scoring/ats_scorer.py:125-171 | one must-have skill named literally and matched at 0.9 is present, with full coverage and full explicitness |
| Scorer.OverallRemarkMonotone | src/scoring/ats_scorer.py:300-306 | a lower overall score never gets a less corrective opening sentence |
| Scorer.Remarks | src/scoring/ats_scorer.py:298-330 | two to six remarks: the overall band first (strong at 80 and above, significant gaps below 60), the coverage band second, then only weak-component flags, each kind at most once and in the order explicitness, role, keywords, writing; the flag of explicitness below 0.6, role alignment below 0.5, keywords below 0.6, writing below 0.7 occurs exactly when that holds |
| Scorer.Flags | src/scoring/ats_scorer.py:317-330 | at most four flags, the flag of each component present exactly when the component is below its threshold |
| Scorer.FlagsOrdered | src/scoring/ats_scorer.py:317-330 | the flags are appended in the order explicitness, role, keywords, writing, each at most once, and no band sentence is among them |
| Scorer.PerfectRemarks | src/scoring/ats_scorer.py:298-332 | a perfect breakdown scoring 100 gets exactly the strong-match and excellent-coverage sentences |
| Scorer.RoundHalfEven | src/scoring/ats_scorer.py:310 | the `.0%` format rounds to a nearest integer |
| Scorer.RoundHalfEvenTies | src/scoring/ats_scorer.py:310 | ties go to the even neighbour: 12.5 to 12, 13.5 to 14 |
| Scorer.ExplanationText | src/scoring/ats_scorer.py:291-332 | the explanation opens with the overall sentence and a space and contains the sentence of every remark |
| Scorer.JoinContainsAll | src/scoring/ats_scorer.py:332 | every sentence occurs in the space-joined explanation |
| Scorer.EstimateScoreGain | src/scoring/ats_scorer.py:334-370 | the gain lies in 1..15; an unknown improvement kind gains 1; a component already at 1.0 gains 1 |
| Scorer.NoGapNoPotential | src/scoring/ats_scorer.py:352-363 | a full component with a non-negative weight has no potential gain |
| Scorer.GainMonotone | src/scoring/ats_scorer.py:349-370 | the weaker the addressed component, the larger or equal the estimated gain |
| Scorer.PotentialMonotone | src/scoring/ats_scorer.py:352-363 | the potential gain shrinks as the component grows |
| Scorer.GainExample | src/scoring/ats_scorer.py:352-370 | with the default weights and coverage at 0.0 the coverage gain is 7, and `role_alignment`, an unlisted kind, gains 1 |
| Sectionizer.TableKinds | src/extractors/resume_sectionizer.py:48-89 | the pattern table lists its section kinds in the order summary, experience, education, skills, projects, certifications, publications, awards |
| Sectionizer.FirstRow | src/extractors/resume_sectionizer.py:186-191 | none exactly when no pattern of any row matches; otherwise the kind of the first row with a matching pattern |
| Sectionizer.FirstMatchShift | src/extractors/resume_sectionizer.py:186-189 | behind a first row that does not match, the first match of the remaining rows is the first match of all rows |
| Sectionizer.FirstMatchUnique | src/extractors/resume_sectionizer.py:186-189 | the row at which matching first succeeds is the one reported |
| Sectionizer.IdentifySection | src/extractors/resume_sectionizer.py:182-191 | on the stripped lower-cased line: none exactly when no pattern matches at its start, otherwise the first matching row's kind, never HEADER or OTHER |
| Sectionizer.TableHeadingKinds | src/extractors/resume_sectionizer.py:48-89 | no row of the table announces HEADER or OTHER |
| Sectionizer.SkillsLineIsHeading | src/extractors/resume_sectionizer.py:182-191 | any line starting with "skills", such as "Skills: Python, SQL", is taken for the SKILLS heading |
| Sectionizer.SectionTitleShape | src/extractors/resume_sectionizer.py:193-195 | a section's title is Python's `title()` applied to the section's value |
| Sectionizer.SectionTitle | src/extractors/resume_sectionizer.py:193-195 | a section title is one capitalised word: an upper-case first letter followed by lower-case letters |
| Sectionizer.CleanBullet | src/extractors/resume_sectionizer.py:209 | the cleaned bullet starts with no marker character and occurs in the stripped line |
| Sectionizer.BulletOf | src/extractors/resume_sectionizer.py:202-211 | a line gives a bullet exactly when it starts with a bullet marker and something is left after its marker run; the bullet is that remainder |
| Sectionizer.HasBulletMarker | src/extractors/resume_sectionizer.py:202-207 | a line is marked exactly when, after its leading whitespace, it starts with one of `•-*+`, with digits and a dot, or with a lower-case letter and `)` |
| Sectionizer.ExtractBullets | src/extractors/resume_sectionizer.py:197-213 | at most one bullet per line of the text: the bullet of each line that has one, in line order |
| Sectionizer.BulletsSound | src/extractors/resume_sectionizer.py:197-213 | every bullet is the cleaned form of a marked line of the text, non-empty and starting with no marker character |
| Sectionizer.BulletsComplete | src/extractors/resume_sectionizer.py:197-213 | every marked line with something left after its marker run gives its bullet |
| Sectionizer.MarkerOnlyLineVanishes | src/extractors/resume_sectionizer.py:209-210 | a line made only of marker characters, such as "- managed a team" whose letters are all lower case, gives no bullet |
| Sectionizer.ResLineOf | src/extractors/resume_sectionizer.py:139-147 | a line is blank exactly when it strips to nothing, and a heading line announces a real section kind |
| Sectionizer.LoopMirrorsSegments | src/extractors/resume_sectionizer.py:138-164 | the main loop's state is the segments so far: the sections already emitted, the open section and its content |
| Sectionizer.MirrorStep | src/extractors/resume_sectionizer.py:139-164 | one more line keeps the loop state in step with the segments |
| Sectionizer.LoopEmitsSegments | src/extractors/resume_sectionizer.py:137-174 | the sections the loop emits are the segments, each with its kind, title, joined content and bullets, the last one only when it has content |
| Sectionizer.SegmentsFollowHeadings | src/extractors/resume_sectionizer.py:145-160 | one segment per heading line, in the order of the headings |
| Sectionizer.SegmentsKeepContent | src/extractors/resume_sectionizer.py:161-164 | the segments hold exactly the non-blank lines after the first heading, in order; content before it is dropped |
| Sectionizer.LoopEmitsNoHeader | src/extractors/resume_sectionizer.py:137-174 | no section the main loop emits is a HEADER or OTHER section |
| Sectionizer.CaptureEnd | src/extractors/resume_sectionizer.py:119-127 | header capture from a position stops at the first line it does not take, and at line 10 at the latest |
| Sectionizer.CaptureCount | src/extractors/resume_sectionizer.py:119-127 | the number of leading lines captured: at most ten, each non-blank and no heading, and the next line (before ten) not captured |
| Sectionizer.SectionizeBody | src/extractors/resume_sectionizer.py:103-176 | the sections after the header are those the loop emits for the lines after header capture, none of them HEADER |
| Sectionizer.SectionizeHeader | src/extractors/resume_sectionizer.py:119-135 | a HEADER section exists exactly when capture took a line; it is then first and only, titled "Header", without bullets, holding the captured lines stripped |
| Sectionizer.Sectionize | src/extractors/resume_sectionizer.py:103-176 | a HEADER section comes first exactly when capture took a line, and no other is HEADER; the rest are the emitted segments of the lines after capture; no section is OTHER |
| Sectionizer.NoOtherSection | src/extractors/resume_sectionizer.py:103-176 | no returned section is of kind OTHER: only the captured header and lines naming a recognised heading open sections |
| Sectionizer.BlankFirstLineNoHeader | src/extractors/resume_sectionizer.py:121-127 | a resume whose first line is blank has no HEADER section |
| Sectionizer.ExpLineOf | src/extractors/resume_sectionizer.py:256-281 | a job-header line keeps its stripped non-empty text; a bullet keeps its text without leading glyphs or spaces |
| Sectionizer.ExtractExperienceEntries | src/extractors/resume_sectionizer.py:245-248 | a section that is not EXPERIENCE gives no entries |
| Sectionizer.NothingBeforeFirstHeader | src/extractors/resume_sectionizer.py:253-265 | before the first job header nothing is open and no entry is finished |
| Sectionizer.EntriesSnoc | src/extractors/resume_sectionizer.py:256-292 | a blank or unmarked line changes nothing, a job header adds an entry, and a bullet joins the latest entry or is dropped before the first |
| Sectionizer.EntryPerHeader | src/extractors/resume_sectionizer.py:263-292 | one entry per job-header line, in order, each with that line as raw text and an empty company and title |
| Sectionizer.EntriesKeepBullets | src/extractors/resume_sectionizer.py:276-292 | the entries hold exactly the bullets after the first job header, in order; bullets before it are dropped |
| Suggestions.SkillsToAdd | src/generation/suggestion_generator.py:138 | exactly the missing skills whose lower-case form does not occur in the lower-cased section, in input order and as often as listed, none invented |
| Suggestions.GenerateSkillInsertions | src/generation/suggestion_generator.py:122-150 | the section unchanged when nothing is to be added; otherwise the comma-terminated section, a space and the skills to add joined with ", " |
| Suggestions.CommaTerminated | src/generation/suggestion_generator.py:144-146 | the stripped section, followed by a comma unless it is empty or already ends with one |
| Suggestions.InsertedSkillsPresent | src/generation/suggestion_generator.py:122-150 | after insertion every missing skill without surrounding whitespace occurs in the section, case-insensitively |
| Suggestions.SkillPresent | src/generation/suggestion_generator.py:138-148 | a skill that was added occurs in the appended list, and one that was skipped still occurs in the kept text |
| Suggestions.SkillInsertionIdempotent | src/generation/suggestion_generator.py:122-150 | inserting the same trimmed skills into the updated section a second time returns it unchanged |
| Suggestions.NothingToAdd | src/generation/suggestion_generator.py:138-141 | when every skill already occurs in the section there is nothing to add, and the section comes back as it was |
| Suggestions.SelectVerbGroup | src/generation/suggestion_generator.py:221-239 | the selected group has a keyword in the requirement and no group tried earlier has one; with no keyword at all it is the creation group |
| Suggestions.SelectActionVerbs | src/generation/suggestion_generator.py:221-239 | the verbs listed under the selected group's key, and a lookup error exactly when the table lacks that key |
| Suggestions.FirstPhraseIn | src/generation/suggestion_generator.py:358-366 | none exactly when no meta phrase occurs; otherwise the first phrase, in list order, that occurs |
| Suggestions.UnquotedLine | src/generation/suggestion_generator.py:343-385 | the chosen line neither starts nor ends with a quote character |
| Suggestions.ChosenLineRule | src/generation/suggestion_generator.py:372-382 | when a non-blank line is longer than twenty characters and opens with none of "here", "this", "note", the first such line is chosen; otherwise the first non-blank line |
| Suggestions.ExtractBulletFromResponse | src/generation/suggestion_generator.py:341-391 | the result never mentions "guideline" or "rewritten" in any case; it is the unquoted chosen line exactly when that line mentions neither, and the placeholder otherwise |
| Suggestions.PlaceholderIsClean | src/generation/suggestion_generator.py:388-389 | the placeholder itself mentions neither "guideline" nor "rewritten", so the cleanup's answer is always clean |
| Suggestions.NoPairNoContains | src/generation/suggestion_generator.py:388 | a text in which two neighbouring letters of a word never stand side by side does not contain the word |
| Suggestions.CallLlm | src/generation/suggestion_generator.py:241-252 | an answer exactly for the backends ollama, openai, anthropic and gemini, which is that backend's answer to the prompt; any other name is the unsupported-backend error |
| Suggestions.GenerateBulletRewrite | src/generation/suggestion_generator.py:87-120 | an error exactly for an unknown backend; otherwise an answer that mentions neither guidelines nor rewriting |
| Tailor.OrElse | src/core/ats_tailor.py:154 | `x or default` gives the value when it is present and non-empty, and the default otherwise |
| Tailor.LoadDocuments | src/core/ats_tailor.py:99-111 | the missing-resume error exactly when neither a resume path nor resume text is given; the missing-JD error exactly when a resume is given but no JD path or text; a path wins over text; resume text is cleaned and JD text used as given |
| Tailor.AllBullets | src/core/ats_tailor.py:191-196 | as many bullets as the sections hold together |
| Tailor.AllBulletsAt | src/core/ats_tailor.py:191-196 | bullet j of section i sits right after the bullets of the sections before i, so no bullet is lost or reordered |
| Tailor.SectionUnits | src/core/ats_tailor.py:202-217 | a section contributes one unit per bullet with its index, then its whole content with no index only when it has content and no bullets |
| Tailor.IndexUnits | src/core/ats_tailor.py:198-219 | as many units as bullets plus sections indexed whole |
| Tailor.BulletTextsOfSection | src/core/ats_tailor.py:204-209 | the per-bullet units of a section carry its bullets in order |
| Tailor.UnitsCarryAllBullets | src/core/ats_tailor.py:191-219 | the per-bullet units carry exactly the bullets the scorer sees, in the same order |
| Tailor.UnitsSound | src/core/ats_tailor.py:198-219 | every unit is a bullet or the whole content of some section, titled by that section |
| Tailor.UnitsComplete | src/core/ats_tailor.py:198-219 | every bullet of every section, and every section indexed whole, is a unit |
| Tailor.LongLines | src/core/ats_tailor.py:228 | a line is kept exactly when longer than five characters |
| Tailor.FirstFive | src/core/ats_tailor.py:226-227 | the first five lines of the split content, or all of them when there are fewer |
| Tailor.TitleCandidates | src/core/ats_tailor.py:223-229 | one title candidate per section |
| Tailor.ResumeTitle | src/core/ats_tailor.py:221-231 | "Professional" when no section offers a title line; otherwise the line of the first section that offers one |
| Tailor.SectionTitleOrigin | src/core/ats_tailor.py:223-229 | a title line comes from an EXPERIENCE section: one of its first five lines, stripped, longer than five characters, with no earlier line qualifying |
| Tailor.ResumeTitleOrigin | src/core/ats_tailor.py:221-231 | the title is "Professional" or the title line of some section |
| Tailor.MustHaves | src/core/ats_tailor.py:135-136 | exactly the must-have requirements, in order, each once |
| Tailor.EvidenceFor | src/core/ats_tailor.py:135-141 | a retrieval error exactly when there is a must-have requirement and the index is missing or yields no candidate; otherwise one record per must-have requirement, each the retrieval for its text and listed skills |
| Tailor.EditTarget | src/core/ats_tailor.py:150 | the bare section when there is no bullet index or it is 0 (falsy); otherwise "section > bullet " followed by a non-empty run of digits without a leading zero that reads back as the index, as `str(i)` renders it |
| Tailor.TargetSectionRoundTrip | src/core/ats_tailor.py:253 | splitting an edit target at '>' and stripping gives back the stripped section name, for a non-empty name without '>' |
| Tailor.TargetSection | src/core/ats_tailor.py:253 | "Experience" for an empty target; otherwise the stripped text before the first '>' (the whole target when there is none) |
| Text.SplitHead | src/core/ats_tailor.py:253 | the first piece of a split is the text up to the first separator, or the whole text |
| Tailor.MatchOf | src/core/ats_tailor.py:143-151 | a match carries the requirement's text, kind and listed skills and the record's status and similarity; it names evidence exactly when the status is not missing, and then the record's text; its edit target is the record's location |
| Tailor.Matches | src/core/ats_tailor.py:135-151 | one match per must-have requirement, in order |
| Tailor.MatchesOfMustHaves | src/core/ats_tailor.py:135-151 | each match is of a must-have requirement and names evidence exactly when it is not missing |
| Tailor.InsertBy | src/core/ats_tailor.py:288 | inserting adds the element once and nothing else |
| Tailor.InsertDescending | src/core/ats_tailor.py:288 | inserting into a list ranked by gain keeps it ranked |
| Tailor.SortBy | src/core/ats_tailor.py:288 | sorting is a permutation of its input |
| Tailor.SortDescending | src/core/ats_tailor.py:288 | `reverse=True` ranks the output by key, highest first |
| Tailor.InsertKeepsClasses | src/core/ats_tailor.py:288 | inserting keeps the order within each key and puts the new element last among its equals |
| Tailor.SortIsStable | src/core/ats_tailor.py:288 | the sort is stable: the elements of one key keep their input order |
| Tailor.Take | src/core/ats_tailor.py:290 | `s[:n]`: the first n elements, or all of them when there are fewer |
| Tailor.Flagged | src/core/ats_tailor.py:245-246 | exactly the matches that are weak or missing, in order, each once |
| Tailor.RewriteFor | src/core/ats_tailor.py:246-265 | the backend error exactly for an unknown backend; otherwise a bullet rewrite for the match's requirement, with the gain estimated for coverage (missing) or explicitness (weak), within 1..15 |
| Tailor.RewriteIsClean | src/core/ats_tailor.py:256-260 | a rewrite's suggested text never mentions guidelines or rewriting |
| Tailor.RewriteTargets | src/core/ats_tailor.py:253-255 | a rewrite targets the section read back from the match's edit target and is located at that edit target when it is non-empty; it quotes the match's evidence when there is some |
| Tailor.RewriteAll | src/core/ats_tailor.py:245-265 | the backend error exactly when some match is flagged and the backend is unknown; otherwise one rewrite per flagged match, in order |
| Tailor.FirstOfKind | src/core/ats_tailor.py:270 | none exactly when no section has the kind; otherwise a section of that kind |
| Tailor.FirstOfKindIsFirst | src/core/ats_tailor.py:319 | the section found is the first of its kind |
| Tailor.SkillInsertionFor | src/core/ats_tailor.py:267-285 | a skill insertion exactly when some must-have skill is not among the resume's and a SKILLS section exists; it targets "Skills", quotes the first such section, appends the listed missing skills to it and is scored as a coverage gain |
| Tailor.Candidates | src/core/ats_tailor.py:242-285 | the backend error exactly when a match is flagged and the backend is unknown; otherwise one rewrite per flagged match in order, then the skill insertion if any |
| Tailor.Rank | src/core/ats_tailor.py:287-290 | at most twenty suggestions, ranked by gain, drawn from the candidates, all of them when there are at most twenty, and no dropped candidate gains more than a kept one |
| Tailor.GenerateSuggestions | src/core/ats_tailor.py:233-290 | the backend error exactly when a match is flagged and the backend is unknown; otherwise at most twenty suggestions, ranked by gain, drawn from the candidates, none dropped when there are at most twenty, and none dropped that gains more than one kept |
| Tailor.RankKeepsAll | src/core/ats_tailor.py:287-290 | with at most twenty candidates every candidate is ranked |
| Tailor.RankNoDuplicate | src/core/ats_tailor.py:287-290 | a candidate that occurs once is ranked at most once |
| Tailor.CandidatesKinds | src/core/ats_tailor.py:242-285 | every candidate before the last is a bullet rewrite, so a skill insertion can only come last |
| Tailor.EveryFlaggedMatchRewritten | src/core/ats_tailor.py:245-290 | with a known backend and fewer than twenty flagged matches, every weak or missing match has a rewrite for its requirement among the suggestions |
| Tailor.AtMostOneInsertion | src/core/ats_tailor.py:267-290 | at most one skill insertion is suggested |
| Tailor.InsertionsInRanking | src/core/ats_tailor.py:287-290 | a ranking of candidates holding the insertion at most at the end holds at most one insertion |
| Tailor.BreakdownMap | src/core/ats_tailor.py:330-336 | the breakdown map has exactly the keys coverage, explicitness, role_alignment, keywords and writing, each holding its own component, with values in [0, 1] for a unit-range breakdown |
| Tailor.SummaryUpdate | src/core/ats_tailor.py:318-326 | the backend error exactly when the resume has a SUMMARY section and the backend is unknown; otherwise a summary exactly when such a section exists, namely the stripped answer of the backend to the prompt built from the first SUMMARY section's content, the job title and the first five listed must-have skills |
| Tailor.CompileResult | src/core/ats_tailor.py:292-342 | the report keeps the score, explanation and matches and the five named breakdown components; the insertions are the first ten of the listed must-have skills the resume lacks, without repeats; one edit per suggestion with its target, current text, suggested text, reason and gain; and a summary exactly when a SUMMARY section exists, the backend's stripped answer to the summary prompt |
| Tailor.ListedDistinct | src/core/ats_tailor.py:316 | a list made from a set, as `list(set)` makes it, has no repeated element |
| Tailor.ResumeSkills | src/core/ats_tailor.py:117-121 | a skill is the resume's exactly when the skills matcher extracts its canonical name from some section's content |
| Tailor.ReadResume | src/core/ats_tailor.py:113-121 | the sections are those `sectionize` gives for the resume, none of kind OTHER, and the skills are the union of the skills found in them |
| Tailor.ReadJd | src/core/ats_tailor.py:115 | the requirements are those `extract_requirements` gives for the job description, none of them nice-to-have |
| Tailor.AnalyzeTexts | src/core/ats_tailor.py:113-151 | fails exactly when the resume offers no unit to index (the index error) or, failing that, the job description has a must-have requirement and `top_k` is 0 (the no-candidate error); on success the sections and requirements are those read from the texts, the skill sets are the resume's skills and the must-have and preferred unions, and there is one record and one match per must-have requirement, in order, each naming that requirement's text |
| Tailor.Score | src/core/ats_tailor.py:153-167 | every breakdown component lies in [0, 1], and the overall score lies in 0..100 for non-negative weights totalling at most 1.0 |
| Tailor.Report | src/core/ats_tailor.py:169-189 | fails exactly when the backend is unknown and there is a flagged match to rewrite or a summary section to update, and then with the backend error; on success at most twenty edits ranked by gain, at most ten insertions all must-have skills the resume lacks, the five breakdown keys with unit-range values, and the analysis's matches |
| Tailor.Analyze | src/core/ats_tailor.py:80-189 | the two missing-input errors exactly as the inputs are absent; a backend error only for an unknown backend; once both documents load, a retrieval error exactly as `AnalyzeTexts` fails on them and with its cause; with a known backend, success exactly when the documents load and retrieval does not fail; on success at most twenty edits, at most ten insertions, the five breakdown keys, only must-have matches, and an overall score in 0..100 for non-negative weights totalling at most 1.0 |

## Left out

- The Streamlit UI, the FastAPI service, the example script and the packaging files: presentation and transport only.
- File reading, PDF/DOCX parsing and `_clean_text` in src/parsers/document_parser.py: I/O, modelled as the `readFile` and `cleanText` parameters.
- The sentence-embedding model, the FAISS index and `compute_similarity`: foreign numeric code. Retrieval takes a `Search` oracle that returns ranked `(score, unit)` hits, and `Evidence.SearchOk` states what it must satisfy.
- The four LLM backends (src/generation/suggestion_generator.py:254-339), including the error texts they return in place of an answer: network calls, modelled as the `call` parameter.
- The prompt texts (src/generation/suggestion_generator.py:171-219): modelled as the `rewritePrompt` and `summaryPrompt` parameters.
- Loading the skills taxonomy and the action-verb table from JSON: I/O. Both are passed in as values.
- Contact-information patterns, job-header date detection and parsing, and `extract_job_title`: regular-expression heuristics with no stable contract, modelled as parameters.
- Python's set iteration order (src/extractors/jd_extractor.py:200, src/core/ats_tailor.py:278,316,325): the `listing` parameter turns a set into a list. `Tailor.Enumerates` says only that it lists every element once; no particular order is assumed.
- IEEE floating point: scores are exact reals, so 0.33 + 0.33 + 0.34 is exactly 1. The tolerance test of src/scoring/ats_scorer.py:57-59 differs at its edge: in exact reals weights totalling 1.01 are accepted and a perfect breakdown scores 101 (`Scorer.OverallCanReach101`), whereas in doubles 0.36 + 0.25 + 0.15 + 0.15 + 0.10 lies just above 1.01 and is refused. The largest total doubles accept scores at most 100 with a perfect breakdown, so the program never reports 101.
- Unicode: lower-casing and whitespace cover ASCII only, and the bullet glyph is the one non-ASCII character modelled.
- `create_suggestion`: a plain record constructor, modelled by the `Suggestion` datatype's constructor.
- The optional years argument of `generate_summary_update`: `_compile_result` never passes it.
- The concrete examples of tests/test_basic.py: the taxonomy file they rely on is not part of this model.
- Tailor.Analyze: its contract states the missing-input and retrieval errors exactly, and success exactly for a known backend; with an unknown backend it states only that a backend error can occur. The report's content is stated by `Tailor.Report` and `Tailor.CompileResult`, not repeated here.
- Evidence.RetrieveEvidence: the boost is bounded from below only for scores of at most 1.0. A cosine score is never above 1.0, and `Evidence.BoostCanDemoteAboveOne` shows what happens otherwise.
- Scorer.RoundHalfEven: its contract bounds the rounding to half a unit. The tie-to-even rule is shown on examples by `Scorer.RoundHalfEvenTies`.
- Sectionizer.ExtractExperienceEntries: job-header detection and header parsing are parameters. Their result fields (duration, location) are passed through unchanged.

=== FILE: evidence.dfy ===
/** The evidence retriever (`src/matching/evidence_retriever.py`): a
    build-once/query-many index over resume units answering "which unit best
    supports this requirement" with a three-way classification.

    The embedding model and the FAISS inner-product index are not modelled:
    a query is answered by a `Search` oracle that, given the requirement text
    and a count `k`, returns `k` ranked hits `(score, unit position)`. */
module Evidence {
  import opened Text
  import opened Wrappers
  import opened Ratios

  /** `MatchStatus` */
  datatype MatchStatus = Present | Weak | Missing

  /** The favourability order present > weak > missing. */
  function Rank(s: MatchStatus): nat {
    match s
    case Present => 2
    case Weak => 1
    case Missing => 0
  }

  /** A unit handed to `index_resume`: text plus where it came from. */
  datatype Unit = Unit(text: String, section: String, bulletIndex: Option<nat>)

  /** The metadata kept per indexed unit. */
  datatype Location = Location(section: String, bulletIndex: Option<nat>)

  /** `Evidence` */
  datatype EvidenceRecord = EvidenceRecord(
    requirementText: String,
    resumeText: String,
    similarity: real,
    status: MatchStatus,
    section: String,
    bulletIndex: Option<nat>)

  /** One answer of the nearest-neighbour search. */
  datatype Hit = Hit(score: real, unit: int)

  /** The search oracle: requirement text and number of neighbours wanted. */
  type Search = (String, nat) -> seq<Hit>

  /** The retriever's state: thresholds, `top_k`, and the indexed units
      (`resume_texts`, `resume_metadata`); `indexed` is `index is not None`. */
  datatype Retriever = Retriever(
    tauHigh: real,
    tauLow: real,
    topK: nat,
    texts: seq<String>,
    metadata: seq<Location>,
    indexed: bool)

  datatype RetrievalError =
    | NotIndexed     // "Resume not indexed. Call index_resume() first."
    | NoCandidates   // the search returned no neighbour (k was 0)
    | EmptyIndex     // encoding no text gives an array without a second axis

  /** Texts and metadata are parallel lists. */
  predicate Valid(r: Retriever) {
    |r.texts| == |r.metadata|
  }

  /** An answer of `k` neighbours, all inside an index of `n` units, ranked
      by descending score. */
  predicate ValidAnswer(hits: seq<Hit>, k: nat, n: nat) {
    && |hits| == k
    && (forall j :: 0 <= j < |hits| ==> 0 <= hits[j].unit < n)
    && (forall j :: 0 < j < |hits| ==> hits[j - 1].score >= hits[j].score)
  }

  /** The oracle behaves like an exact inner-product index over `n` units. */
  ghost predicate SearchOk(search: Search, n: nat) {
    forall q, k: nat :: k <= n ==> ValidAnswer(search(q, k), k, n)
  }

  function Min(a: int, b: int): int {
    if a <= b then a else b
  }

  /** `EvidenceRetriever.__init__`: nothing indexed yet. */
  function NewRetriever(tauHigh: real, tauLow: real, topK: nat): (r: Retriever)
    ensures Valid(r) && !r.indexed && r.texts == []
    ensures r.tauHigh == tauHigh && r.tauLow == tauLow && r.topK == topK
  {
    Retriever(tauHigh, tauLow, topK, [], [], false)
  }

  /** `index_resume`: replaces texts and metadata by one entry per unit, in
      input order, and marks the retriever indexed. With no unit the
      encoder's result has no second axis and reading its dimension raises,
      so nothing gets indexed. */
  function IndexResume(r: Retriever, units: seq<Unit>): (res: Result<Retriever, RetrievalError>)
    ensures res.Failure? <==> units == []
    ensures res.Failure? ==> res.error == EmptyIndex
    ensures res.Success? ==>
              var r' := res.value;
              && Valid(r') && r'.indexed
              && |r'.texts| == |units|
              && (forall i :: 0 <= i < |units| ==>
                    r'.texts[i] == units[i].text
                    && r'.metadata[i] == Location(units[i].section, units[i].bulletIndex))
              && r'.tauHigh == r.tauHigh && r'.tauLow == r.tauLow && r'.topK == r.topK
  {
    if units == [] then Failure(EmptyIndex)
    else
      Success(r.(texts := seq(|units|, i requires 0 <= i < |units| => units[i].text),
                 metadata := seq(|units|, i requires 0 <= i < |units| =>
                                 Location(units[i].section, units[i].bulletIndex)),
                 indexed := true))
  }

  // ---------------------------------------------------------------------
  // Classification and boosting
  // ---------------------------------------------------------------------

  /** The three-way policy: present at or above `tauHigh`, else weak at or
      above `tauLow`, else missing. */
  function Classify(score: real, tauHigh: real, tauLow: real): (s: MatchStatus)
    ensures s == Present <==> score >= tauHigh
    ensures s == Weak <==> tauLow <= score < tauHigh
    ensures s == Missing <==> score < tauLow && score < tauHigh
  {
    if score >= tauHigh then Present
    else if score >= tauLow then Weak
    else Missing
  }

  /** Classification is monotone in the score, whatever the thresholds:
      the constructor never checks `tau_low <= tau_high`, and with the
      thresholds crossed nothing is ever weak. */
  lemma ClassifyMonotone(s1: real, s2: real, tauHigh: real, tauLow: real)
    requires s1 <= s2
    ensures Rank(Classify(s1, tauHigh, tauLow)) <= Rank(Classify(s2, tauHigh, tauLow))
  {
  }

  /** The default thresholds 0.75 / 0.50 at their boundaries. */
  lemma ClassifyDefaults()
    ensures Classify(0.50, 0.75, 0.50) == Weak
    ensures Classify(0.75, 0.75, 0.50) == Present
    ensures Classify(0.49, 0.75, 0.50) == Missing
    ensures Classify(0.74, 0.75, 0.50) == Weak
  {
  }

  /** How many of the requirement's skills (duplicates counted) occur,
      lower-cased, in the lower-cased unit text. */
  function SkillHits(skills: seq<String>, unitLower: String): (n: nat)
    ensures n <= |skills|
    ensures n == 0 <==> forall i :: 0 <= i < |skills| ==> !Contains(unitLower, Lower(skills[i]))
    decreases |skills|
  {
    if skills == [] then 0
    else
      (if Contains(unitLower, Lower(skills[0])) then 1 else 0)
      + SkillHits(skills[1..], unitLower)
  }

  /** The boosted score: 0.05 per skill hit, capped at 1.0; unchanged when
      no skill occurs. */
  function Boosted(score: real, hits: nat): (b: real)
    ensures hits == 0 ==> b == score
    ensures hits > 0 && score + 0.05 * hits as real <= 1.0 ==> b == score + 0.05 * hits as real
    ensures hits > 0 && score + 0.05 * hits as real >= 1.0 ==> b == 1.0
    ensures hits > 0 ==> b <= 1.0
    ensures score <= 1.0 ==> score <= b
    ensures b <= score + 0.05 * hits as real
  {
    if hits > 0 then MinReal(1.0, score + 0.05 * hits as real) else score
  }

  /** The re-evaluation after a boost: it can only assign present or weak,
      otherwise the earlier status stays. */
  function Reclassify(boosted: real, previous: MatchStatus, tauHigh: real, tauLow: real): (s: MatchStatus)
    ensures boosted >= tauHigh ==> s == Present
    ensures tauLow <= boosted < tauHigh ==> s == Weak
    ensures boosted < tauLow && boosted < tauHigh ==> s == previous
  {
    if boosted >= tauHigh then Present
    else if boosted >= tauLow then Weak
    else previous
  }

  /** Boosting never demotes: starting from any score, adding any
      non-negative amount and capping at 1.0 gives a status at least as
      favourable as before, unless both the score and `tauHigh` exceed 1.0
      (then the cap alone can push a present match below `tauHigh`). */
  lemma BoostNeverDemotes(score: real, delta: real, tauHigh: real, tauLow: real)
    requires delta >= 0.0
    requires score <= 1.0 || tauHigh <= 1.0
    ensures var before := Classify(score, tauHigh, tauLow);
            Rank(Reclassify(MinReal(1.0, score + delta), before, tauHigh, tauLow)) >= Rank(before)
  {
  }

  /** The exception to the previous lemma: with `tauHigh` and the score
      above 1.0 the cap demotes a present match. */
  lemma BoostCanDemoteAboveOne()
    ensures Classify(1.2, 1.1, 0.5) == Present
    ensures Reclassify(MinReal(1.0, 1.2 + 0.05), Present, 1.1, 0.5) == Weak
  {
  }

  /** With ordered thresholds and a score of at most 1.0, re-evaluation
      agrees with classifying the boosted score afresh. */
  lemma ReclassifyIsClassify(score: real, hits: nat, tauHigh: real, tauLow: real)
    requires tauLow <= tauHigh && score <= 1.0
    ensures Reclassify(Boosted(score, hits), Classify(score, tauHigh, tauLow), tauHigh, tauLow)
            == Classify(Boosted(score, hits), tauHigh, tauLow)
  {
  }

  // ---------------------------------------------------------------------
  // Retrieval
  // ---------------------------------------------------------------------

  /** Number of neighbours `retrieve_evidence` asks for. */
  function SearchWidth(r: Retriever): nat {
    Min(r.topK, |r.texts|)
  }

  /** `retrieve_evidence(requirement, requirement_skills)` */
  function RetrieveEvidence(r: Retriever, requirement: String, skills: seq<String>, search: Search)
    : (res: Result<EvidenceRecord, RetrievalError>)
    requires Valid(r)
    requires r.indexed ==> SearchOk(search, |r.texts|)
    ensures !r.indexed <==> res == Failure(NotIndexed)
    ensures r.indexed && (r.topK == 0 || r.texts == []) <==> res == Failure(NoCandidates)
    ensures res.Success? ==>
              var best := search(requirement, SearchWidth(r))[0];
              var before := Classify(best.score, r.tauHigh, r.tauLow);
              && 0 <= best.unit < |r.texts|
              && res.value.requirementText == requirement
              && res.value.resumeText == r.texts[best.unit]
              && res.value.section == r.metadata[best.unit].section
              && res.value.bulletIndex == r.metadata[best.unit].bulletIndex
              && (best.score <= 1.0 ==> best.score <= res.value.similarity)
              && ((best.score <= 1.0 || r.tauHigh <= 1.0) ==> Rank(res.value.status) >= Rank(before))
              && (SkillHits(skills, Lower(r.texts[best.unit])) == 0 ==>
                    res.value.similarity == best.score && res.value.status == before)
              && res.value.similarity == Boosted(best.score, SkillHits(skills, Lower(r.texts[best.unit])))
              && res.value.status == (if SkillHits(skills, Lower(r.texts[best.unit])) > 0
                                      then Reclassify(res.value.similarity, before, r.tauHigh, r.tauLow)
                                      else before)
  {
    if !r.indexed then Failure(NotIndexed)
    else
      var hits := search(requirement, SearchWidth(r));
      if |hits| == 0 then Failure(NoCandidates)
      else
        var best := hits[0];
        var i := best.unit;
        var before := Classify(best.score, r.tauHigh, r.tauLow);
        var n := SkillHits(skills, Lower(r.texts[i]));
        var score := Boosted(best.score, n);
        var status := if n > 0 then Reclassify(score, before, r.tauHigh, r.tauLow) else before;
        BoostNeverDemotesWith(best.score, n, r.tauHigh, r.tauLow);
        Success(EvidenceRecord(requirement, r.texts[i], score, status,
                               r.metadata[i].section, r.metadata[i].bulletIndex))
  }

  lemma BoostNeverDemotesWith(score: real, n: nat, tauHigh: real, tauLow: real)
    ensures n > 0 && (score <= 1.0 || tauHigh <= 1.0) ==>
              Rank(Reclassify(Boosted(score, n), Classify(score, tauHigh, tauLow), tauHigh, tauLow))
              >= Rank(Classify(score, tauHigh, tauLow))
  {
    if n > 0 && (score <= 1.0 || tauHigh <= 1.0) {
      BoostNeverDemotes(score, 0.05 * n as real, tauHigh, tauLow);
    }
  }

  /** One diagnostic candidate of `retrieve_top_k_evidence`. */
  datatype Candidate = Candidate(text: String, score: real, location: Location)

  /** `k or top_k`: an absent or zero `k` falls back to `top_k`. */
  function EffectiveK(r: Retriever, k: Option<nat>): nat {
    if k.None? || k.value == 0 then r.topK else k.value
  }

  /** `retrieve_top_k_evidence(requirement, k)` */
  function RetrieveTopK(r: Retriever, requirement: String, k: Option<nat>, search: Search)
    : (res: Result<seq<Candidate>, RetrievalError>)
    requires Valid(r)
    requires r.indexed ==> SearchOk(search, |r.texts|)
    ensures !r.indexed <==> res.Failure?
    ensures res.Success? ==>
              var hits := search(requirement, Min(EffectiveK(r, k), |r.texts|));
              && |res.value| == Min(EffectiveK(r, k), |r.texts|)
              && forall j :: 0 <= j < |res.value| ==>
                   res.value[j] == Candidate(r.texts[hits[j].unit], hits[j].score, r.metadata[hits[j].unit])
    ensures res.Success? ==>
              forall j :: 0 < j < |res.value| ==> res.value[j - 1].score >= res.value[j].score
  {
    if !r.indexed then Failure(NotIndexed)
    else
      var hits := search(requirement, Min(EffectiveK(r, k), |r.texts|));
      Success(seq(|hits|, j requires 0 <= j < |hits| =>
                  Candidate(r.texts[hits[j].unit], hits[j].score, r.metadata[hits[j].unit])))
  }

  /** A requirement handed to `batch_retrieve_evidence`: its text and, when
      the dictionary has the key, its skills. */
  datatype Query = Query(text: String, skills: Option<seq<String>>)

  /** `batch_retrieve_evidence`: one record per query, in order; the first
      failure is raised. A single retrieval fails only for reasons that do
      not depend on the query, so a non-empty batch fails exactly when its
      first query would. */
  function BatchRetrieve(r: Retriever, queries: seq<Query>, search: Search)
    : (res: Result<seq<EvidenceRecord>, RetrievalError>)
    requires Valid(r)
    requires r.indexed ==> SearchOk(search, |r.texts|)
    ensures !r.indexed && queries != [] ==> res == Failure(NotIndexed)
    ensures res.Failure? <==> queries != [] && (!r.indexed || r.topK == 0 || r.texts == [])
    ensures res.Failure? ==> res.error == (if r.indexed then NoCandidates else NotIndexed)
    ensures res.Success? ==> Answers(r, queries, search, res.value)
    decreases |queries|
  {
    if queries == [] then Success([])
    else
      var first := RetrieveEvidence(r, queries[0].text, queries[0].skills.GetOr([]), search);
      if first.Failure? then Failure(first.error)
      else
        var rest := BatchRetrieve(r, queries[1..], search);
        if rest.Failure? then rest
        else
          AnswersCons(r, queries, search, first.value, rest.value);
          Success([first.value] + rest.value)
  }

  /** `recs` holds, position by position, what a single retrieval answers
      for each query. */
  predicate Answers(r: Retriever, queries: seq<Query>, search: Search, recs: seq<EvidenceRecord>)
    requires Valid(r)
    requires r.indexed ==> SearchOk(search, |r.texts|)
  {
    && |recs| == |queries|
    && forall i :: 0 <= i < |queries| ==>
         RetrieveEvidence(r, queries[i].text, queries[i].skills.GetOr([]), search) == Success(recs[i])
  }

  lemma AnswersCons(r: Retriever, queries: seq<Query>, search: Search,
                    first: EvidenceRecord, rest: seq<EvidenceRecord>)
    requires Valid(r)
    requires r.indexed ==> SearchOk(search, |r.texts|)
    requires queries != []
    requires RetrieveEvidence(r, queries[0].text, queries[0].skills.GetOr([]), search) == Success(first)
    requires Answers(r, queries[1..], search, rest)
    ensures Answers(r, queries, search, [first] + rest)
  {
    var recs := [first] + rest;
    forall i | 1 <= i < |queries|
      ensures RetrieveEvidence(r, queries[i].text, queries[i].skills.GetOr([]), search) == Success(recs[i])
    {
      assert queries[i] == queries[1..][i - 1];
      assert recs[i] == rest[i - 1];
    }
  }

  /** A batch answers each query exactly as a single retrieval would; in
      particular every record's requirement text is its query's text. */
  lemma BatchKeepsOrder(r: Retriever, queries: seq<Query>, search: Search, i: nat)
    requires Valid(r)
    requires r.indexed ==> SearchOk(search, |r.texts|)
    requires BatchRetrieve(r, queries, search).Success?
    requires i < |queries|
    ensures BatchRetrieve(r, queries, search).value[i].requirementText == queries[i].text
  {
  }
}

=== FILE: jd.dfy ===
/** The job-description requirement extractor
    (`src/extractors/jd_extractor.py`): header lines switch between three
    requirement buckets, bucket lines become requirement lines once their
    bullet markers are stripped, and each requirement carries the taxonomy
    skills it names, a years-of-experience figure and a technical/soft flag. */
module Jd {
  import opened Text
  import opened Wrappers
  import opened Skills

  /** `RequirementType` */
  datatype RequirementType = MustHave | Preferred | Responsibility | NiceToHave
  {
    /** Position in the order `_split_into_sections` lists its buckets. */
    function Rank(): nat {
      match this
      case MustHave => 0
      case Preferred => 1
      case Responsibility => 2
      case NiceToHave => 3
    }
  }

  /** `JobRequirement`; the skills are a set because the source
      deduplicates them through a Python set and keeps no order. */
  datatype JobRequirement = JobRequirement(
    text: String,
    kind: RequirementType,
    skills: set<String>,
    yearsExperience: Option<nat>,
    isTechnical: bool)

  function MustHaveMarkers(): seq<String> {
    ["required", "requirements", "qualifications", "must have",
     "you have", "you bring", "minimum qualifications"]
  }

  function PreferredMarkers(): seq<String> {
    ["preferred", "nice to have", "bonus", "plus", "ideal",
     "preferred qualifications", "we'd love if"]
  }

  function ResponsibilityMarkers(): seq<String> {
    ["responsibilities", "you will", "what you'll do",
     "day-to-day", "role", "about the role"]
  }

  function TechnicalIndicators(): seq<String> {
    ["python", "sql", "java", "aws", "cloud", "machine learning",
     "data", "api", "framework", "library", "database", "tool",
     "platform", "system", "software", "code", "programming"]
  }

  function SoftIndicators(): seq<String> {
    ["communication", "leadership", "teamwork", "collaboration",
     "stakeholder", "presentation", "agile", "scrum"]
  }

  // ---------------------------------------------------------------------
  // Section headers and bucketing
  // ---------------------------------------------------------------------

  /** `_identify_section_type` on a stripped, lower-cased line: the marker
      lists are tried in the order must-have, preferred, responsibility. */
  function SectionTypeOf(line: String): (r: Option<RequirementType>)
    ensures r == Some(MustHave) <==> AnyIn(MustHaveMarkers(), line)
    ensures r == Some(Preferred) <==> !AnyIn(MustHaveMarkers(), line) && AnyIn(PreferredMarkers(), line)
    ensures r == Some(Responsibility) <==>
              !AnyIn(MustHaveMarkers(), line) && !AnyIn(PreferredMarkers(), line)
              && AnyIn(ResponsibilityMarkers(), line)
    ensures r != Some(NiceToHave)
  {
    if AnyIn(MustHaveMarkers(), line) then Some(MustHave)
    else if AnyIn(PreferredMarkers(), line) then Some(Preferred)
    else if AnyIn(ResponsibilityMarkers(), line) then Some(Responsibility)
    else None
  }

  /** A "Preferred Qualifications" header also contains the must-have
      marker "qualifications", so it opens the must-have bucket: the
      preferred marker of that name never decides a header. */
  lemma PreferredQualificationsIsMustHave(line: String)
    requires Contains(line, "preferred qualifications")
    ensures SectionTypeOf(line) == Some(MustHave)
  {
    var q := "qualifications";
    assert OccursAt("preferred qualifications", q, 10);
    ContainsTransitive(line, "preferred qualifications", q);
    assert MustHaveMarkers()[2] == q;
  }

  /** What a raw JD line is to the bucketing loop. */
  datatype LineKind = Blank | Header(kind: RequirementType) | Content

  function KindOfLine(line: String): (k: LineKind)
    ensures k.Blank? <==> Strip(line) == []
    ensures k.Header? ==> Strip(line) != [] && SectionTypeOf(Lower(Strip(line))) == Some(k.kind)
    ensures k.Content? <==> Strip(line) != [] && SectionTypeOf(Lower(Strip(line))).None?
  {
    var stripped := Lower(Strip(line));
    if stripped == [] then Blank
    else
      match SectionTypeOf(stripped)
      case Some(kind) => Header(kind)
      case None => Content
  }

  /** A raw line as the bucketing loop sees it: its kind and its stripped
      text. */
  datatype Classified = Classified(kind: LineKind, stripped: String)

  function Classify(lines: seq<String>): (cs: seq<Classified>)
    ensures |cs| == |lines|
    ensures forall i :: 0 <= i < |lines| ==> cs[i] == Classified(KindOfLine(lines[i]), Strip(lines[i]))
  {
    seq(|lines|, i requires 0 <= i < |lines| => Classified(KindOfLine(lines[i]), Strip(lines[i])))
  }

  /** The loop state of `_split_into_sections` after some lines: the most
      recent header's kind and the three buckets. */
  datatype Buckets = Buckets(
    current: Option<RequirementType>,
    mustHave: seq<String>,
    preferred: seq<String>,
    responsibility: seq<String>)
  {
    function Of(kind: RequirementType): seq<String> {
      match kind
      case MustHave => mustHave
      case Preferred => preferred
      case Responsibility => responsibility
      case NiceToHave => []
    }
  }

  function AddLine(b: Buckets, kind: RequirementType, line: String): (r: Buckets)
    ensures r.current == b.current
    ensures forall k :: r.Of(k) == if k == kind && k != NiceToHave then b.Of(k) + [line] else b.Of(k)
  {
    match kind
    case MustHave => b.(mustHave := b.mustHave + [line])
    case Preferred => b.(preferred := b.preferred + [line])
    case Responsibility => b.(responsibility := b.responsibility + [line])
    case NiceToHave => b
  }

  /** One iteration of the loop: blank lines are skipped, a header switches
      the current bucket, other lines join the current bucket stripped. */
  function BucketStep(b: Buckets, c: Classified): (r: Buckets)
    ensures r.current == if c.kind.Header? then Some(c.kind.kind) else b.current
    ensures forall k :: k != NiceToHave ==>
              r.Of(k) == b.Of(k) + (if c.kind.Content? && b.current == Some(k) then [c.stripped] else [])
  {
    match c.kind
    case Blank => b
    case Header(kind) => b.(current := Some(kind))
    case Content =>
      if b.current.Some? then AddLine(b, b.current.value, c.stripped) else b
  }

  /** The state after the loop has consumed the lines. */
  function Bucketing(cs: seq<Classified>): Buckets
    decreases |cs|
  {
    if cs == [] then Buckets(None, [], [], [])
    else BucketStep(Bucketing(cs[..|cs| - 1]), cs[|cs| - 1])
  }

  /** Line `i` is governed by a header of `kind`: some earlier line is such
      a header and no header lies between them. */
  predicate GovernedBy(cs: seq<Classified>, i: int, kind: RequirementType)
    requires 0 <= i <= |cs|
  {
    exists j :: 0 <= j < i && cs[j].kind == Header(kind)
                && forall l :: j < l < i ==> !cs[l].kind.Header?
  }

  lemma GovernedPrefix(cs: seq<Classified>, x: Classified, i: nat, kind: RequirementType)
    requires i <= |cs|
    ensures GovernedBy(cs + [x], i, kind) <==> GovernedBy(cs, i, kind)
  {
    var ls := cs + [x];
    assert forall l :: 0 <= l < |cs| ==> ls[l] == cs[l];
  }

  lemma GovernedSnoc(cs: seq<Classified>, x: Classified, kind: RequirementType)
    ensures GovernedBy(cs + [x], |cs| + 1, kind) <==>
              x.kind == Header(kind) || (!x.kind.Header? && GovernedBy(cs, |cs|, kind))
  {
    var ls := cs + [x];
    assert ls[|cs|] == x;
    assert forall l :: 0 <= l < |cs| ==> ls[l] == cs[l];
    if GovernedBy(ls, |cs| + 1, kind) && x.kind != Header(kind) {
      var j :| 0 <= j < |cs| + 1 && ls[j].kind == Header(kind)
               && forall l :: j < l < |cs| + 1 ==> !ls[l].kind.Header?;
      assert j < |cs|;
      assert GovernedBy(cs, |cs|, kind);
    }
  }

  /** The loop's current section is the kind of the most recent header. */
  lemma {:induction false} CurrentIsLatestHeader(cs: seq<Classified>, kind: RequirementType)
    ensures Bucketing(cs).current == Some(kind) <==> GovernedBy(cs, |cs|, kind)
    decreases |cs|
  {
    if cs != [] {
      var init, x := cs[..|cs| - 1], cs[|cs| - 1];
      assert cs == init + [x];
      CurrentIsLatestHeader(init, kind);
      GovernedSnoc(init, x, kind);
    }
  }

  /** Some content line, governed by a header of `kind`, strips to `s`. */
  predicate ContentOf(cs: seq<Classified>, kind: RequirementType, s: String) {
    exists i :: 0 <= i < |cs| && cs[i].kind.Content? && cs[i].stripped == s && GovernedBy(cs, i, kind)
  }

  /** A stripped line lands in a bucket exactly when some content line
      strips to it and the bucket's kind governs that line: blank lines,
      headers and lines before the first header are dropped. */
  lemma {:induction false} BucketMembership(cs: seq<Classified>, kind: RequirementType, s: String)
    requires kind != NiceToHave
    ensures s in Bucketing(cs).Of(kind) <==> ContentOf(cs, kind, s)
    decreases |cs|
  {
    if cs != [] {
      var init, x := cs[..|cs| - 1], cs[|cs| - 1];
      assert cs == init + [x];
      BucketMembership(init, kind, s);
      CurrentIsLatestHeader(init, kind);
      ContentSnoc(init, x, kind, s);
    }
  }

  lemma ContentSnoc(cs: seq<Classified>, x: Classified, kind: RequirementType, s: String)
    ensures ContentOf(cs + [x], kind, s) <==>
              ContentOf(cs, kind, s) || (x.kind.Content? && x.stripped == s && GovernedBy(cs, |cs|, kind))
  {
    var ls := cs + [x];
    assert ls[|cs|] == x;
    assert forall i :: 0 <= i < |cs| ==> ls[i] == cs[i];
    forall i | 0 <= i <= |cs| ensures GovernedBy(ls, i, kind) <==> GovernedBy(cs, i, kind) {
      GovernedPrefix(cs, x, i, kind);
    }
    if ContentOf(ls, kind, s) {
      var i :| 0 <= i < |ls| && ls[i].kind.Content? && ls[i].stripped == s && GovernedBy(ls, i, kind);
      if i < |cs| {
        assert ContentOf(cs, kind, s);
      }
    }
    if ContentOf(cs, kind, s) {
      var i :| 0 <= i < |cs| && cs[i].kind.Content? && cs[i].stripped == s && GovernedBy(cs, i, kind);
      assert ls[i] == cs[i];
    }
  }

  /** Each line's contribution to the bucket of `kind`: its stripped text
      when it is a content line governed by a header of that kind. */
  function GovernedOptions(cs: seq<Classified>, kind: RequirementType): (os: seq<Option<String>>)
    ensures |os| == |cs|
    ensures forall i :: 0 <= i < |cs| ==>
              os[i] == if cs[i].kind.Content? && GovernedBy(cs, i, kind) then Some(cs[i].stripped) else None
  {
    seq(|cs|, i requires 0 <= i < |cs| =>
        if cs[i].kind.Content? && GovernedBy(cs, i, kind) then Some(cs[i].stripped) else None)
  }

  /** A bucket holds its governed content lines in line order, each once:
      the loop neither reorders nor repeats lines. */
  lemma {:induction false} BucketOrder(cs: seq<Classified>, kind: RequirementType)
    requires kind != NiceToHave
    ensures Bucketing(cs).Of(kind) == Somes(GovernedOptions(cs, kind))
    decreases |cs|
  {
    if cs == [] {
      assert GovernedOptions(cs, kind) == [];
    } else {
      var init, x := cs[..|cs| - 1], cs[|cs| - 1];
      assert cs == init + [x];
      BucketOrder(init, kind);
      CurrentIsLatestHeader(init, kind);
      var last := if x.kind.Content? && GovernedBy(cs, |init|, kind) then Some(x.stripped) else None;
      GovernedOptionsSnoc(init, x, kind);
      SomesAppend(GovernedOptions(init, kind), [last]);
      SomesOne(last);
    }
  }

  lemma GovernedOptionsSnoc(cs: seq<Classified>, x: Classified, kind: RequirementType)
    ensures GovernedOptions(cs + [x], kind)
            == GovernedOptions(cs, kind)
               + [if x.kind.Content? && GovernedBy(cs, |cs|, kind) then Some(x.stripped) else None]
  {
    var ls := cs + [x];
    forall i | 0 <= i <= |cs|
      ensures GovernedBy(ls, i, kind) <==> GovernedBy(cs, i, kind)
    {
      GovernedPrefix(cs, x, i, kind);
    }
    assert forall i :: 0 <= i < |cs| ==> ls[i] == cs[i];
    assert ls[|cs|] == x;
  }

  /** A JD bucket, as `_split_into_sections` returns it. */
  datatype JdSection = JdSection(kind: RequirementType, content: String)

  /** The non-empty buckets, in the order must-have, preferred,
      responsibility, each joined with newlines. */
  function SectionsOf(b: Buckets): (r: seq<JdSection>)
    ensures |r| <= 3
    ensures forall i, j :: 0 <= i < j < |r| ==> r[i].kind.Rank() < r[j].kind.Rank()
    ensures forall i :: 0 <= i < |r| ==>
              r[i].kind != NiceToHave && b.Of(r[i].kind) != [] && r[i].content == Join(b.Of(r[i].kind), "\n")
    ensures forall k :: k != NiceToHave && b.Of(k) != [] ==> JdSection(k, Join(b.Of(k), "\n")) in r
  {
    (if b.mustHave != [] then [JdSection(MustHave, Join(b.mustHave, "\n"))] else [])
    + (if b.preferred != [] then [JdSection(Preferred, Join(b.preferred, "\n"))] else [])
    + (if b.responsibility != [] then [JdSection(Responsibility, Join(b.responsibility, "\n"))] else [])
  }

  /** `_split_into_sections` */
  function SplitIntoSections(text: String): (r: seq<JdSection>)
    ensures |r| <= 3
    ensures forall i, j :: 0 <= i < j < |r| ==> r[i].kind.Rank() < r[j].kind.Rank()
    ensures forall i :: 0 <= i < |r| ==> r[i].kind != NiceToHave
    ensures GovernedSections(Classify(Split(text, '\n')), r)
  {
    var cs := Classify(Split(text, '\n'));
    ClassifiedHaveNoNewline(Split(text, '\n'));
    SectionsAreGoverned(cs);
    SectionsOf(Bucketing(cs))
  }

  /** Each section splits into its governed content lines, in order, and
      every kind with such lines has its section. */
  predicate GovernedSections(cs: seq<Classified>, secs: seq<JdSection>) {
    && (forall i :: 0 <= i < |secs| ==> Split(secs[i].content, '\n') == Somes(GovernedOptions(cs, secs[i].kind)))
    && (forall k :: k != NiceToHave && Somes(GovernedOptions(cs, k)) != [] ==>
          exists i :: 0 <= i < |secs| && secs[i].kind == k)
  }

  lemma SectionsAreGoverned(cs: seq<Classified>)
    requires forall i :: 0 <= i < |cs| ==> '\n' !in cs[i].stripped
    ensures GovernedSections(cs, SectionsOf(Bucketing(cs)))
  {
    BucketsAreGoverned(cs);
    SectionsSplitToBuckets(cs);
  }

  /** Every bucket is its governed content lines, in order. */
  lemma BucketsAreGoverned(cs: seq<Classified>)
    ensures forall k :: k != NiceToHave ==> Bucketing(cs).Of(k) == Somes(GovernedOptions(cs, k))
  {
    forall k | k != NiceToHave
      ensures Bucketing(cs).Of(k) == Somes(GovernedOptions(cs, k))
    {
      BucketOrder(cs, k);
    }
  }

  lemma SectionsSplitToBuckets(cs: seq<Classified>)
    requires forall i :: 0 <= i < |cs| ==> '\n' !in cs[i].stripped
    ensures forall s :: 0 <= s < |SectionsOf(Bucketing(cs))| ==>
              Split(SectionsOf(Bucketing(cs))[s].content, '\n') == Bucketing(cs).Of(SectionsOf(Bucketing(cs))[s].kind)
  {
    forall s | 0 <= s < |SectionsOf(Bucketing(cs))|
      ensures Split(SectionsOf(Bucketing(cs))[s].content, '\n') == Bucketing(cs).Of(SectionsOf(Bucketing(cs))[s].kind)
    {
      SectionSplitsToBucket(cs, s);
    }
  }

  // ---------------------------------------------------------------------
  // Requirement lines
  // ---------------------------------------------------------------------

  /** The character class of the bullet pattern `^[\s•\-\*\+\d\.]+`. */
  predicate IsJdBulletChar(c: char) {
    IsSpace(c) || c == '•' || c == '-' || c == '*' || c == '+' || IsDigit(c) || c == '.'
  }

  /** The stripped line with its leading bullet run removed, stripped again. */
  function CleanRequirementLine(line: String): (r: String)
    ensures r == [] || !IsJdBulletChar(r[0])
    ensures Contains(Strip(line), r)
  {
    var u := DropWhile(Strip(line), IsJdBulletChar);
    CleanShape(Strip(line), u);
    Strip(u)
  }

  lemma CleanShape(s: String, u: String)
    requires u == DropWhile(s, IsJdBulletChar)
    ensures Strip(u) == [] || !IsJdBulletChar(Strip(u)[0])
    ensures Contains(s, Strip(u))
  {
    StripAfterDrop(s, IsJdBulletChar);
  }

  /** Whether `_extract_requirement_lines` keeps a line: at least ten
      characters once stripped, and something left after cleaning. */
  predicate KeptRequirementLine(line: String) {
    |Strip(line)| >= 10 && CleanRequirementLine(line) != []
  }

  /** A line as `_extract_requirement_lines` sees it: whether it is kept
      and its cleaned form. */
  datatype Candidate = Candidate(kept: bool, clean: String)

  function Candidates(lines: seq<String>): (cs: seq<Candidate>)
    ensures |cs| == |lines|
    ensures forall j :: 0 <= j < |lines| ==>
              cs[j] == Candidate(KeptRequirementLine(lines[j]), CleanRequirementLine(lines[j]))
  {
    seq(|lines|, j requires 0 <= j < |lines| =>
        Candidate(KeptRequirementLine(lines[j]), CleanRequirementLine(lines[j])))
  }

  /** Each candidate's contribution: its cleaned form when kept. */
  function KeptOptions(cs: seq<Candidate>): (os: seq<Option<String>>)
    ensures |os| == |cs|
    ensures forall j :: 0 <= j < |cs| ==> os[j] == if cs[j].kept then Some(cs[j].clean) else None
  {
    seq(|cs|, j requires 0 <= j < |cs| => if cs[j].kept then Some(cs[j].clean) else None)
  }

  /** The cleaned forms of the kept candidates, in order, one per kept
      candidate: the filter-map `Somes` of their contributions. */
  function KeptLines(cs: seq<Candidate>): (r: seq<String>)
    ensures |r| <= |cs|
    ensures r == Somes(KeptOptions(cs))
    decreases |cs|
  {
    if cs == [] then []
    else
      assert KeptOptions(cs)[1..] == KeptOptions(cs[1..]);
      (if cs[0].kept then [cs[0].clean] else []) + KeptLines(cs[1..])
  }

  /** `_extract_requirement_lines` over the split lines: the cleaned form of
      every kept line, in order; none is empty or starts with a bullet
      character. */
  function RequirementLines(lines: seq<String>): (r: seq<String>)
    ensures |r| <= |lines|
    ensures forall i :: 0 <= i < |r| ==> r[i] != [] && !IsJdBulletChar(r[i][0])
    ensures forall i :: 0 <= i < |r| ==> CleanedFrom(lines, r[i])
    ensures forall j :: 0 <= j < |lines| && KeptRequirementLine(lines[j]) ==> CleanRequirementLine(lines[j]) in r
    ensures r == Somes(LineOptions(lines))
  {
    KeptLinesSound(lines);
    KeptLinesComplete(lines);
    assert KeptOptions(Candidates(lines)) == LineOptions(lines);
    KeptLines(Candidates(lines))
  }

  /** Each line's contribution: its cleaned form when it is kept. */
  function LineOptions(lines: seq<String>): (os: seq<Option<String>>)
    ensures |os| == |lines|
    ensures forall j :: 0 <= j < |lines| ==>
              os[j] == if KeptRequirementLine(lines[j]) then Some(CleanRequirementLine(lines[j])) else None
  {
    seq(|lines|, j requires 0 <= j < |lines| =>
        if KeptRequirementLine(lines[j]) then Some(CleanRequirementLine(lines[j])) else None)
  }

  /** `t` is the cleaned form of a kept line. */
  predicate CleanedFrom(lines: seq<String>, t: String) {
    exists j :: 0 <= j < |lines| && KeptRequirementLine(lines[j]) && t == CleanRequirementLine(lines[j])
  }

  lemma KeptLinesSound(lines: seq<String>)
    ensures forall i :: 0 <= i < |KeptLines(Candidates(lines))| ==>
              && KeptLines(Candidates(lines))[i] != [] && !IsJdBulletChar(KeptLines(Candidates(lines))[i][0])
              && CleanedFrom(lines, KeptLines(Candidates(lines))[i])
  {
    var cs := Candidates(lines);
    var r := KeptLines(cs);
    forall i | 0 <= i < |r|
      ensures r[i] != [] && !IsJdBulletChar(r[i][0])
      ensures CleanedFrom(lines, r[i])
    {
      var j := SomesSound(KeptOptions(cs), i);
      assert KeptRequirementLine(lines[j]) && r[i] == CleanRequirementLine(lines[j]);
    }
  }

  lemma KeptLinesComplete(lines: seq<String>)
    ensures forall j :: 0 <= j < |lines| && KeptRequirementLine(lines[j]) ==>
              CleanRequirementLine(lines[j]) in KeptLines(Candidates(lines))
  {
    var cs := Candidates(lines);
    forall j | 0 <= j < |lines| && KeptRequirementLine(lines[j])
      ensures CleanRequirementLine(lines[j]) in KeptLines(cs)
    {
      SomesComplete(KeptOptions(cs), j);
    }
  }

  function ExtractRequirementLines(content: String): (r: seq<String>)
    ensures r == Somes(LineOptions(Split(content, '\n')))
    ensures forall i :: 0 <= i < |r| ==> r[i] != [] && !IsJdBulletChar(r[i][0])
  {
    RequirementLines(Split(content, '\n'))
  }

  // ---------------------------------------------------------------------
  // Parsing one requirement
  // ---------------------------------------------------------------------

  /** The Python loop of `_extract_skills` over the listings: a skill is
      taken when its canonical name, or failing that one of its aliases,
      occurs in the lower-cased text. */
  function SkillsIn(ls: seq<Listing>, textLower: String): (r: set<String>)
    ensures forall c :: c in r <==>
              exists p :: 0 <= p < |ls| && Mentioned(ls[p].skill, textLower) && ls[p].skill.canonical == c
    decreases |ls|
  {
    if ls == [] then {}
    else
      var s := ls[0].skill;
      var rest := SkillsIn(ls[1..], textLower);
      assert forall p :: 1 <= p < |ls| ==> ls[p] == ls[1..][p - 1];
      if Contains(textLower, Lower(s.canonical)) then {s.canonical} + rest
      else if FirstAliasIn(s.aliases, textLower).Some? then {s.canonical} + rest
      else rest
  }

  /** `_extract_skills`: the canonical names of the taxonomy skills the
      text mentions. */
  function ExtractJdSkills(tax: Taxonomy, text: String): (r: set<String>)
    ensures forall c :: c in r <==>
              exists p :: 0 <= p < |Listings(tax)| && Mentioned(Listings(tax)[p].skill, Lower(text))
                          && Listings(tax)[p].skill.canonical == c
  {
    SkillsIn(Listings(tax), Lower(text))
  }

  /** The requirement extractor and the skills matcher agree: the skills of
      a requirement are the canonical names `extract_skills_from_text`
      reports for it. */
  lemma JdSkillsAgreeWithMatcher(tax: Taxonomy, text: String)
    ensures ExtractJdSkills(tax, text) == Canonicals(ExtractSkills(tax, text))
  {
    ExtractedAreMentioned(tax, text);
  }

  /** What the years pattern needs after its digit run: an optional '+',
      optional whitespace, then "year" or "yr" in any case. */
  predicate UnitFollows(after: String) {
    UnitWord(SkipSpaces(if after != [] && after[0] == '+' then after[1..] else after))
  }

  /** The text starts with "year" or "yr", in any case (`years?|yrs?`:
      the optional 's' never changes whether the pattern matches). */
  predicate UnitWord(u: String) {
    && |u| >= 2 && LowerChar(u[0]) == 'y'
    && (LowerChar(u[1]) == 'r'
        || (|u| >= 4 && LowerChar(u[1]) == 'e' && LowerChar(u[2]) == 'a' && LowerChar(u[3]) == 'r'))
  }

  lemma UnitWordMeaning(u: String)
    ensures UnitWord(u) <==> StartsWith(Lower(u), "year") || StartsWith(Lower(u), "yr")
  {
    if |u| >= 4 {
      assert Lower(u)[..4] == [LowerChar(u[0]), LowerChar(u[1]), LowerChar(u[2]), LowerChar(u[3])];
    }
    if |u| >= 2 {
      assert Lower(u)[..2] == [LowerChar(u[0]), LowerChar(u[1])];
    }
  }

  /** The years pattern `(\d+)\+?\s*(?:years?|yrs?)` anchored at the start
      of `t`: the maximal digit run followed by a unit. A shorter digit run
      never helps, since a digit cannot start what follows it. */
  function MatchYears(t: String): (r: Option<nat>)
    ensures r.Some? ==> t != [] && IsDigit(t[0])
  {
    if t != [] && IsDigit(t[0]) then
      var digits := DigitRun(t);
      if UnitFollows(t[|digits|..]) then Some(DigitsValue(digits)) else None
    else None
  }

  /** The pattern tried at index `i` of `s`. */
  function YearsAt(s: String, i: nat): (r: Option<nat>)
    ensures r.Some? ==> i < |s| && IsDigit(s[i])
  {
    if i < |s| then MatchYears(s[i..]) else None
  }

  /** `_extract_years`: the value at the first index where the pattern
      matches (`re.search`), if any. */
  function ExtractYears(text: String): (r: Option<nat>)
    ensures r.None? <==> forall j: nat :: j <= |text| ==> YearsAt(text, j).None?
    ensures r.Some? ==> exists j: nat :: && j < |text| && IsDigit(text[j]) && YearsAt(text, j) == r
                                         && forall l: nat :: l < j ==> YearsAt(text, l).None?
  {
    var f := (j: nat) => YearsAt(text, j);
    assert forall j: nat :: f(j) == YearsAt(text, j);
    FirstFromNone(f, 0, |text|);
    var r := FirstFrom(f, 0, |text|);
    if r.Some? then FirstFromSome(f, 0, |text|); r else r
  }

  /** No years exactly when the pattern matches nowhere. */
  lemma ExtractYearsNone(text: String)
    ensures ExtractYears(text).None? <==> forall j: nat :: j <= |text| ==> YearsAt(text, j).None?
  {
    var f := (j: nat) => YearsAt(text, j);
    FirstFromNone(f, 0, |text|);
    assert forall j: nat :: f(j) == YearsAt(text, j);
  }

  /** Otherwise the years are the value of the leftmost match, which starts
      at a digit. */
  lemma ExtractYearsFirst(text: String) returns (j: nat)
    requires ExtractYears(text).Some?
    ensures j < |text| && IsDigit(text[j]) && YearsAt(text, j) == ExtractYears(text)
    ensures forall l: nat :: l < j ==> YearsAt(text, l).None?
  {
    var f := (j: nat) => YearsAt(text, j);
    j := FirstFromHit(f, 0, |text|);
    assert f(j) == YearsAt(text, j);
    assert forall l: nat :: f(l) == YearsAt(text, l);
  }

  /** Rendering a number and a unit word after digit-free text gives the
      number back. */
  lemma YearsRoundTrip(prefix: String, n: nat, plus: bool, unit: String)
    requires !HasDigit(prefix)
    requires UnitWord(unit)
    ensures ExtractYears(prefix + NatToString(n) + (if plus then "+" else "") + unit) == Some(n)
  {
    var d := NatToString(n);
    var mark: String := if plus then "+" else "";
    var s := prefix + d + mark + unit;
    YearsAtRendering(prefix, d, mark, unit);
    DigitsValueOfNatToString(n);
    forall l | 0 <= l < |prefix| ensures !IsDigit(s[l]) {
      assert s[l] == prefix[l];
    }
    FirstMatchWins(s, |prefix|, n);
  }

  /** A match preceded by no digit is the leftmost one. */
  lemma FirstMatchWins(s: String, i: nat, v: nat)
    requires YearsAt(s, i) == Some(v)
    requires forall l :: 0 <= l < i ==> !IsDigit(s[l])
    ensures ExtractYears(s) == Some(v)
  {
    ExtractYearsNone(s);
    var j := ExtractYearsFirst(s);
  }

  lemma YearsAtRendering(prefix: String, d: String, mark: String, unit: String)
    requires d != [] && forall i :: 0 <= i < |d| ==> IsDigit(d[i])
    requires mark == "+" || mark == ""
    requires UnitWord(unit)
    ensures YearsAt(prefix + d + mark + unit, |prefix|) == Some(DigitsValue(d))
  {
    var after := mark + unit;
    UnitAfterMark(mark, unit);
    MatchDigits(d, after);
    RenderingSuffix(prefix, d, mark, unit);
    YearsAtSuffix(prefix + d + mark + unit, |prefix|, d + after);
  }

  lemma RenderingSuffix(prefix: String, d: String, mark: String, unit: String)
    ensures (prefix + d + mark + unit)[|prefix|..] == d + (mark + unit)
  {
  }

  lemma YearsAtSuffix(s: String, i: nat, t: String)
    requires i < |s| && s[i..] == t
    ensures YearsAt(s, i) == MatchYears(t)
  {
  }

  /** The pattern matches a digit run followed by a unit. */
  lemma MatchDigits(d: String, after: String)
    requires d != [] && forall k :: 0 <= k < |d| ==> IsDigit(d[k])
    requires after == [] || !IsDigit(after[0])
    requires UnitFollows(after)
    ensures MatchYears(d + after) == Some(DigitsValue(d))
  {
    TakeDigits(d, after);
    assert (d + after)[|d|..] == after;
  }

  /** A unit word starts with a letter: neither a digit, a space nor '+'. */
  lemma UnitStart(unit: String)
    requires UnitWord(unit)
    ensures unit != [] && !IsDigit(unit[0]) && !IsSpace(unit[0]) && unit[0] != '+'
  {
  }

  lemma UnitAfterMark(mark: String, unit: String)
    requires mark == "+" || mark == ""
    requires UnitWord(unit)
    ensures UnitFollows(mark + unit)
    ensures !IsDigit((mark + unit)[0])
  {
    UnitStart(unit);
    var after := mark + unit;
    var rest := if after != [] && after[0] == '+' then after[1..] else after;
    assert rest == unit;
    assert SkipSpaces(unit) == unit;
  }

  /** A maximal digit run is what `TakeWhile` takes. */
  lemma {:induction false} TakeDigits(d: String, rest: String)
    requires forall i :: 0 <= i < |d| ==> IsDigit(d[i])
    requires rest == [] || !IsDigit(rest[0])
    ensures DigitRun(d + rest) == d
    decreases |d|
  {
    if d == [] {
      assert d + rest == rest;
    } else {
      assert (d + rest)[1..] == d[1..] + rest;
      TakeDigits(d[1..], rest);
    }
  }

  /** A line whose only digits lead it ("3+ years of Python") loses them to
      the bullet stripping, so no years are extracted from the requirement. */
  lemma LeadingYearsLost(line: String)
    requires !HasDigit(DropWhile(Strip(line), IsJdBulletChar))
    ensures ExtractYears(CleanRequirementLine(line)) == None
  {
    var u := DropWhile(Strip(line), IsJdBulletChar);
    var r := CleanRequirementLine(line);
    assert r == Strip(u);
    StripChars(u);
    forall i | 0 <= i < |r| ensures !IsDigit(r[i]) {
      assert r[i] in u;
    }
    ExtractYearsNone(r);
  }

  /** `_is_technical_requirement`: soft only when no technical indicator
      and some soft indicator occurs; technical by default. */
  function IsTechnical(text: String): (r: bool)
    ensures !r <==> !AnyIn(TechnicalIndicators(), Lower(text)) && AnyIn(SoftIndicators(), Lower(text))
  {
    var t := Lower(text);
    if AnyIn(TechnicalIndicators(), t) then true
    else if AnyIn(SoftIndicators(), t) then false
    else true
  }

  /** A technical indicator keeps a requirement technical whatever else it
      says. */
  lemma TechnicalWins(text: String, extra: String)
    requires AnyIn(TechnicalIndicators(), Lower(text))
    ensures IsTechnical(text + extra) && IsTechnical(extra + text)
  {
    var i :| 0 <= i < |TechnicalIndicators()| && Contains(Lower(text), TechnicalIndicators()[i]);
    LowerConcat(text, extra);
    LowerConcat(extra, text);
    ContainsPrefix(Lower(text), Lower(extra), TechnicalIndicators()[i]);
    ContainsSuffix(Lower(extra), Lower(text), TechnicalIndicators()[i]);
  }

  /** `_parse_requirement`: the line with its skills, years and flag. */
  /** Some listed skill with canonical name `c` is mentioned in the text. */
  predicate TaxonomyMentions(tax: Taxonomy, textLower: String, c: String) {
    exists p :: 0 <= p < |Listings(tax)| && Mentioned(Listings(tax)[p].skill, textLower)
                && Listings(tax)[p].skill.canonical == c
  }

  function ParseRequirement(tax: Taxonomy, text: String, kind: RequirementType): (q: JobRequirement)
    ensures q.text == text && q.kind == kind
    ensures forall c :: c in q.skills <==> TaxonomyMentions(tax, Lower(text), c)
    ensures q.yearsExperience.None? <==> forall j: nat :: j <= |text| ==> YearsAt(text, j).None?
    ensures q.yearsExperience.Some? ==>
              exists j: nat :: && j < |text| && YearsAt(text, j) == q.yearsExperience
                               && forall l: nat :: l < j ==> YearsAt(text, l).None?
    ensures !q.isTechnical <==> !AnyIn(TechnicalIndicators(), Lower(text)) && AnyIn(SoftIndicators(), Lower(text))
  {
    var skills := ExtractJdSkills(tax, text);
    assert forall c :: c in skills <==> TaxonomyMentions(tax, Lower(text), c);
    JobRequirement(text, kind, skills, ExtractYears(text), IsTechnical(text))
  }

  // ---------------------------------------------------------------------
  // Whole descriptions
  // ---------------------------------------------------------------------

  function ParseAll(tax: Taxonomy, lines: seq<String>, kind: RequirementType): (r: seq<JobRequirement>)
    ensures |r| == |lines|
    ensures forall i :: 0 <= i < |r| ==> r[i] == ParseRequirement(tax, lines[i], kind)
  {
    seq(|lines|, i requires 0 <= i < |lines| => ParseRequirement(tax, lines[i], kind))
  }

  /** A requirement line tagged with the kind of the bucket it came from. */
  datatype Tagged = Tagged(kind: RequirementType, text: String)

  /** The requirement lines of one section, with the section's kind. */
  datatype Group = Group(kind: RequirementType, lines: seq<String>)

  function Groups(sections: seq<JdSection>): (r: seq<Group>)
    ensures |r| == |sections|
    ensures forall s :: 0 <= s < |r| ==>
              r[s] == Group(sections[s].kind, ExtractRequirementLines(sections[s].content))
  {
    seq(|sections|, s requires 0 <= s < |sections| =>
        Group(sections[s].kind, ExtractRequirementLines(sections[s].content)))
  }

  /** Every tagged line is a line of some group, with the group's kind. */
  predicate FromGroups(gs: seq<Group>, ts: seq<Tagged>) {
    forall i :: 0 <= i < |ts| ==> exists g :: 0 <= g < |gs| && ts[i].kind == gs[g].kind && ts[i].text in gs[g].lines
  }

  /** Every line of every group is among the tagged lines. */
  predicate CoversGroups(gs: seq<Group>, ts: seq<Tagged>) {
    forall g, t :: 0 <= g < |gs| && t in gs[g].lines ==> Tagged(gs[g].kind, t) in ts
  }

  predicate RanksIncrease(gs: seq<Group>) {
    forall i, j :: 0 <= i < j < |gs| ==> gs[i].kind.Rank() < gs[j].kind.Rank()
  }

  predicate RanksSorted(ts: seq<Tagged>) {
    forall i, j :: 0 <= i < j < |ts| ==> ts[i].kind.Rank() <= ts[j].kind.Rank()
  }

  /** The number of lines of the groups together. */
  function LineCount(gs: seq<Group>): nat
    decreases |gs|
  {
    if gs == [] then 0 else |gs[0].lines| + LineCount(gs[1..])
  }

  /** The tagged lines are the groups' lines, group after group and each
      group's lines in their order, once each: line `k` of group `g` is at
      the number of lines before that group plus `k`. */
  predicate Placed(gs: seq<Group>, ts: seq<Tagged>) {
    && |ts| == LineCount(gs)
    && forall g, k :: 0 <= g < |gs| && 0 <= k < |gs[g].lines| ==> PlacedLine(gs, ts, g, k)
  }

  predicate PlacedLine(gs: seq<Group>, ts: seq<Tagged>, g: nat, k: nat)
    requires g < |gs| && k < |gs[g].lines|
  {
    LineCount(gs[..g]) + k < |ts| && ts[LineCount(gs[..g]) + k] == Tagged(gs[g].kind, gs[g].lines[k])
  }

  /** The lines before group `g` are those of the first group and those
      before `g` among the rest. */
  lemma PrefixCount(gs: seq<Group>, g: nat)
    requires 0 < g <= |gs|
    ensures LineCount(gs[..g]) == |gs[0].lines| + LineCount(gs[1..][..g - 1])
  {
    assert gs[..g][0] == gs[0];
    assert gs[..g][1..] == gs[1..][..g - 1];
  }

  lemma PlacedStep(gs: seq<Group>, head: seq<Tagged>, rest: seq<Tagged>)
    requires gs != []
    requires head == TagAll(gs[0])
    requires Placed(gs[1..], rest)
    ensures Placed(gs, head + rest)
  {
    assert |head + rest| == LineCount(gs);
    forall g, k | 0 <= g < |gs| && 0 <= k < |gs[g].lines|
      ensures PlacedLine(gs, head + rest, g, k)
    {
      PlacedAt(gs, head, rest, g, k);
    }
  }

  lemma PlacedAt(gs: seq<Group>, head: seq<Tagged>, rest: seq<Tagged>, g: nat, k: nat)
    requires gs != []
    requires head == TagAll(gs[0])
    requires Placed(gs[1..], rest)
    requires g < |gs| && k < |gs[g].lines|
    ensures PlacedLine(gs, head + rest, g, k)
  {
    if g == 0 {
      assert gs[..0] == [];
    } else {
      PrefixCount(gs, g);
      assert gs[1..][g - 1] == gs[g];
      assert gs[1..][g - 1].lines[k] == gs[g].lines[k];
      var p := LineCount(gs[1..][..g - 1]) + k;
      assert PlacedLine(gs[1..], rest, g - 1, k);
      assert p < |rest| && rest[p] == Tagged(gs[g].kind, gs[g].lines[k]);
      assert (head + rest)[|head| + p] == rest[p];
    }
  }

  function TagAll(g: Group): (r: seq<Tagged>)
    ensures |r| == |g.lines|
    ensures forall i :: 0 <= i < |r| ==> r[i] == Tagged(g.kind, g.lines[i])
  {
    seq(|g.lines|, i requires 0 <= i < |g.lines| => Tagged(g.kind, g.lines[i]))
  }

  /** The two loops of `extract_requirements` before parsing: the lines of
      each group in turn, tagged with its kind. */
  function TaggedLines(gs: seq<Group>): (r: seq<Tagged>)
    ensures FromGroups(gs, r)
    ensures CoversGroups(gs, r)
    ensures RanksIncrease(gs) ==> RanksSorted(r)
    ensures Placed(gs, r)
    decreases |gs|
  {
    if gs == [] then []
    else
      var head := TagAll(gs[0]);
      var rest := TaggedLines(gs[1..]);
      GroupsStep(gs, head, rest);
      PlacedStep(gs, head, rest);
      head + rest
  }

  lemma GroupsStep(gs: seq<Group>, head: seq<Tagged>, rest: seq<Tagged>)
    requires gs != []
    requires head == TagAll(gs[0])
    requires FromGroups(gs[1..], rest)
    requires CoversGroups(gs[1..], rest)
    requires RanksIncrease(gs[1..]) ==> RanksSorted(rest)
    ensures FromGroups(gs, head + rest)
    ensures CoversGroups(gs, head + rest)
    ensures RanksIncrease(gs) ==> RanksSorted(head + rest)
  {
    FromGroupsStep(gs, head, rest);
    CoversGroupsStep(gs, head, rest);
    if RanksIncrease(gs) {
      RanksStep(gs, head, rest);
    }
  }

  lemma FromGroupsStep(gs: seq<Group>, head: seq<Tagged>, rest: seq<Tagged>)
    requires gs != []
    requires head == TagAll(gs[0])
    requires FromGroups(gs[1..], rest)
    ensures FromGroups(gs, head + rest)
  {
    var r := head + rest;
    forall i | 0 <= i < |r|
      ensures exists g :: 0 <= g < |gs| && r[i].kind == gs[g].kind && r[i].text in gs[g].lines
    {
      if i < |head| {
        assert r[i] == Tagged(gs[0].kind, gs[0].lines[i]);
      } else {
        var q := rest[i - |head|];
        assert r[i] == q;
        var g :| 0 <= g < |gs[1..]| && q.kind == gs[1..][g].kind && q.text in gs[1..][g].lines;
        assert gs[1..][g] == gs[g + 1];
      }
    }
  }

  lemma CoversGroupsStep(gs: seq<Group>, head: seq<Tagged>, rest: seq<Tagged>)
    requires gs != []
    requires head == TagAll(gs[0])
    requires CoversGroups(gs[1..], rest)
    ensures CoversGroups(gs, head + rest)
  {
    var r := head + rest;
    forall g, t | 0 <= g < |gs| && t in gs[g].lines ensures Tagged(gs[g].kind, t) in r {
      if g == 0 {
        var k :| 0 <= k < |gs[0].lines| && gs[0].lines[k] == t;
        assert r[k] == Tagged(gs[0].kind, t);
      } else {
        assert gs[1..][g - 1] == gs[g];
        assert Tagged(gs[g].kind, t) in rest;
      }
    }
  }

  lemma RanksStep(gs: seq<Group>, head: seq<Tagged>, rest: seq<Tagged>)
    requires gs != []
    requires head == TagAll(gs[0])
    requires FromGroups(gs[1..], rest)
    requires RanksIncrease(gs[1..]) ==> RanksSorted(rest)
    requires RanksIncrease(gs)
    ensures RanksSorted(head + rest)
  {
    var r := head + rest;
    assert RanksIncrease(gs[1..]) by {
      forall i, j | 0 <= i < j < |gs[1..]| ensures gs[1..][i].kind.Rank() < gs[1..][j].kind.Rank() {
        assert gs[1..][i] == gs[i + 1] && gs[1..][j] == gs[j + 1];
      }
    }
    forall i, j | 0 <= i < j < |r| ensures r[i].kind.Rank() <= r[j].kind.Rank() {
      if j >= |head| {
        var q := rest[j - |head|];
        assert r[j] == q;
        var g :| 0 <= g < |gs[1..]| && q.kind == gs[1..][g].kind && q.text in gs[1..][g].lines;
        assert gs[1..][g] == gs[g + 1];
        if i >= |head| {
          assert r[i] == rest[i - |head|];
        } else {
          assert r[i] == Tagged(gs[0].kind, gs[0].lines[i]);
        }
      }
    }
  }

  /** The requirement lines of a description, in the order
      `extract_requirements` parses them: grouped by bucket in the order
      must-have, preferred, responsibility (NICE_TO_HAVE never occurs), each
      a non-empty line without a leading bullet character, and every
      requirement line of every bucket present. */
  function RequirementItems(jd: String): (r: seq<Tagged>)
    ensures forall i :: 0 <= i < |r| ==> r[i].kind != NiceToHave
    ensures RanksSorted(r)
    ensures forall i :: 0 <= i < |r| ==> r[i].text != [] && !IsJdBulletChar(r[i].text[0])
    ensures FromGroups(Groups(SplitIntoSections(jd)), r)
    ensures CoversGroups(Groups(SplitIntoSections(jd)), r)
    ensures Placed(Groups(SplitIntoSections(jd)), r)
  {
    var gs := Groups(SplitIntoSections(jd));
    SectionGroups(SplitIntoSections(jd));
    var r := TaggedLines(gs);
    CleanTagged(gs, r);
    r
  }

  /** Every group holds clean requirement lines of a kind other than
      nice-to-have. */
  predicate CleanGroups(gs: seq<Group>) {
    forall g :: 0 <= g < |gs| ==>
      && gs[g].kind != NiceToHave
      && forall k :: 0 <= k < |gs[g].lines| ==> gs[g].lines[k] != [] && !IsJdBulletChar(gs[g].lines[k][0])
  }

  lemma SectionGroups(sections: seq<JdSection>)
    requires forall i :: 0 <= i < |sections| ==> sections[i].kind != NiceToHave
    requires forall i, j :: 0 <= i < j < |sections| ==> sections[i].kind.Rank() < sections[j].kind.Rank()
    ensures CleanGroups(Groups(sections))
    ensures RanksIncrease(Groups(sections))
  {
    var gs := Groups(sections);
    forall g | 0 <= g < |gs|
      ensures gs[g].kind != NiceToHave
      ensures forall k :: 0 <= k < |gs[g].lines| ==> gs[g].lines[k] != [] && !IsJdBulletChar(gs[g].lines[k][0])
    {
      assert gs[g].lines == RequirementLines(Split(sections[g].content, '\n'));
    }
  }

  /** Lines taken from clean groups are clean. */
  lemma CleanTagged(gs: seq<Group>, r: seq<Tagged>)
    requires FromGroups(gs, r) && CleanGroups(gs)
    ensures forall i :: 0 <= i < |r| ==> r[i].kind != NiceToHave && r[i].text != [] && !IsJdBulletChar(r[i].text[0])
  {
    forall i | 0 <= i < |r|
      ensures r[i].kind != NiceToHave && r[i].text != [] && !IsJdBulletChar(r[i].text[0])
    {
      var g :| 0 <= g < |gs| && r[i].kind == gs[g].kind && r[i].text in gs[g].lines;
      var k :| 0 <= k < |gs[g].lines| && gs[g].lines[k] == r[i].text;
    }
  }

  /** Each tagged line parsed with its kind. */
  function ParseTagged(tax: Taxonomy, items: seq<Tagged>): (r: seq<JobRequirement>)
    ensures |r| == |items|
    ensures forall i :: 0 <= i < |r| ==>
              && r[i] == ParseRequirement(tax, items[i].text, items[i].kind)
              && r[i].text == items[i].text && r[i].kind == items[i].kind
  {
    seq(|items|, i requires 0 <= i < |items| => ParseRequirement(tax, items[i].text, items[i].kind))
  }

  /** `extract_requirements`: each requirement line parsed with the kind of
      its bucket. */
  function ExtractRequirements(tax: Taxonomy, jd: String): (r: seq<JobRequirement>)
    ensures |r| == |RequirementItems(jd)|
    ensures forall i :: 0 <= i < |r| ==>
              r[i].text == RequirementItems(jd)[i].text && r[i].kind == RequirementItems(jd)[i].kind
    ensures forall i :: 0 <= i < |r| ==> r[i].kind != NiceToHave
    ensures forall i, j :: 0 <= i < j < |r| ==> r[i].kind.Rank() <= r[j].kind.Rank()
  {
    ParseTagged(tax, RequirementItems(jd))
  }

  /** Each requirement carries the skills, years and flag of its own text. */
  lemma RequirementsAreParsed(tax: Taxonomy, jd: String, i: nat)
    requires i < |ExtractRequirements(tax, jd)|
    ensures var q := ExtractRequirements(tax, jd)[i];
            && q.skills == ExtractJdSkills(tax, q.text)
            && q.yearsExperience == ExtractYears(q.text)
            && q.isTechnical == IsTechnical(q.text)
  {
  }

  /** Some content line governed by a header of `kind` is kept and cleans
      to `text`. */
  predicate LineOrigin(cs: seq<Classified>, kind: RequirementType, text: String) {
    exists j :: 0 <= j < |cs| && cs[j].kind.Content? && GovernedBy(cs, j, kind)
                && KeptRequirementLine(cs[j].stripped) && text == CleanRequirementLine(cs[j].stripped)
  }

  /** Every requirement comes from one line of the description: a content
      line governed by a header of the requirement's kind, whose cleaned
      form is the requirement's text. */
  lemma RequirementsComeFromLines(tax: Taxonomy, jd: String, i: nat)
    requires i < |ExtractRequirements(tax, jd)|
    ensures LineOrigin(Classify(Split(jd, '\n')), ExtractRequirements(tax, jd)[i].kind,
                       ExtractRequirements(tax, jd)[i].text)
  {
    var items := RequirementItems(jd);
    var cs := Classify(Split(jd, '\n'));
    var gs := Groups(SectionsOf(Bucketing(cs)));
    assert gs == Groups(SplitIntoSections(jd));
    var g :| 0 <= g < |gs| && items[i].kind == gs[g].kind && items[i].text in gs[g].lines;
    ClassifiedHaveNoNewline(Split(jd, '\n'));
    GroupLineOrigin(cs, g, items[i].text);
  }

  /** Classified lines keep the split's property of holding no newline. */
  lemma ClassifiedHaveNoNewline(lines: seq<String>)
    requires forall i :: 0 <= i < |lines| ==> '\n' !in lines[i]
    ensures forall i :: 0 <= i < |Classify(lines)| ==> '\n' !in Classify(lines)[i].stripped
  {
    forall i | 0 <= i < |lines| ensures '\n' !in Strip(lines[i]) {
      StripChars(lines[i]);
    }
  }

  /** The lines of a bucket hold no newline, so splitting the joined
      section gives the bucket back. */
  lemma SectionSplitsToBucket(cs: seq<Classified>, s: nat)
    requires forall i :: 0 <= i < |cs| ==> '\n' !in cs[i].stripped
    requires s < |SectionsOf(Bucketing(cs))|
    ensures var sec := SectionsOf(Bucketing(cs))[s];
            Split(sec.content, '\n') == Bucketing(cs).Of(sec.kind)
  {
    var sec := SectionsOf(Bucketing(cs))[s];
    var bucket := Bucketing(cs).Of(sec.kind);
    forall k | 0 <= k < |bucket| ensures '\n' !in bucket[k] {
      BucketMembership(cs, sec.kind, bucket[k]);
    }
    SplitJoin(bucket, '\n');
  }

  lemma GroupLineOrigin(cs: seq<Classified>, g: nat, text: String)
    requires forall i :: 0 <= i < |cs| ==> '\n' !in cs[i].stripped
    requires g < |Groups(SectionsOf(Bucketing(cs)))|
    requires text in Groups(SectionsOf(Bucketing(cs)))[g].lines
    ensures LineOrigin(cs, Groups(SectionsOf(Bucketing(cs)))[g].kind, text)
  {
    var sections := SectionsOf(Bucketing(cs));
    var kind := sections[g].kind;
    var bucket := Bucketing(cs).Of(kind);
    SectionSplitsToBucket(cs, g);
    assert Groups(sections)[g].lines == RequirementLines(bucket);
    assert CleanedFrom(bucket, text);
    var b :| 0 <= b < |bucket| && KeptRequirementLine(bucket[b]) && text == CleanRequirementLine(bucket[b]);
    BucketMembership(cs, kind, bucket[b]);
  }

  /** Conversely, every kept content line under a requirement header
      becomes a requirement of that header's kind. */
  lemma LinesBecomeRequirements(tax: Taxonomy, jd: String, j: nat, kind: RequirementType)
    requires kind != NiceToHave
    requires var cs := Classify(Split(jd, '\n'));
             j < |cs| && cs[j].kind.Content? && GovernedBy(cs, j, kind) && KeptRequirementLine(cs[j].stripped)
    ensures var cs := Classify(Split(jd, '\n'));
            var req := ExtractRequirements(tax, jd);
            exists i :: 0 <= i < |req| && req[i].kind == kind && req[i].text == CleanRequirementLine(cs[j].stripped)
  {
    var cs := Classify(Split(jd, '\n'));
    var t := Tagged(kind, CleanRequirementLine(cs[j].stripped));
    ClassifiedHaveNoNewline(Split(jd, '\n'));
    var gs := Groups(SectionsOf(Bucketing(cs)));
    assert gs == Groups(SplitIntoSections(jd));
    var g := LineInGroup(cs, j, kind);
    var items := RequirementItems(jd);
    assert t in items;
    var i :| 0 <= i < |items| && items[i] == t;
    var req := ExtractRequirements(tax, jd);
    assert req[i].kind == kind && req[i].text == t.text;
  }

  lemma LineInGroup(cs: seq<Classified>, j: nat, kind: RequirementType) returns (g: nat)
    requires forall i :: 0 <= i < |cs| ==> '\n' !in cs[i].stripped
    requires kind != NiceToHave
    requires j < |cs| && cs[j].kind.Content? && GovernedBy(cs, j, kind) && KeptRequirementLine(cs[j].stripped)
    ensures g < |Groups(SectionsOf(Bucketing(cs)))|
    ensures Groups(SectionsOf(Bucketing(cs)))[g].kind == kind
    ensures CleanRequirementLine(cs[j].stripped) in Groups(SectionsOf(Bucketing(cs)))[g].lines
  {
    var line := cs[j].stripped;
    var bucket := Bucketing(cs).Of(kind);
    BucketMembership(cs, kind, line);
    assert ContentOf(cs, kind, line);
    var sections := SectionsOf(Bucketing(cs));
    assert JdSection(kind, Join(bucket, "\n")) in sections;
    g :| 0 <= g < |sections| && sections[g] == JdSection(kind, Join(bucket, "\n"));
    SectionSplitsToBucket(cs, g);
    var gs := Groups(sections);
    assert gs[g].lines == RequirementLines(bucket);
    var b :| 0 <= b < |bucket| && bucket[b] == line;
  }

  /** The skills of the requirements of one kind, united
      (`get_must_have_skills`, `get_preferred_skills`). */
  function SkillsOfKind(reqs: seq<JobRequirement>, kind: RequirementType): (r: set<String>)
    ensures forall c :: c in r <==> exists i :: 0 <= i < |reqs| && reqs[i].kind == kind && c in reqs[i].skills
    decreases |reqs|
  {
    if reqs == [] then {}
    else
      var rest := SkillsOfKind(reqs[1..], kind);
      assert forall i :: 1 <= i < |reqs| ==> reqs[i] == reqs[1..][i - 1];
      (if reqs[0].kind == kind then reqs[0].skills else {}) + rest
  }

  function MustHaveSkills(reqs: seq<JobRequirement>): (r: set<String>)
    ensures forall c :: c in r <==> exists i :: 0 <= i < |reqs| && reqs[i].kind == MustHave && c in reqs[i].skills
  {
    SkillsOfKind(reqs, MustHave)
  }

  function PreferredSkills(reqs: seq<JobRequirement>): (r: set<String>)
    ensures forall c :: c in r <==> exists i :: 0 <= i < |reqs| && reqs[i].kind == Preferred && c in reqs[i].skills
  {
    SkillsOfKind(reqs, Preferred)
  }

  /** Requirements of other kinds contribute nothing: dropping them leaves
      the union unchanged. */
  lemma {:induction false} OtherKindsIgnored(reqs: seq<JobRequirement>, other: JobRequirement, kind: RequirementType)
    requires other.kind != kind
    ensures SkillsOfKind(reqs + [other], kind) == SkillsOfKind(reqs, kind)
    ensures SkillsOfKind([other] + reqs, kind) == SkillsOfKind(reqs, kind)
  {
    var a, b := reqs + [other], [other] + reqs;
    assert forall i :: 0 <= i < |reqs| ==> a[i] == reqs[i] && b[i + 1] == reqs[i];
    assert a[|reqs|] == other && b[0] == other;
    forall c ensures c in SkillsOfKind(a, kind) <==> c in SkillsOfKind(reqs, kind) {
      if c in SkillsOfKind(a, kind) {
        var i :| 0 <= i < |a| && a[i].kind == kind && c in a[i].skills;
        assert i < |reqs|;
      }
    }
    forall c ensures c in SkillsOfKind(b, kind) <==> c in SkillsOfKind(reqs, kind) {
      if c in SkillsOfKind(b, kind) {
        var i :| 0 <= i < |b| && b[i].kind == kind && c in b[i].skills;
        assert i > 0 && b[i] == reqs[i - 1];
      }
    }
  }
}

=== FILE: ratios.dfy ===
/** Facts about finite-set sizes and the capped ratios `min(1.0, a / b)`
    that every sub-score is built from. */
module Ratios {

  function MinReal(a: real, b: real): real {
    if a <= b then a else b
  }

  /** A subset is no larger than its superset, and equally large only when
      the two are equal. */
  lemma {:induction false} SubsetSize<T>(a: set<T>, b: set<T>)
    requires a <= b
    ensures |a| <= |b|
    ensures |a| == |b| ==> a == b
    decreases |b|
  {
    if a != b {
      var x :| x in b && x !in a;
      SubsetSize(a, b - {x});
      assert |b - {x}| == |b| - 1;
    }
  }

  /** The ratio `n / d` with `0 <= n <= d`, `d > 0`: it lies in [0, 1],
      reaches 1 exactly when `n == d`, and times `d` gives back `n`. */
  lemma RatioFacts(n: real, d: real)
    requires 0.0 <= n <= d && 0.0 < d
    ensures 0.0 <= n / d <= 1.0
    ensures n / d == 1.0 <==> n == d
    ensures (n / d) * d == n
  {
    var q := n / d;
    assert q * d == n;
  }

  /** The capped ratio `min(1.0, n / d)` for any non-negative count: full
      exactly when `n >= d`, and equal to `n / d` below that. */
  lemma CappedRatioFacts(n: real, d: real)
    requires 0.0 <= n && 0.0 < d
    ensures 0.0 <= MinReal(1.0, n / d) <= 1.0
    ensures MinReal(1.0, n / d) == 1.0 <==> n >= d
    ensures n <= d ==> MinReal(1.0, n / d) * d == n
  {
    var q := n / d;
    assert q * d == n;
    if n <= d {
      RatioFacts(n, d);
    }
  }

  /** The share of `whole` that `part` covers, as `min(1.0, len(part) /
      len(whole))` computes it: in [0, 1], full exactly when the part is
      all of the whole, and times the size of the whole it gives the size
      of the part. */
  function Fraction<T>(part: set<T>, whole: set<T>): (r: real)
    requires part <= whole && whole != {}
    ensures 0.0 <= r <= 1.0
    ensures r == 1.0 <==> part == whole
    ensures r * |whole| as real == |part| as real
  {
    SubsetSize(part, whole);
    RatioFacts(|part| as real, |whole| as real);
    MinReal(1.0, |part| as real / |whole| as real)
  }

  /** A larger part of the same whole is a larger fraction. */
  lemma FractionMonotone<T>(p1: set<T>, p2: set<T>, whole: set<T>)
    requires p1 <= p2 <= whole && whole != {}
    ensures Fraction(p1, whole) <= Fraction(p2, whole)
  {
    SubsetSize(p1, p2);
    var d := |whole| as real;
    var f1, f2 := Fraction(p1, whole), Fraction(p2, whole);
    assert (f2 - f1) * d == f2 * d - f1 * d;
    NonNegativeFactor(f2 - f1, d);
  }

  /** The sum of a list of scores. */
  function Sum(xs: seq<real>): real
    decreases |xs|
  {
    if xs == [] then 0.0 else xs[0] + Sum(xs[1..])
  }

  /** Scores in [0, 1] sum to at most their number, and reach it exactly
      when every score is 1. */
  lemma {:induction false} SumOfUnitScores(xs: seq<real>)
    requires forall i :: 0 <= i < |xs| ==> 0.0 <= xs[i] <= 1.0
    ensures 0.0 <= Sum(xs) <= |xs| as real
    ensures Sum(xs) == |xs| as real <==> forall i :: 0 <= i < |xs| ==> xs[i] == 1.0
    decreases |xs|
  {
    if xs != [] {
      var rest := xs[1..];
      assert forall i :: 1 <= i < |xs| ==> xs[i] == rest[i - 1];
      SumOfUnitScores(rest);
    }
  }

  lemma NonNegativeFactor(x: real, d: real)
    requires d > 0.0 && x * d >= 0.0
    ensures x >= 0.0
  {
  }
}

=== FILE: scorer.dfy ===
/** The five-component ATS score (`src/scoring/ats_scorer.py`): coverage,
    explicitness, role alignment, keywords and writing quality, their
    weighted total scaled to an integer, the explanation text, and the
    per-suggestion gain estimate.

    Scores are exact reals; the source computes them in IEEE doubles. */
module Scorer {
  import opened Text
  import opened Wrappers
  import opened Ratios
  import opened Evidence

  /** The component weights, in the order of `self.weights`. */
  datatype Weights = Weights(
    coverage: real,
    explicitness: real,
    roleAlignment: real,
    keywords: real,
    writingQuality: real)

  /** The constructor's defaults. */
  const DefaultWeights: Weights := Weights(0.35, 0.25, 0.15, 0.15, 0.10)

  function WeightTotal(w: Weights): real {
    w.coverage + w.explicitness + w.roleAlignment + w.keywords + w.writingQuality
  }

  predicate NonNegative(w: Weights) {
    w.coverage >= 0.0 && w.explicitness >= 0.0 && w.roleAlignment >= 0.0
    && w.keywords >= 0.0 && w.writingQuality >= 0.0
  }

  function Abs(x: real): real {
    if x < 0.0 then -x else x
  }

  datatype ConfigError = WeightsDoNotSumToOne(total: real)

  /** `ATSScorer.__init__`: the weights are accepted when their total is
      within 0.01 of 1.0 and refused with the total otherwise. */
  function NewScorer(w: Weights): (r: Result<Weights, ConfigError>)
    ensures r.Success? <==> 0.99 <= WeightTotal(w) <= 1.01
    ensures r.Success? ==> r.value == w
    ensures r.Failure? ==> r.error.total == WeightTotal(w)
  {
    var total := WeightTotal(w);
    if Abs(total - 1.0) > 0.01 then Failure(WeightsDoNotSumToOne(total)) else Success(w)
  }

  /** The defaults are accepted; weights totalling 0.90 are refused. */
  lemma ScorerConstruction()
    ensures NewScorer(DefaultWeights) == Success(DefaultWeights)
    ensures NewScorer(Weights(0.30, 0.25, 0.10, 0.15, 0.10)).Failure?
  {
  }

  /** `ScoreBreakdown` */
  datatype Breakdown = Breakdown(
    coverage: real,
    explicitness: real,
    roleAlignment: real,
    keywords: real,
    writingQuality: real)

  predicate InUnitRange(b: Breakdown) {
    && 0.0 <= b.coverage <= 1.0
    && 0.0 <= b.explicitness <= 1.0
    && 0.0 <= b.roleAlignment <= 1.0
    && 0.0 <= b.keywords <= 1.0
    && 0.0 <= b.writingQuality <= 1.0
  }

  /** `{s.lower() for s in skills}` */
  function LowerAll(skills: set<String>): set<String> {
    set s | s in skills :: Lower(s)
  }

  // ---------------------------------------------------------------------
  // Coverage
  // ---------------------------------------------------------------------

  /** Number of evidence records that are present or weak. */
  function CoveredCount(evidence: seq<EvidenceRecord>): (n: nat)
    ensures n <= |evidence|
    decreases |evidence|
  {
    if evidence == [] then 0
    else (if evidence[0].status != Missing then 1 else 0) + CoveredCount(evidence[1..])
  }

  /** `_calculate_coverage`: covered evidence over the number of must-have
      skills (not the number of records), capped at 1.0. */
  function Coverage(mustHave: set<String>, evidence: seq<EvidenceRecord>): (r: real)
    ensures 0.0 <= r <= 1.0
    ensures mustHave == {} ==> r == 1.0
    ensures r == 1.0 <==> CoveredCount(evidence) >= |mustHave|
    ensures CoveredCount(evidence) <= |mustHave| && mustHave != {} ==>
              r * |mustHave| as real == CoveredCount(evidence) as real
  {
    if mustHave == {} then 1.0
    else
      CappedRatioFacts(CoveredCount(evidence) as real, |mustHave| as real);
      MinReal(1.0, CoveredCount(evidence) as real / |mustHave| as real)
  }

  // ---------------------------------------------------------------------
  // Explicitness
  // ---------------------------------------------------------------------

  /** The must-have skills named, case-insensitively, among the resume's. */
  function NamedSkills(mustHave: set<String>, resumeSkills: set<String>): set<String> {
    set k | k in mustHave && Lower(k) in LowerAll(resumeSkills)
  }

  /** `_calculate_explicitness` */
  function Explicitness(mustHave: set<String>, resumeSkills: set<String>): (r: real)
    ensures 0.0 <= r <= 1.0
    ensures mustHave == {} ==> r == 1.0
    ensures r == 1.0 <==>
              forall k :: k in mustHave ==> exists s :: s in resumeSkills && Lower(s) == Lower(k)
    ensures mustHave != {} ==> r * |mustHave| as real == |NamedSkills(mustHave, resumeSkills)| as real
  {
    var named := NamedSkills(mustHave, resumeSkills);
    AllNamed(mustHave, resumeSkills);
    if mustHave == {} then 1.0 else Fraction(named, mustHave)
  }

  /** Every must-have skill is named exactly when each has a resume skill
      equal to it up to case. */
  lemma AllNamed(mustHave: set<String>, resumeSkills: set<String>)
    ensures NamedSkills(mustHave, resumeSkills) == mustHave <==>
            forall k :: k in mustHave ==> exists s :: s in resumeSkills && Lower(s) == Lower(k)
  {
    var named := NamedSkills(mustHave, resumeSkills);
    if named == mustHave {
      forall k | k in mustHave ensures exists s :: s in resumeSkills && Lower(s) == Lower(k) {
        assert k in named;
        assert Lower(k) in LowerAll(resumeSkills);
      }
    }
    if forall k :: k in mustHave ==> exists s :: s in resumeSkills && Lower(s) == Lower(k) {
      forall k | k in mustHave ensures k in named {
        var s :| s in resumeSkills && Lower(s) == Lower(k);
        assert Lower(s) in LowerAll(resumeSkills);
      }
    }
  }

  // ---------------------------------------------------------------------
  // Role alignment
  // ---------------------------------------------------------------------

  function RoleKeywords(): seq<String> {
    [
    "data scientist", "ml engineer", "machine learning",
    "software engineer", "analyst", "engineer", "scientist",
    "developer", "architect", "manager", "lead", "senior",
    "junior", "staff", "principal"]
  }

  /** The role keywords occurring in a lower-cased title. The list has no
      duplicates, so this set has as many elements as the source's list. */
  function RolesIn(titleLower: String): set<String> {
    set kw | kw in RoleKeywords() && Contains(titleLower, kw)
  }

  /** `_calculate_role_alignment` */
  function RoleAlignment(jdTitle: String, resumeTitle: String): (r: real)
    ensures 0.0 <= r <= 1.0
    ensures jdTitle == [] || resumeTitle == [] ==> r == 0.5
    ensures jdTitle != [] && resumeTitle != [] && Lower(jdTitle) == Lower(resumeTitle) ==> r == 1.0
    ensures jdTitle != [] && resumeTitle != [] && Lower(jdTitle) != Lower(resumeTitle) ==>
              r == RoleOverlap(RolesIn(Lower(jdTitle)), RolesIn(Lower(resumeTitle)))
  {
    if jdTitle == [] || resumeTitle == [] then 0.5
    else
      var jdLower := Lower(jdTitle);
      var resumeLower := Lower(resumeTitle);
      if jdLower == resumeLower then 1.0
      else
        RoleOverlap(RolesIn(jdLower), RolesIn(resumeLower))
  }

  /** The share of the JD's role keywords the resume title also has; 0.5
      when the JD title has none. */
  function RoleOverlap(jdRoles: set<String>, resumeRoles: set<String>): (r: real)
    ensures 0.0 <= r <= 1.0
    ensures jdRoles == {} ==> r == 0.5
    ensures jdRoles != {} ==> r * |jdRoles| as real == |jdRoles * resumeRoles| as real
    ensures jdRoles != {} ==> (r == 1.0 <==> jdRoles <= resumeRoles)
  {
    if jdRoles == {} then 0.5 else Fraction(jdRoles * resumeRoles, jdRoles)
  }

  // ---------------------------------------------------------------------
  // Keywords
  // ---------------------------------------------------------------------

  /** A keyword counts when it is one of the resume's skills or occurs in
      the joined bullet text, both compared lower-cased. */
  predicate KeywordFound(keyword: String, resumeSkills: set<String>, bullets: seq<String>) {
    Lower(keyword) in LowerAll(resumeSkills) || Contains(Lower(Join(bullets, " ")), Lower(keyword))
  }

  function FoundKeywords(keywords: set<String>, resumeSkills: set<String>, bullets: seq<String>): set<String> {
    set k | k in keywords && KeywordFound(k, resumeSkills, bullets)
  }

  /** `_calculate_keyword_match` */
  function KeywordScore(keywords: set<String>, resumeSkills: set<String>, bullets: seq<String>): (r: real)
    ensures 0.0 <= r <= 1.0
    ensures keywords == {} ==> r == 1.0
    ensures r == 1.0 <==> forall k :: k in keywords ==> KeywordFound(k, resumeSkills, bullets)
    ensures keywords != {} ==>
              r * |keywords| as real == |FoundKeywords(keywords, resumeSkills, bullets)| as real
  {
    var found := FoundKeywords(keywords, resumeSkills, bullets);
    assert found == keywords <==> forall k :: k in keywords ==> KeywordFound(k, resumeSkills, bullets);
    if keywords == {} then 1.0 else Fraction(found, keywords)
  }

  /** Naming a skill outright also matches it as a keyword, so over the
      same skill set the keyword score is never below explicitness. */
  lemma ExplicitnessAtMostKeywords(skills: set<String>, resumeSkills: set<String>, bullets: seq<String>)
    ensures Explicitness(skills, resumeSkills) <= KeywordScore(skills, resumeSkills, bullets)
  {
    var named := NamedSkills(skills, resumeSkills);
    var found := FoundKeywords(skills, resumeSkills, bullets);
    assert named <= found;
    if skills != {} {
      FractionMonotone(named, found, skills);
    }
  }

  // ---------------------------------------------------------------------
  // Writing quality
  // ---------------------------------------------------------------------

  function ActionVerbs(): set<String> {
    {
    "led", "built", "developed", "created", "designed", "implemented",
    "improved", "optimized", "analyzed", "managed", "drove", "increased",
    "reduced", "launched", "established", "automated", "trained", "deployed"}
  }

  /** Points for length: 0.33 up to 28 words, 0.20 up to 35, none above. */
  function LengthPoints(wordCount: nat): real {
    if wordCount <= 28 then 0.33 else if wordCount <= 35 then 0.20 else 0.0
  }

  /** The lower-cased first word, or the empty string for a blank bullet. */
  function FirstWordLower(bullet: String): String {
    var ws := Words(bullet);
    if ws == [] then [] else Lower(ws[0])
  }

  /** One bullet's score: length points, 0.33 for an action verb first,
      0.34 for any digit. */
  function BulletScore(bullet: String): (r: real)
    ensures 0.0 <= r <= 1.0
    ensures r == 1.0 <==> |Words(bullet)| <= 28 && FirstWordLower(bullet) in ActionVerbs() && HasDigit(bullet)
  {
    LengthPoints(|Words(bullet)|)
    + (if FirstWordLower(bullet) in ActionVerbs() then 0.33 else 0.0)
    + (if HasDigit(bullet) then 0.34 else 0.0)
  }

  function BulletScores(bullets: seq<String>): (r: seq<real>)
    ensures |r| == |bullets|
    ensures forall i :: 0 <= i < |bullets| ==> r[i] == BulletScore(bullets[i]) && 0.0 <= r[i] <= 1.0
  {
    seq(|bullets|, i requires 0 <= i < |bullets| => BulletScore(bullets[i]))
  }

  /** The sum of the bullets' scores: at most one per bullet, and reaching
      that only when every bullet is perfect. */
  function ScoreSum(bullets: seq<String>): (t: real)
    ensures 0.0 <= t <= |bullets| as real
    ensures t == |bullets| as real <==> forall i :: 0 <= i < |bullets| ==> BulletScore(bullets[i]) == 1.0
  {
    var scores := BulletScores(bullets);
    SumOfUnitScores(scores);
    Sum(scores)
  }

  /** `_calculate_writing_quality`: the mean bullet score, 0.5 for no bullets. */
  function WritingQuality(bullets: seq<String>): (r: real)
    ensures 0.0 <= r <= 1.0
    ensures bullets == [] ==> r == 0.5
    ensures bullets != [] ==> r == ScoreSum(bullets) / |bullets| as real
    ensures bullets != [] ==> (r == 1.0 <==> forall i :: 0 <= i < |bullets| ==> BulletScore(bullets[i]) == 1.0)
  {
    if bullets == [] then 0.5
    else
      var t, n := ScoreSum(bullets), |bullets| as real;
      CappedMean(t, n);
      MinReal(1.0, t / n)
  }

  /** A total of at most one per item: capping its mean at 1.0 leaves the
      mean unchanged. */
  lemma CappedMean(t: real, n: real)
    requires 0.0 <= t <= n && 0.0 < n
    ensures 0.0 <= MinReal(1.0, t / n) <= 1.0
    ensures MinReal(1.0, t / n) == t / n
    ensures MinReal(1.0, t / n) == 1.0 <==> t == n
  {
    RatioFacts(t, n);
  }

  // ---------------------------------------------------------------------
  // Overall score
  // ---------------------------------------------------------------------

  /** Python's `int(x)`: truncation toward zero. */
  function Trunc(x: real): (n: int)
    ensures x >= 0.0 ==> n as real <= x < n as real + 1.0
    ensures x < 0.0 ==> n as real - 1.0 < x <= n as real
  {
    if x >= 0.0 then x.Floor else -((-x).Floor)
  }

  lemma TruncMonotone(x: real, y: real)
    requires x <= y
    ensures Trunc(x) <= Trunc(y)
  {
  }

  function WeightedSum(w: Weights, b: Breakdown): real {
    w.coverage * b.coverage + w.explicitness * b.explicitness
    + w.roleAlignment * b.roleAlignment + w.keywords * b.keywords
    + w.writingQuality * b.writingQuality
  }

  lemma ScaledTerm(w: real, c: real)
    requires w >= 0.0 && 0.0 <= c <= 1.0
    ensures 0.0 <= w * c <= w
  {
    assert w * (1.0 - c) >= 0.0;
  }

  /** With non-negative weights and unit-range components the weighted sum
      lies between 0 and the weight total. */
  lemma WeightedSumBounds(w: Weights, b: Breakdown)
    requires NonNegative(w) && InUnitRange(b)
    ensures 0.0 <= WeightedSum(w, b) <= WeightTotal(w)
  {
    var t1, t2, t3, t4, t5 := w.coverage * b.coverage, w.explicitness * b.explicitness,
      w.roleAlignment * b.roleAlignment, w.keywords * b.keywords, w.writingQuality * b.writingQuality;
    assert WeightedSum(w, b) == t1 + t2 + t3 + t4 + t5;
    TermBounds(w, b);
    SumOfFive(t1, t2, t3, t4, t5, w.coverage, w.explicitness, w.roleAlignment, w.keywords, w.writingQuality);
  }

  lemma TermBounds(w: Weights, b: Breakdown)
    requires NonNegative(w) && InUnitRange(b)
    ensures 0.0 <= w.coverage * b.coverage <= w.coverage
    ensures 0.0 <= w.explicitness * b.explicitness <= w.explicitness
    ensures 0.0 <= w.roleAlignment * b.roleAlignment <= w.roleAlignment
    ensures 0.0 <= w.keywords * b.keywords <= w.keywords
    ensures 0.0 <= w.writingQuality * b.writingQuality <= w.writingQuality
  {
    ScaledTerm(w.coverage, b.coverage);
    ScaledTerm(w.explicitness, b.explicitness);
    ScaledTerm(w.roleAlignment, b.roleAlignment);
    ScaledTerm(w.keywords, b.keywords);
    ScaledTerm(w.writingQuality, b.writingQuality);
  }

  lemma SumOfFive(a1: real, a2: real, a3: real, a4: real, a5: real,
                  w1: real, w2: real, w3: real, w4: real, w5: real)
    requires 0.0 <= a1 <= w1 && 0.0 <= a2 <= w2 && 0.0 <= a3 <= w3
    requires 0.0 <= a4 <= w4 && 0.0 <= a5 <= w5
    ensures 0.0 <= a1 + a2 + a3 + a4 + a5 <= w1 + w2 + w3 + w4 + w5
  {
  }

  /** `ATSScore`: the explanation is the rendered text. */
  datatype ATSScore = ATSScore(overall: int, breakdown: Breakdown, explanation: String)

  /** The arguments of `calculate_score`. `preferred` is accepted and not
      used, as in the source. */
  datatype ScoreInputs = ScoreInputs(
    mustHave: set<String>,
    preferred: set<String>,
    evidence: seq<EvidenceRecord>,
    resumeSkills: set<String>,
    bullets: seq<String>,
    jdTitle: String,
    resumeTitle: String,
    jdKeywords: set<String>)

  function ComputeBreakdown(inp: ScoreInputs): (b: Breakdown)
    ensures InUnitRange(b)
  {
    Breakdown(
      Coverage(inp.mustHave, inp.evidence),
      Explicitness(inp.mustHave, inp.resumeSkills),
      RoleAlignment(inp.jdTitle, inp.resumeTitle),
      KeywordScore(inp.jdKeywords, inp.resumeSkills, inp.bullets),
      WritingQuality(inp.bullets))
  }

  /** `calculate_score`: the overall score is the weighted sum scaled by 100
      and truncated (never rounded up); it stays within 0..100 whenever the
      weights are non-negative and total at most 1.0. */
  function CalculateScore(w: Weights, inp: ScoreInputs): (s: ATSScore)
    ensures s.breakdown == ComputeBreakdown(inp)
    ensures NonNegative(w) ==>
              s.overall as real <= WeightedSum(w, s.breakdown) * 100.0 < s.overall as real + 1.0
    ensures NonNegative(w) ==> 0 <= s.overall <= Trunc(100.0 * WeightTotal(w))
    ensures NonNegative(w) && WeightTotal(w) <= 1.0 ==> 0 <= s.overall <= 100
    ensures s.explanation == ExplanationText(s.breakdown, s.overall)
  {
    var b := ComputeBreakdown(inp);
    var overall := Trunc(WeightedSum(w, b) * 100.0);
    OverallBounds(w, b);
    ATSScore(overall, b, ExplanationText(b, overall))
  }

  lemma OverallBounds(w: Weights, b: Breakdown)
    requires InUnitRange(b)
    ensures NonNegative(w) ==> WeightedSum(w, b) >= 0.0
    ensures NonNegative(w) ==> 0 <= Trunc(WeightedSum(w, b) * 100.0) <= Trunc(100.0 * WeightTotal(w))
    ensures NonNegative(w) && WeightTotal(w) <= 1.0 ==> Trunc(WeightedSum(w, b) * 100.0) <= 100
  {
    if NonNegative(w) {
      WeightedSumBounds(w, b);
      TruncMonotone(WeightedSum(w, b) * 100.0, 100.0 * WeightTotal(w));
      if WeightTotal(w) <= 1.0 {
        TruncMonotone(100.0 * WeightTotal(w), 100.0);
      }
    }
  }

  /** A difference between exact reals and doubles: here weights totalling
      1.01 are accepted and a perfect resume scores 101. In doubles this
      total lies just above 1.01, so the tolerance test refuses it. */
  lemma OverallCanReach101()
    ensures var w := Weights(0.36, 0.25, 0.15, 0.15, 0.10);
            && NewScorer(w).Success?
            && Trunc(100.0 * WeightedSum(w, Breakdown(1.0, 1.0, 1.0, 1.0, 1.0))) == 101
  {
  }

  /** With nothing required and no bullets: coverage and explicitness are
      full, writing quality neutral. */
  lemma EmptyInputsScenario(inp: ScoreInputs)
    requires inp.mustHave == {} && inp.bullets == []
    ensures ComputeBreakdown(inp).coverage == 1.0
    ensures ComputeBreakdown(inp).explicitness == 1.0
    ensures ComputeBreakdown(inp).writingQuality == 0.5
  {
  }

  /** One must-have skill named literally and matched at 0.9 with
      `tauHigh` 0.75: present, full coverage and full explicitness. */
  lemma SingleSkillScenario(unit: String)
    ensures var status := Classify(0.9, 0.75, 0.5);
            var ev := EvidenceRecord("Python", unit, 0.9, status, "Experience", None);
            && status == Present
            && Coverage({"Python"}, [ev]) == 1.0
            && Explicitness({"Python"}, {"Python"}) == 1.0
  {
    var ev := EvidenceRecord("Python", unit, 0.9, Present, "Experience", None);
    assert CoveredCount([ev]) == 1;
    assert |{"Python"}| == 1;
  }

  // ---------------------------------------------------------------------
  // Explanation
  // ---------------------------------------------------------------------

  /** One sentence of the explanation; the sub-scores it quotes travel
      with it. */
  datatype Remark =
    | StrongMatch
    | GoodMatch
    | SignificantGaps
    | CoverageMissing(value: real)
    | CoverageMost(value: real)
    | CoverageExcellent(value: real)
    | ExplicitnessLow(value: real)
    | RoleMismatch(value: real)
    | KeywordsLow(value: real)
    | WritingLow(value: real)

  /** How corrective the overall sentence is: 0 strong, 1 good, 2 gaps. */
  function Severity(r: Remark): nat {
    match r
    case StrongMatch => 0
    case GoodMatch => 1
    case _ => 2
  }

  function OverallRemark(overall: int): Remark {
    if overall >= 80 then StrongMatch
    else if overall >= 60 then GoodMatch
    else SignificantGaps
  }

  /** A lower overall score never gets a less corrective sentence. */
  lemma OverallRemarkMonotone(lo: int, hi: int)
    requires lo <= hi
    ensures Severity(OverallRemark(lo)) >= Severity(OverallRemark(hi))
  {
  }

  function CoverageRemark(c: real): Remark {
    if c < 0.7 then CoverageMissing(c)
    else if c < 0.9 then CoverageMost(c)
    else CoverageExcellent(c)
  }

  /** Where a weak-component flag stands among the flags: explicitness,
      role, keywords, writing; 0 for the band sentences. */
  function LowRank(r: Remark): nat {
    match r
    case ExplicitnessLow(_) => 1
    case RoleMismatch(_) => 2
    case KeywordsLow(_) => 3
    case WritingLow(_) => 4
    case _ => 0
  }

  /** The sentences of `_generate_explanation`, in order: the overall band,
      the coverage band, then one flag per weak component. */
  function Remarks(b: Breakdown, overall: int): (rs: seq<Remark>)
    ensures 2 <= |rs| <= 6
    ensures rs[0] in {StrongMatch, GoodMatch, SignificantGaps}
    ensures (rs[0] == StrongMatch <==> overall >= 80) && (rs[0] == SignificantGaps <==> overall < 60)
    ensures rs[1] == CoverageMissing(b.coverage) <==> b.coverage < 0.7
    ensures rs[1] == CoverageExcellent(b.coverage) <==> b.coverage >= 0.9
    ensures rs[1] in {CoverageMissing(b.coverage), CoverageMost(b.coverage), CoverageExcellent(b.coverage)}
    ensures ExplicitnessLow(b.explicitness) in rs <==> b.explicitness < 0.6
    ensures RoleMismatch(b.roleAlignment) in rs <==> b.roleAlignment < 0.5
    ensures KeywordsLow(b.keywords) in rs <==> b.keywords < 0.6
    ensures WritingLow(b.writingQuality) in rs <==> b.writingQuality < 0.7
    ensures forall i :: 2 <= i < |rs| ==> 0 < LowRank(rs[i])
    ensures FlagsInOrder(rs[2..])
  {
    FlagsOrdered(b);
    BandsThenFlags([OverallRemark(overall), CoverageRemark(b.coverage)], Flags(b));
    [OverallRemark(overall), CoverageRemark(b.coverage)] + Flags(b)
  }

  /** Behind two band sentences, the flags are exactly the flagged part. */
  lemma BandsThenFlags(bands: seq<Remark>, fs: seq<Remark>)
    requires |bands| == 2 && LowRank(bands[0]) == 0 && LowRank(bands[1]) == 0
    ensures (bands + fs)[2..] == fs
    ensures forall x :: 0 < LowRank(x) ==> (x in bands + fs <==> x in fs)
  {
    assert (bands + fs)[2..] == fs;
  }

  /** Every sentence is a weak-component flag, each kind at most once, in
      the order explicitness, role, keywords, writing. */
  predicate FlagsInOrder(fs: seq<Remark>) {
    forall i, j :: 0 <= i < j < |fs| ==> 0 < LowRank(fs[i]) < LowRank(fs[j])
  }

  /** The weak-component flags of `_generate_explanation`. */
  function Flags(b: Breakdown): (fs: seq<Remark>)
    ensures |fs| <= 4
    ensures ExplicitnessLow(b.explicitness) in fs <==> b.explicitness < 0.6
    ensures RoleMismatch(b.roleAlignment) in fs <==> b.roleAlignment < 0.5
    ensures KeywordsLow(b.keywords) in fs <==> b.keywords < 0.6
    ensures WritingLow(b.writingQuality) in fs <==> b.writingQuality < 0.7
  {
    var e := FlagIf(b.explicitness < 0.6, ExplicitnessLow(b.explicitness));
    var ro := FlagIf(b.roleAlignment < 0.5, RoleMismatch(b.roleAlignment));
    var k := FlagIf(b.keywords < 0.6, KeywordsLow(b.keywords));
    var w := FlagIf(b.writingQuality < 0.7, WritingLow(b.writingQuality));
    assert forall x :: x in e + ro + k + w <==> x in e || x in ro || x in k || x in w;
    e + ro + k + w
  }

  /** The flags come in the source's order, each kind at most once, and
      no band sentence among them. */
  lemma FlagsOrdered(b: Breakdown)
    ensures FlagsInOrder(Flags(b))
    ensures forall i :: 0 <= i < |Flags(b)| ==> 0 < LowRank(Flags(b)[i])
  {
    FourFlags(FlagIf(b.explicitness < 0.6, ExplicitnessLow(b.explicitness)),
              FlagIf(b.roleAlignment < 0.5, RoleMismatch(b.roleAlignment)),
              FlagIf(b.keywords < 0.6, KeywordsLow(b.keywords)),
              FlagIf(b.writingQuality < 0.7, WritingLow(b.writingQuality)));
  }

  /** Four optional flags ranked 1 to 4, appended in rank order, are in
      order. */
  lemma FourFlags(e: seq<Remark>, ro: seq<Remark>, k: seq<Remark>, w: seq<Remark>)
    requires |e| <= 1 && forall i :: 0 <= i < |e| ==> LowRank(e[i]) == 1
    requires |ro| <= 1 && forall i :: 0 <= i < |ro| ==> LowRank(ro[i]) == 2
    requires |k| <= 1 && forall i :: 0 <= i < |k| ==> LowRank(k[i]) == 3
    requires |w| <= 1 && forall i :: 0 <= i < |w| ==> LowRank(w[i]) == 4
    ensures RankedUpTo(e + ro + k + w, 4)
  {
    FlagAppend([], e, 1);
    assert [] + e == e;
    FlagAppend(e, ro, 2);
    FlagAppend(e + ro, k, 3);
    FlagAppend(e + ro + k, w, 4);
  }

  /** One flag, raised exactly when its condition holds. */
  function FlagIf(cond: bool, x: Remark): (fs: seq<Remark>)
    ensures |fs| <= 1 && (x in fs <==> cond)
    ensures forall i :: 0 <= i < |fs| ==> fs[i] == x
    ensures forall y :: y in fs <==> cond && y == x
  {
    if cond then [x] else []
  }

  /** Flags in order, each ranked at most `n`. */
  predicate RankedUpTo(fs: seq<Remark>, n: nat) {
    FlagsInOrder(fs) && forall i :: 0 <= i < |fs| ==> 0 < LowRank(fs[i]) <= n
  }

  /** Appending flags ranked at `n` after flags ranked below `n` keeps the
      order. */
  lemma FlagAppend(fs: seq<Remark>, gs: seq<Remark>, n: nat)
    requires 0 < n && RankedUpTo(fs, n - 1)
    requires |gs| <= 1 && forall i :: 0 <= i < |gs| ==> LowRank(gs[i]) == n
    ensures RankedUpTo(fs + gs, n)
  {
    forall i | 0 <= i < |fs + gs|
      ensures (fs + gs)[i] == if i < |fs| then fs[i] else gs[i - |fs|]
    {
    }
  }

  /** A perfect breakdown with a strong score gets exactly two sentences. */
  lemma PerfectRemarks()
    ensures Remarks(Breakdown(1.0, 1.0, 1.0, 1.0, 1.0), 100) == [StrongMatch, CoverageExcellent(1.0)]
  {
  }

  /** Round half to even, as `format(x, '.0%')` rounds. */
  function RoundHalfEven(y: real): (n: int)
    ensures y - 0.5 <= n as real <= y + 0.5
  {
    var f := y.Floor;
    var frac := y - f as real;
    if frac < 0.5 then f
    else if frac > 0.5 then f + 1
    else if f % 2 == 0 then f
    else f + 1
  }

  lemma RoundHalfEvenTies()
    ensures RoundHalfEven(12.5) == 12 && RoundHalfEven(13.5) == 14 && RoundHalfEven(66.4) == 66
  {
  }

  function IntToString(n: int): String {
    if n < 0 then "-" + NatToString(-n) else NatToString(n)
  }

  /** `f"{x:.0%}"` */
  function Percent(x: real): String {
    IntToString(RoundHalfEven(x * 100.0)) + "%"
  }

  function Sentence(r: Remark): String {
    match r
    case StrongMatch => "Strong match for this role."
    case GoodMatch => "Good match with room for improvement."
    case SignificantGaps => "Significant gaps to address."
    case CoverageMissing(v) => "Coverage: " + Percent(v) + " - Missing key required skills."
    case CoverageMost(v) => "Coverage: " + Percent(v) + " - Most requirements covered."
    case CoverageExcellent(v) => "Coverage: " + Percent(v) + " - Excellent coverage."
    case ExplicitnessLow(v) => "Explicitness: " + Percent(v) + " - Need to name skills more explicitly."
    case RoleMismatch(v) => "Role alignment: " + Percent(v) + " - Title mismatch with target role."
    case KeywordsLow(v) => "Keywords: " + Percent(v) + " - Missing important technical keywords."
    case WritingLow(v) => "Writing: " + Percent(v) + " - Improve bullet structure and metrics."
  }

  function Sentences(rs: seq<Remark>): (ss: seq<String>)
    ensures |ss| == |rs|
    ensures forall i :: 0 <= i < |rs| ==> ss[i] == Sentence(rs[i])
  {
    seq(|rs|, i requires 0 <= i < |rs| => Sentence(rs[i]))
  }

  /** `" ".join(explanations)`: the text opens with the overall sentence
      and a space, and contains the sentence of every remark. */
  function ExplanationText(b: Breakdown, overall: int): (t: String)
    ensures StartsWith(t, Sentence(OverallRemark(overall)) + " ")
    ensures forall r :: r in Remarks(b, overall) ==> Contains(t, Sentence(r))
  {
    var rs := Remarks(b, overall);
    var ss := Sentences(rs);
    JoinStartsWith(ss, " ");
    JoinContainsAll(rs, " ");
    Join(ss, " ")
  }

  lemma JoinContainsAll(rs: seq<Remark>, sep: String)
    ensures forall r :: r in rs ==> Contains(Join(Sentences(rs), sep), Sentence(r))
  {
    forall r | r in rs ensures Contains(Join(Sentences(rs), sep), Sentence(r)) {
      var i :| 0 <= i < |rs| && rs[i] == r;
      JoinContains(Sentences(rs), sep, i);
    }
  }

  lemma JoinStartsWith(ls: seq<String>, sep: String)
    requires |ls| >= 2
    ensures StartsWith(Join(ls, sep), ls[0] + sep)
  {
    assert Join(ls, sep) == (ls[0] + sep) + Join(ls[1..], sep);
  }

  // ---------------------------------------------------------------------
  // Gain estimate
  // ---------------------------------------------------------------------

  /** `max(lo, min(hi, x))` */
  function Clamp(x: int, lo: int, hi: int): int {
    if x < lo then lo else if x > hi then hi else x
  }

  /** The improvement types `estimate_score_gain` tells apart. */
  datatype Improvement = CoverageGap | ExplicitnessGap | KeywordsGap | WritingGap | OtherImprovement

  /** The string dispatch: any other name, `"role_alignment"` included, gets
      the default potential. */
  function ParseImprovement(name: String): Improvement {
    if name == "coverage" then CoverageGap
    else if name == "explicitness" then ExplicitnessGap
    else if name == "keywords" then KeywordsGap
    else if name == "writing" then WritingGap
    else OtherImprovement
  }

  /** The sub-score an improvement addresses (writing maps to writing
      quality). */
  function Component(b: Breakdown, kind: Improvement): real
    requires kind != OtherImprovement
  {
    match kind
    case CoverageGap => b.coverage
    case ExplicitnessGap => b.explicitness
    case KeywordsGap => b.keywords
    case WritingGap => b.writingQuality
  }

  function ComponentWeight(w: Weights, kind: Improvement): real
    requires kind != OtherImprovement
  {
    match kind
    case CoverageGap => w.coverage
    case ExplicitnessGap => w.explicitness
    case KeywordsGap => w.keywords
    case WritingGap => w.writingQuality
  }

  /** The potential gain on the 0-100 scale: the weighted gap, or 5. */
  function Potential(w: Weights, b: Breakdown, kind: Improvement): real {
    if kind == OtherImprovement then 5.0
    else (1.0 - Component(b, kind)) * ComponentWeight(w, kind) * 100.0
  }

  /** `estimate_score_gain`: a fifth of the potential, truncated and clamped
      to 1..15. */
  function EstimateScoreGain(w: Weights, current: ATSScore, kindName: String): (g: int)
    ensures 1 <= g <= 15
    ensures ParseImprovement(kindName) == OtherImprovement ==> g == 1
    ensures var kind := ParseImprovement(kindName);
            (kind != OtherImprovement && Component(current.breakdown, kind) >= 1.0
             && ComponentWeight(w, kind) >= 0.0) ==> g == 1
  {
    var kind := ParseImprovement(kindName);
    NoGapNoPotential(w, current.breakdown, kind);
    Clamp(Trunc(Potential(w, current.breakdown, kind) * 0.2), 1, 15)
  }

  lemma NoGapNoPotential(w: Weights, b: Breakdown, kind: Improvement)
    ensures (kind != OtherImprovement && Component(b, kind) >= 1.0 && ComponentWeight(w, kind) >= 0.0)
            ==> Potential(w, b, kind) <= 0.0
  {
    if kind != OtherImprovement && Component(b, kind) >= 1.0 && ComponentWeight(w, kind) >= 0.0 {
      assert (1.0 - Component(b, kind)) * ComponentWeight(w, kind) <= 0.0;
    }
  }

  /** The weaker the addressed component, the larger (or equal) the
      estimated gain. */
  lemma GainMonotone(w: Weights, s1: ATSScore, s2: ATSScore, kindName: String)
    requires ParseImprovement(kindName) != OtherImprovement
    requires ComponentWeight(w, ParseImprovement(kindName)) >= 0.0
    requires Component(s1.breakdown, ParseImprovement(kindName)) <= Component(s2.breakdown, ParseImprovement(kindName))
    ensures EstimateScoreGain(w, s1, kindName) >= EstimateScoreGain(w, s2, kindName)
  {
    var kind := ParseImprovement(kindName);
    PotentialMonotone(w, s1.breakdown, s2.breakdown, kind);
    TruncMonotone(Potential(w, s2.breakdown, kind) * 0.2, Potential(w, s1.breakdown, kind) * 0.2);
  }

  lemma PotentialMonotone(w: Weights, b1: Breakdown, b2: Breakdown, kind: Improvement)
    requires kind != OtherImprovement && ComponentWeight(w, kind) >= 0.0
    requires Component(b1, kind) <= Component(b2, kind)
    ensures Potential(w, b2, kind) <= Potential(w, b1, kind)
  {
    var c1, c2, k := Component(b1, kind), Component(b2, kind), ComponentWeight(w, kind);
    assert (1.0 - c1) * k - (1.0 - c2) * k == (c2 - c1) * k;
  }

  /** With the default weights and coverage at 0.0, closing the coverage gap
      is worth 7 points; role alignment gets the default 1. */
  lemma GainExample(s: ATSScore)
    requires s.breakdown.coverage == 0.0
    ensures EstimateScoreGain(DefaultWeights, s, "coverage") == 7
    ensures EstimateScoreGain(DefaultWeights, s, "role_alignment") == 1
  {
    assert ParseImprovement("coverage") == CoverageGap;
  }
}

=== FILE: sectionizer.dfy ===
/** The resume sectionizer (`src/extractors/resume_sectionizer.py`): header
    recognition, the line-by-line section state machine, section titles,
    bullet extraction and the split of an experience section into job
    entries. Contact-information and job-header heuristics are parameters. */
module Sectionizer {
  import opened Text
  import opened Wrappers

  // ---------------------------------------------------------------------
  // Section types and sections
  // ---------------------------------------------------------------------

  datatype SectionType =
    | Header | Summary | Experience | Education | Skills | Projects
    | Certifications | Publications | Awards | Other
  {
    /** The enum's value string ("header", "summary", ...): the section
        title with its capital lower-cased. */
    function Value(): (r: String)
      ensures r != []
      ensures forall i :: 0 <= i < |r| ==> IsLowerLetter(r[i])
    {
      var title := SectionTitle(this);
      [LowerChar(title[0])] + title[1..]
    }
  }

  datatype ResumeSection = ResumeSection(
    kind: SectionType,
    title: String,
    content: String,
    bullets: seq<String>,
    metadata: map<String, String>)

  // ---------------------------------------------------------------------
  // Header recognition
  // ---------------------------------------------------------------------

  /** One start-anchored pattern of the header table: `^word` when `lead`
      is empty, `^lead\s+word` when the lead is mandatory and
      `^(lead\s+)?word` when it is optional. An optional tail such as `s?`
      or `(\s+me)?` never decides whether a pattern matches, so the word
      is written without it. */
  datatype Pattern = Pattern(lead: String, leadOptional: bool, word: String)

  /** `\s+word` at the start of the text (the word never starts with
      whitespace, so taking all the whitespace loses no match). */
  predicate SpacedWord(t: String, word: String) {
    t != [] && IsSpace(t[0]) && StartsWith(SkipSpaces(t), word)
  }

  /** `pattern.match(line)` */
  predicate PatternMatches(p: Pattern, line: String) {
    || ((p.lead == [] || p.leadOptional) && StartsWith(line, p.word))
    || (p.lead != [] && StartsWith(line, p.lead) && SpacedWord(line[|p.lead|..], p.word))
  }

  /** The patterns that announce one section type. */
  datatype Row = Row(kind: SectionType, patterns: seq<Pattern>)

  predicate RowMatches(row: Row, line: String) {
    exists k :: 0 <= k < |row.patterns| && PatternMatches(row.patterns[k], line)
  }

  /** The header table, in the order the types are tried. */
  function SectionTable(): seq<Row> {
    [ Row(Summary, [Pattern("professional", true, "summary"), Pattern("", false, "profile"),
                    Pattern("", false, "objective"), Pattern("", false, "about")]),
      Row(Experience, [Pattern("work", true, "experience"), Pattern("", false, "employment"),
                       Pattern("professional", false, "experience"), Pattern("career", false, "history")]),
      Row(Education, [Pattern("", false, "education"), Pattern("academic", false, "background")]),
      Row(Skills, [Pattern("technical", true, "skills"), Pattern("", false, "competencies"),
                   Pattern("", false, "expertise"), Pattern("", false, "technologies")]),
      Row(Projects, [Pattern("", false, "projects"), Pattern("key", false, "projects"),
                     Pattern("selected", false, "projects")]),
      Row(Certifications, [Pattern("", false, "certification"), Pattern("", false, "license")]),
      Row(Publications, [Pattern("", false, "publication"), Pattern("", false, "paper")]),
      Row(Awards, [Pattern("", false, "award"), Pattern("", false, "honor"), Pattern("", false, "achievement")]) ]
  }

  /** The kinds of the table's rows, in order. */
  function TableOrder(): seq<SectionType> {
    [Summary, Experience, Education, Skills, Projects, Certifications, Publications, Awards]
  }

  function RowKind(row: Row): SectionType {
    row.kind
  }

  lemma TableKinds()
    ensures Map(RowKind, SectionTable()) == TableOrder()
  {
  }

  predicate NoRowMatches(rows: seq<Row>, line: String) {
    forall k :: 0 <= k < |rows| ==> !RowMatches(rows[k], line)
  }

  /** Row `k` matches the line and no earlier row does. */
  predicate FirstMatchAt(rows: seq<Row>, line: String, k: nat) {
    k < |rows| && RowMatches(rows[k], line) && forall l :: 0 <= l < k ==> !RowMatches(rows[l], line)
  }

  /** `kind` is the kind of the first row that matches the line. */
  ghost predicate FirstMatchIs(rows: seq<Row>, line: String, kind: SectionType) {
    exists k: nat :: FirstMatchAt(rows, line, k) && rows[k].kind == kind
  }

  /** The kind of the first row with a pattern that matches the line. */
  function FirstRow(rows: seq<Row>, line: String): (r: Option<SectionType>)
    ensures r.None? <==> NoRowMatches(rows, line)
    ensures r.Some? ==> FirstMatchIs(rows, line, r.value)
    decreases |rows|
  {
    if rows == [] then None
    else if RowMatches(rows[0], line) then
      assert FirstMatchAt(rows, line, 0);
      Some(rows[0].kind)
    else
      FirstMatchShift(rows, line);
      FirstRow(rows[1..], line)
  }

  /** Behind a first row that does not match, the first match of the rest
      is the first match of all rows. */
  lemma FirstMatchShift(rows: seq<Row>, line: String)
    requires rows != [] && !RowMatches(rows[0], line)
    ensures forall kind :: FirstMatchIs(rows[1..], line, kind) ==> FirstMatchIs(rows, line, kind)
  {
    forall kind | FirstMatchIs(rows[1..], line, kind) ensures FirstMatchIs(rows, line, kind) {
      var k: nat :| FirstMatchAt(rows[1..], line, k) && rows[1..][k].kind == kind;
      assert FirstMatchAt(rows, line, k + 1);
    }
  }

  /** `_identify_section`: the type of the first table row with a pattern
      that matches the trimmed, lower-cased line at its start; a section
      heading is never HEADER or OTHER. */
  function IdentifySection(line: String): (r: Option<SectionType>)
    ensures r.None? <==> NoRowMatches(SectionTable(), Lower(Strip(line)))
    ensures r.Some? ==> FirstMatchIs(SectionTable(), Lower(Strip(line)), r.value)
    ensures r.Some? ==> IsHeadingKind(r.value)
  {
    TableHeadingKinds();
    FirstRowKind(SectionTable(), Lower(Strip(line)));
    FirstRow(SectionTable(), Lower(Strip(line)))
  }

  /** A kind a heading line can announce: neither HEADER nor OTHER. */
  predicate IsHeadingKind(t: SectionType) {
    !t.Header? && !t.Other?
  }

  lemma TableHeadingKinds()
    ensures forall k :: 0 <= k < |SectionTable()| ==> IsHeadingKind(SectionTable()[k].kind)
  {
    TableKinds();
  }

  lemma FirstRowKind(rows: seq<Row>, line: String)
    requires forall k :: 0 <= k < |rows| ==> IsHeadingKind(rows[k].kind)
    ensures FirstRow(rows, line).Some? ==> IsHeadingKind(FirstRow(rows, line).value)
  {
    if FirstRow(rows, line).Some? {
      var k: nat :| FirstMatchAt(rows, line, k) && rows[k].kind == FirstRow(rows, line).value;
    }
  }

  /** The word cannot be a prefix of a string that starts with "sk". */
  predicate NotSkPrefix(w: String) {
    w != [] && (w[0] != 's' || (|w| >= 2 && w[1] != 'k'))
  }

  lemma NotPrefix(x: String, w: String)
    requires |x| >= 2 && x[0] == 's' && x[1] == 'k'
    requires NotSkPrefix(w)
    ensures !StartsWith(x, w)
  {
    if |w| <= |x| {
      if w[0] != 's' {
        assert x[..|w|][0] != w[0];
      } else {
        assert x[..|w|][1] != w[1];
      }
    }
  }

  /** No pattern whose lead and word both differ from "sk" in their first
      two letters matches a line starting with "sk". */
  lemma NoSkRowMatch(row: Row, x: String)
    requires |x| >= 2 && x[0] == 's' && x[1] == 'k'
    requires forall k :: 0 <= k < |row.patterns| ==>
               NotSkPrefix(row.patterns[k].word) && (row.patterns[k].lead == [] || NotSkPrefix(row.patterns[k].lead))
    ensures !RowMatches(row, x)
  {
    forall k | 0 <= k < |row.patterns| ensures !PatternMatches(row.patterns[k], x) {
      var p := row.patterns[k];
      NotPrefix(x, p.word);
      if p.lead != [] {
        NotPrefix(x, p.lead);
      }
    }
  }

  /** A line that begins with "skills", such as a skills list "Skills:
      Python, SQL" written on one line, is always read as the SKILLS
      heading. */
  lemma SkillsLineIsHeading(line: String)
    requires StartsWith(Lower(Strip(line)), "skills")
    ensures IdentifySection(line) == Some(Skills)
  {
    var x := Lower(Strip(line));
    assert x[0] == 's' && x[1] == 'k';
    SkLineMissesEarlyRows(x);
    SkillsRowMatches(x);
    FirstMatchUnique(SectionTable(), x, 3);
  }

  lemma SkLineMissesEarlyRows(x: String)
    requires |x| >= 2 && x[0] == 's' && x[1] == 'k'
    ensures forall l :: 0 <= l < 3 ==> !RowMatches(SectionTable()[l], x)
  {
    var t := SectionTable();
    NoSkRowMatch(t[0], x);
    NoSkRowMatch(t[1], x);
    NoSkRowMatch(t[2], x);
  }

  lemma SkillsRowMatches(x: String)
    requires StartsWith(x, "skills")
    ensures RowMatches(SectionTable()[3], x) && SectionTable()[3].kind == Skills
  {
    assert PatternMatches(SectionTable()[3].patterns[0], x);
  }

  /** The first row to match is the one `FirstRow` reports. */
  lemma {:induction false} FirstMatchUnique(rows: seq<Row>, line: String, k: nat)
    requires FirstMatchAt(rows, line, k)
    ensures FirstRow(rows, line) == Some(rows[k].kind)
    decreases k
  {
    if k > 0 {
      assert FirstMatchAt(rows[1..], line, k - 1);
      FirstMatchUnique(rows[1..], line, k - 1);
    }
  }

  // ---------------------------------------------------------------------
  // Section titles
  // ---------------------------------------------------------------------

  /** `_get_section_title`: the type's value in title case (no value has an
      underscore, so the underscore replacement never applies). The titles
      are listed here and the values derived from them; `SectionTitleShape`
      shows each title is what `title()` makes of the value. */
  function SectionTitle(t: SectionType): (r: String)
    ensures r != [] && IsUpper(r[0])
    ensures forall i :: 1 <= i < |r| ==> IsLowerLetter(r[i])
  {
    match t
    case Header => "Header"
    case Summary => "Summary"
    case Experience => "Experience"
    case Education => "Education"
    case Skills => "Skills"
    case Projects => "Projects"
    case Certifications => "Certifications"
    case Publications => "Publications"
    case Awards => "Awards"
    case Other => "Other"
  }

  lemma {:induction false} TitleRestOfLowerWord(s: String)
    requires forall i :: 0 <= i < |s| ==> IsLowerLetter(s[i])
    ensures TitleFrom(s, true) == s
    decreases |s|
  {
    if s != [] {
      TitleRestOfLowerWord(s[1..]);
    }
  }

  /** `title()` of a lower-case word upper-cases its first letter only. */
  lemma TitleOfLowerWord(v: String)
    requires v != [] && forall i :: 0 <= i < |v| ==> IsLowerLetter(v[i])
    ensures Title(v) == [UpperChar(v[0])] + v[1..]
  {
    TitleRestOfLowerWord(v[1..]);
  }

  /** The title of a section is `title()` applied to its value. */
  lemma SectionTitleShape(t: SectionType)
    ensures SectionTitle(t) == Title(t.Value())
  {
    var title := SectionTitle(t);
    assert t.Value() == [LowerChar(title[0])] + title[1..];
    TitleOfCapitalised(title);
  }

  /** A capitalised word is the title case of its lower-cased form. */
  lemma TitleOfCapitalised(w: String)
    requires w != [] && IsUpper(w[0]) && forall i :: 1 <= i < |w| ==> IsLowerLetter(w[i])
    ensures Title([LowerChar(w[0])] + w[1..]) == w
  {
    var v := [LowerChar(w[0])] + w[1..];
    assert v[1..] == w[1..];
    TitleOfLowerWord(v);
    assert UpperChar(LowerChar(w[0])) == w[0];
    assert [w[0]] + w[1..] == w;
  }

  // ---------------------------------------------------------------------
  // Bullets
  // ---------------------------------------------------------------------

  predicate IsGlyph(c: char) {
    c == '•' || c == '-' || c == '*' || c == '+'
  }

  /** `\d+\.` at the start of the text. */
  predicate NumberedMarker(t: String) {
    var d := DigitRun(t);
    d != [] && |d| < |t| && t[|d|] == '.'
  }

  /** One of the three markers `[•\-\*\+]`, `\d+\.` or `[a-z]\)` at the
      start of the text. */
  predicate MarkerStart(t: String) {
    t != [] && (IsGlyph(t[0]) || NumberedMarker(t) || (|t| >= 2 && IsLowerLetter(t[0]) && t[1] == ')'))
  }

  /** `^\s*[•\-\*\+]|^\s*\d+\.|^\s*[a-z]\)`, matched against the raw line:
      a marker right after the leading whitespace. */
  function HasBulletMarker(line: String): (b: bool)
    ensures b <==> exists k :: 0 <= k <= |line| && (forall j :: 0 <= j < k ==> IsSpace(line[j]))
                              && MarkerStart(line[k..])
  {
    var t := SkipSpaces(line);
    var k0 := |line| - |t|;
    assert line[k0..] == t;
    // A marker never starts with whitespace, so the only candidate
    // position is the first non-space one.
    assert forall k :: 0 <= k <= |line| && (forall j :: 0 <= j < k ==> IsSpace(line[j])) && MarkerStart(line[k..])
                       ==> k == k0;
    MarkerStart(t)
  }

  /** The character class `[\s•\-\*\+\d\.a-z\)]` of the marker run. */
  predicate IsMarkerChar(c: char) {
    IsSpace(c) || IsGlyph(c) || IsDigit(c) || c == '.' || IsLowerLetter(c) || c == ')'
  }

  /** The stripped line without its leading marker run, stripped again. */
  function CleanBullet(line: String): (r: String)
    ensures r == [] || !IsMarkerChar(r[0])
    ensures Contains(Strip(line), r)
  {
    StripAfterDrop(Strip(line), IsMarkerChar);
    Strip(DropWhile(Strip(line), IsMarkerChar))
  }

  /** The bullet a line contributes, if any. */
  function BulletOf(line: String): (r: Option<String>)
    ensures r.Some? <==> HasBulletMarker(line) && CleanBullet(line) != []
    ensures r.Some? ==> r.value == CleanBullet(line)
  {
    if HasBulletMarker(line) && CleanBullet(line) != [] then Some(CleanBullet(line)) else None
  }

  /** The loop of `_extract_bullets`: line after line, the bullet of each
      line is appended to those of the lines before it. */
  function BulletLines(lines: seq<String>): (r: seq<String>)
    ensures r == Somes(Map(BulletOf, lines))
    decreases |lines|
  {
    if lines == [] then []
    else
      var init := lines[..|lines| - 1];
      var last := lines[|lines| - 1];
      assert lines == init + [last];
      MapSnoc(BulletOf, init, last);
      SomesAppend(Map(BulletOf, init), [BulletOf(last)]);
      SomesOne(BulletOf(last));
      BulletLines(init) + (if BulletOf(last).Some? then [BulletOf(last).value] else [])
  }

  /** `_extract_bullets`: one bullet per marked line with something left
      after its marker run, in line order. */
  function ExtractBullets(text: String): (r: seq<String>)
    ensures |r| <= |Split(text, '\n')|
    ensures r == Somes(Map(BulletOf, Split(text, '\n')))
  {
    BulletLines(Split(text, '\n'))
  }

  /** Every bullet is the cleaned form of a marked line of the text, so it
      is non-empty and starts with none of the marker characters. */
  lemma BulletsSound(text: String, i: nat) returns (j: nat)
    requires i < |ExtractBullets(text)|
    ensures j < |Split(text, '\n')|
    ensures HasBulletMarker(Split(text, '\n')[j])
    ensures ExtractBullets(text)[i] == CleanBullet(Split(text, '\n')[j])
    ensures ExtractBullets(text)[i] != [] && !IsMarkerChar(ExtractBullets(text)[i][0])
  {
    var lines := Split(text, '\n');
    j := SomesSound(Map(BulletOf, lines), i);
  }

  /** Every marked line with something left after its marker run gives a
      bullet. */
  lemma BulletsComplete(text: String, j: nat)
    requires j < |Split(text, '\n')|
    requires HasBulletMarker(Split(text, '\n')[j]) && CleanBullet(Split(text, '\n')[j]) != []
    ensures CleanBullet(Split(text, '\n')[j]) in ExtractBullets(text)
  {
    var lines := Split(text, '\n');
    SomesComplete(Map(BulletOf, lines), j);
  }

  /** A marked line made only of marker characters, such as "- managed a
      team" whose words are all lower case, gives no bullet. */
  lemma MarkerOnlyLineVanishes(line: String)
    requires forall i :: 0 <= i < |Strip(line)| ==> IsMarkerChar(Strip(line)[i])
    ensures BulletOf(line).None?
  {
    DropWhileAll(Strip(line), IsMarkerChar);
    assert Strip([]) == [];
  }

  // ---------------------------------------------------------------------
  // Sectionizing
  // ---------------------------------------------------------------------

  /** A line as the main loop sees it: blank, a heading, or content (kept
      unstripped). */
  datatype ResLine = Blank | Heading(kind: SectionType) | Content(line: String)

  function ResLineOf(line: String): (r: ResLine)
    ensures r.Blank? <==> Strip(line) == []
    ensures r.Heading? ==> IsHeadingKind(r.kind)
  {
    var stripped := Strip(line);
    if stripped == [] then Blank
    else match IdentifySection(stripped)
      case Some(t) => Heading(t)
      case None => Content(line)
  }

  function Classify(lines: seq<String>): (r: seq<ResLine>)
    ensures |r| == |lines|
    ensures forall k :: 0 <= k < |lines| ==> r[k] == ResLineOf(lines[k])
  {
    seq(|lines|, k requires 0 <= k < |lines| => ResLineOf(lines[k]))
  }

  /** A heading together with the content lines that follow it. */
  datatype Segment = Segment(kind: SectionType, lines: seq<String>)

  /** Reference grouping: every heading opens a segment at once, and a
      content line joins the latest segment (before the first heading it
      belongs to none). */
  function Segments(xs: seq<ResLine>): seq<Segment>
    decreases |xs|
  {
    if xs == [] then [] else SegmentStep(Segments(xs[..|xs| - 1]), xs[|xs| - 1])
  }

  /** A finished non-header section. */
  function MakeSection(kind: SectionType, lines: seq<String>): ResumeSection {
    var content := Join(lines, "\n");
    ResumeSection(kind, SectionTitle(kind), content, ExtractBullets(content), map[])
  }

  /** The section a segment becomes. */
  function SegmentSection(seg: Segment): ResumeSection {
    MakeSection(seg.kind, seg.lines)
  }

  /** What the segments become: every segment but the last is emitted,
      the last one only when it has content. */
  function Emitted(segs: seq<Segment>): seq<ResumeSection> {
    if segs == [] then []
    else
      var last := segs[|segs| - 1];
      Map(SegmentSection, segs[..|segs| - 1]) + (if last.lines != [] then [SegmentSection(last)] else [])
  }

  /** The main loop's state: the sections emitted so far, the open section
      type and its content lines. */
  datatype LoopState = LoopState(done: seq<ResumeSection>, current: Option<SectionType>, content: seq<String>)

  /** One iteration of the main loop of `sectionize`. */
  function LoopStep(st: LoopState, x: ResLine): LoopState {
    match x
    case Blank => st
    case Heading(t) =>
      var emitted := if st.current.Some? then [MakeSection(st.current.value, st.content)] else [];
      LoopState(st.done + emitted, Some(t), [])
    case Content(l) =>
      if st.current.Some? then st.(content := st.content + [l]) else st
  }

  function RunLoop(xs: seq<ResLine>): LoopState
    decreases |xs|
  {
    if xs == [] then LoopState([], None, [])
    else LoopStep(RunLoop(xs[..|xs| - 1]), xs[|xs| - 1])
  }

  /** The loop's sections plus the last open section when it has content. */
  function Finish(st: LoopState): seq<ResumeSection> {
    st.done + (if st.current.Some? && st.content != [] then [MakeSection(st.current.value, st.content)] else [])
  }

  /** The loop state mirrors the segments: the finished ones are emitted,
      and the open section is the last segment. */
  predicate Mirrors(st: LoopState, segs: seq<Segment>) {
    if segs == [] then st.done == [] && st.current.None?
    else
      var last := segs[|segs| - 1];
      st.done == Map(SegmentSection, segs[..|segs| - 1]) && st.current == Some(last.kind) && st.content == last.lines
  }

  lemma {:induction false} LoopMirrorsSegments(xs: seq<ResLine>)
    ensures Mirrors(RunLoop(xs), Segments(xs))
    decreases |xs|
  {
    if xs != [] {
      var ys := xs[..|xs| - 1];
      LoopMirrorsSegments(ys);
      MirrorStep(RunLoop(ys), Segments(ys), xs[|xs| - 1]);
      assert RunLoop(xs) == LoopStep(RunLoop(ys), xs[|xs| - 1]);
      assert Segments(xs) == SegmentStep(Segments(ys), xs[|xs| - 1]);
    }
  }

  /** The grouping step of `Segments`. */
  function SegmentStep(s: seq<Segment>, x: ResLine): seq<Segment> {
    match x
    case Blank => s
    case Heading(t) => s + [Segment(t, [])]
    case Content(l) =>
      if s == [] then s
      else s[..|s| - 1] + [s[|s| - 1].(lines := s[|s| - 1].lines + [l])]
  }

  lemma MirrorStep(st: LoopState, s: seq<Segment>, x: ResLine)
    requires Mirrors(st, s)
    ensures Mirrors(LoopStep(st, x), SegmentStep(s, x))
  {
    if x.Heading? && s != [] {
      MirrorHeading(st, s, x.kind);
    } else if x.Content? && s != [] {
      MirrorContent(st, s, x.line);
    }
  }

  lemma MirrorHeading(st: LoopState, s: seq<Segment>, t: SectionType)
    requires s != [] && Mirrors(st, s)
    ensures Mirrors(LoopStep(st, Heading(t)), SegmentStep(s, Heading(t)))
  {
    var last := s[|s| - 1];
    var s' := s + [Segment(t, [])];
    assert s'[..|s'| - 1] == s;
    assert s == s[..|s| - 1] + [last];
    MapSnoc(SegmentSection, s[..|s| - 1], last);
    assert LoopStep(st, Heading(t)) == LoopState(Map(SegmentSection, s[..|s| - 1]) + [SegmentSection(last)], Some(t), []);
  }

  lemma MirrorContent(st: LoopState, s: seq<Segment>, l: String)
    requires s != [] && Mirrors(st, s)
    ensures Mirrors(LoopStep(st, Content(l)), SegmentStep(s, Content(l)))
  {
    var s' := SegmentStep(s, Content(l));
    assert s'[..|s'| - 1] == s[..|s| - 1];
  }

  /** The deferred emission of the loop produces exactly the reference
      segments: every heading transition emits the previous section even
      when its content is empty, and the final section is kept only when
      it has content. */
  lemma LoopEmitsSegments(xs: seq<ResLine>)
    ensures Finish(RunLoop(xs)) == Emitted(Segments(xs))
  {
    LoopMirrorsSegments(xs);
  }

  // ---------------------------------------------------------------------
  // What the segments hold
  // ---------------------------------------------------------------------

  /** The kinds of the heading lines, in order. */
  function HeadingKinds(xs: seq<ResLine>): seq<SectionType>
    decreases |xs|
  {
    if xs == [] then []
    else HeadingKinds(xs[..|xs| - 1]) + (if xs[|xs| - 1].Heading? then [xs[|xs| - 1].kind] else [])
  }

  /** The content lines that come after the first heading line, in order. */
  function ContentAfterHeading(xs: seq<ResLine>): seq<String>
    decreases |xs|
  {
    if xs == [] then []
    else
      var ys := xs[..|xs| - 1];
      var x := xs[|xs| - 1];
      ContentAfterHeading(ys) + (if x.Content? && HeadingKinds(ys) != [] then [x.line] else [])
  }

  function SegmentKind(seg: Segment): SectionType {
    seg.kind
  }

  /** All segment lines, segment after segment. */
  function AllLines(segs: seq<Segment>): seq<String>
    decreases |segs|
  {
    if segs == [] then [] else AllLines(segs[..|segs| - 1]) + segs[|segs| - 1].lines
  }

  /** One segment per heading line, in the order of the headings. */
  lemma {:induction false} SegmentsFollowHeadings(xs: seq<ResLine>)
    ensures Map(SegmentKind, Segments(xs)) == HeadingKinds(xs)
    decreases |xs|
  {
    if xs != [] {
      var ys := xs[..|xs| - 1];
      SegmentsFollowHeadings(ys);
      var s := Segments(ys);
      if xs[|xs| - 1].Content? && s != [] {
        assert Map(SegmentKind, Segments(xs)) == Map(SegmentKind, s);
      }
    }
  }

  /** The segments hold exactly the content lines after the first heading:
      content before it is dropped, none is lost or reordered after it. */
  lemma {:induction false} SegmentsKeepContent(xs: seq<ResLine>)
    ensures AllLines(Segments(xs)) == ContentAfterHeading(xs)
    decreases |xs|
  {
    if xs != [] {
      var ys := xs[..|xs| - 1];
      SegmentsKeepContent(ys);
      SegmentsFollowHeadings(ys);
      var s := Segments(ys);
      var x := xs[|xs| - 1];
      if x.Heading? {
        assert (s + [Segment(x.kind, [])])[..|s|] == s;
      } else if x.Content? && s != [] {
        var s' := Segments(xs);
        assert s'[..|s'| - 1] == s[..|s| - 1];
        assert AllLines(s) == AllLines(s[..|s| - 1]) + s[|s| - 1].lines;
      }
    }
  }

  /** Every line of a classified text announces a kind a heading can. */
  predicate HeadingsWellKinded(xs: seq<ResLine>) {
    forall k :: 0 <= k < |xs| && xs[k].Heading? ==> IsHeadingKind(xs[k].kind)
  }

  lemma {:induction false} HeadingKindsWellKinded(xs: seq<ResLine>)
    requires HeadingsWellKinded(xs)
    ensures forall k :: 0 <= k < |HeadingKinds(xs)| ==> IsHeadingKind(HeadingKinds(xs)[k])
    decreases |xs|
  {
    if xs != [] {
      HeadingKindsWellKinded(xs[..|xs| - 1]);
    }
  }

  /** No section the main loop emits is a HEADER section. */
  lemma LoopEmitsNoHeader(xs: seq<ResLine>)
    requires HeadingsWellKinded(xs)
    ensures forall k :: 0 <= k < |Finish(RunLoop(xs))| ==> IsHeadingKind(Finish(RunLoop(xs))[k].kind)
  {
    LoopEmitsSegments(xs);
    SegmentsFollowHeadings(xs);
    HeadingKindsWellKinded(xs);
    var s := Segments(xs);
    assert forall k :: 0 <= k < |s| ==> IsHeadingKind(s[k].kind) by {
      forall k | 0 <= k < |s| ensures IsHeadingKind(s[k].kind) {
        assert s[k].kind == Map(SegmentKind, s)[k];
      }
    }
  }

  // ---------------------------------------------------------------------
  // Header capture and the whole resume
  // ---------------------------------------------------------------------

  /** A line the header capture takes: non-blank and not a heading. */
  predicate Captured(line: String) {
    Strip(line) != [] && IdentifySection(Strip(line)).None?
  }

  function CaptureFlags(lines: seq<String>): (r: seq<bool>)
    ensures |r| == |lines|
    ensures forall k :: 0 <= k < |lines| ==> r[k] == Captured(lines[k])
  {
    seq(|lines|, k requires 0 <= k < |lines| => Captured(lines[k]))
  }

  /** Where header capture stops, scanning from `i`: at the first line that
      is not captured, and at the latest at line 10. */
  function CaptureEnd(caps: seq<bool>, i: nat): (n: nat)
    requires i <= |caps|
    ensures i <= n <= |caps|
    ensures i <= 10 ==> n <= 10
    ensures forall k :: i <= k < n ==> caps[k]
    ensures n < |caps| && n < 10 ==> !caps[n]
    decreases |caps| - i
  {
    if i < 10 && i < |caps| && caps[i] then CaptureEnd(caps, i + 1) else i
  }

  /** The number of leading lines header capture takes. */
  function CaptureCount(lines: seq<String>): (n: nat)
    ensures n <= |lines| && n <= 10
    ensures forall k :: 0 <= k < n ==> Captured(lines[k])
    ensures n < |lines| && n < 10 ==> !Captured(lines[n])
  {
    CaptureEnd(CaptureFlags(lines), 0)
  }

  function StripAll(ls: seq<String>): (r: seq<String>)
    ensures |r| == |ls|
    ensures forall k :: 0 <= k < |ls| ==> r[k] == Strip(ls[k])
  {
    seq(|ls|, k requires 0 <= k < |ls| => Strip(ls[k]))
  }

  /** The HEADER section: the captured lines, stripped, with the contact
      details found in them. */
  function HeaderSection(header: seq<String>, contact: String -> map<String, String>): ResumeSection {
    var content := Join(header, "\n");
    ResumeSection(Header, "Header", content, [], contact(content))
  }

  /** The lines after header capture, as the main loop sees them. */
  function BodyLines(text: String): seq<ResLine> {
    var lines := Split(text, '\n');
    Classify(lines[CaptureCount(lines)..])
  }

  /** The HEADER section, when header capture took any line. */
  function HeadPart(text: String, contact: String -> map<String, String>): seq<ResumeSection> {
    var lines := Split(text, '\n');
    var n := CaptureCount(lines);
    if n > 0 then [HeaderSection(StripAll(lines[..n]), contact)] else []
  }

  /** `sectionize`. The contact-information extractor is a parameter. */
  function Sectionize(text: String, contact: String -> map<String, String>): (r: seq<ResumeSection>)
    ensures var h := if CaptureCount(Split(text, '\n')) > 0 then 1 else 0;
            && (h == 1 <==> r != [] && r[0].kind == Header)
            && |r| >= h
            && r[h..] == Emitted(Segments(BodyLines(text)))
            && (forall k :: 0 <= k < |r| ==> r[k].kind != Other)
            && (forall k :: 0 < k < |r| ==> r[k].kind != Header)
  {
    BodyHeadingKinds(text);
    LoopEmitsSegments(BodyLines(text));
    KindsOfParts(HeadPart(text, contact), Finish(RunLoop(BodyLines(text))));
    HeadPart(text, contact) + Finish(RunLoop(BodyLines(text)))
  }

  lemma ClassifiedWellKinded(lines: seq<String>)
    ensures HeadingsWellKinded(Classify(lines))
  {
  }

  /** The sections the main loop emits are all of a heading kind. */
  lemma BodyHeadingKinds(text: String)
    ensures forall k :: 0 <= k < |Finish(RunLoop(BodyLines(text)))| ==>
              IsHeadingKind(Finish(RunLoop(BodyLines(text)))[k].kind)
  {
    var lines := Split(text, '\n');
    ClassifiedWellKinded(lines[CaptureCount(lines)..]);
    LoopEmitsNoHeader(BodyLines(text));
  }

  /** The sections after the HEADER section are the segments of the lines
      after header capture, and none of them is a HEADER section. */
  lemma SectionizeBody(text: String, contact: String -> map<String, String>)
    ensures Sectionize(text, contact)[|HeadPart(text, contact)|..] == Emitted(Segments(BodyLines(text)))
    ensures forall k :: |HeadPart(text, contact)| <= k < |Sectionize(text, contact)| ==>
              IsHeadingKind(Sectionize(text, contact)[k].kind)
  {
    BodyHeadingKinds(text);
    LoopEmitsSegments(BodyLines(text));
    KindsOfParts(HeadPart(text, contact), Finish(RunLoop(BodyLines(text))));
  }

  /** A HEADER section exists exactly when header capture took a line; it
      is then the first and only HEADER section, titled "Header", without
      bullets, and holds the captured lines stripped. */
  lemma SectionizeHeader(text: String, contact: String -> map<String, String>)
    ensures var r := Sectionize(text, contact);
            var lines := Split(text, '\n');
            var n := CaptureCount(lines);
            && (n > 0 <==> r != [] && r[0].kind == Header)
            && (n > 0 ==> r[0].title == "Header" && r[0].bullets == [] && r[0].content == Join(StripAll(lines[..n]), "\n"))
            && (forall k :: 0 < k < |r| ==> r[k].kind != Header)
  {
    BodyHeadingKinds(text);
    KindsOfParts(HeadPart(text, contact), Finish(RunLoop(BodyLines(text))));
  }

  /** `sectionize` never produces a section of kind OTHER: the HEADER
      section is followed by heading sections only. */
  lemma NoOtherSection(text: String, contact: String -> map<String, String>)
    ensures forall k :: 0 <= k < |Sectionize(text, contact)| ==> Sectionize(text, contact)[k].kind != Other
  {
    BodyHeadingKinds(text);
    KindsOfParts(HeadPart(text, contact), Finish(RunLoop(BodyLines(text))));
  }

  /** The kinds of an optional HEADER section followed by heading sections. */
  lemma KindsOfParts(h: seq<ResumeSection>, b: seq<ResumeSection>)
    requires |h| <= 1 && (h != [] ==> h[0].kind == Header)
    requires forall k :: 0 <= k < |b| ==> IsHeadingKind(b[k].kind)
    ensures (h + b)[|h|..] == b
    ensures h != [] ==> (h + b)[0] == h[0]
    ensures h != [] <==> h + b != [] && (h + b)[0].kind == Header
    ensures forall k :: 0 <= k < |h + b| ==> (h + b)[k].kind != Other
    ensures forall k :: |h| <= k < |h + b| ==> IsHeadingKind((h + b)[k].kind)
    ensures forall k :: 0 < k < |h + b| ==> (h + b)[k].kind != Header
  {
    forall k | |h| <= k < |h + b| ensures (h + b)[k] == b[k - |h|] {
    }
  }

  /** A resume whose first line is blank has no HEADER section: capture
      stops at once, so its name and contact lines are lost unless a
      heading follows them. */
  lemma BlankFirstLineNoHeader(text: String, contact: String -> map<String, String>)
    requires Strip(Split(text, '\n')[0]) == []
    ensures forall k :: 0 <= k < |Sectionize(text, contact)| ==> Sectionize(text, contact)[k].kind != Header
  {
    var lines := Split(text, '\n');
    assert !Captured(lines[0]);
    assert HeadPart(text, contact) == [];
    BodyHeadingKinds(text);
    KindsOfParts([], Finish(RunLoop(BodyLines(text))));
  }

  // ---------------------------------------------------------------------
  // Experience entries
  // ---------------------------------------------------------------------

  datatype ExperienceEntry = ExperienceEntry(
    company: String,
    title: String,
    duration: String,
    location: Option<String>,
    bullets: seq<String>,
    rawText: String)

  /** What `_parse_job_header` finds in a job-header line besides the line
      itself: a date range and a location, each possibly absent. */
  datatype HeaderFields = HeaderFields(duration: Option<String>, location: Option<String>)

  /** A line of an experience section as the entry loop sees it. */
  datatype ExpLine = Skip | JobHeader(raw: String, fields: HeaderFields) | Bullet(text: String)

  predicate IsGlyphOrSpace(c: char) {
    IsSpace(c) || IsGlyph(c)
  }

  /** Classifies one line; `looksLikeJobHeader` and `parseJobHeader` stand
      for the date and capitals heuristics. A stripped line starting with a
      glyph is a bullet, kept even when nothing is left after the glyphs. */
  function ExpLineOf(line: String, looksLikeJobHeader: String -> bool, parseJobHeader: String -> HeaderFields): (r: ExpLine)
    ensures r.JobHeader? ==> r.raw == Strip(line) && r.raw != []
    ensures r.Bullet? ==> r.text == [] || !IsGlyphOrSpace(r.text[0])
  {
    var stripped := Strip(line);
    if stripped == [] then Skip
    else if looksLikeJobHeader(stripped) then JobHeader(stripped, parseJobHeader(stripped))
    else if IsGlyph(stripped[0]) then
      StripAfterDrop(stripped, IsGlyphOrSpace);
      Bullet(Strip(DropWhile(stripped, IsGlyphOrSpace)))
    else Skip
  }

  function ExpLines(lines: seq<String>, looksLikeJobHeader: String -> bool, parseJobHeader: String -> HeaderFields): (r: seq<ExpLine>)
    ensures |r| == |lines|
  {
    seq(|lines|, k requires 0 <= k < |lines| => ExpLineOf(lines[k], looksLikeJobHeader, parseJobHeader))
  }

  /** The entry a job-header line opens: company and title are never
      filled in, the duration defaults to "". */
  function NewEntry(raw: String, fields: HeaderFields): ExperienceEntry {
    ExperienceEntry("", "", fields.duration.GetOr(""), fields.location, [], raw)
  }

  /** The entry loop's state: finished entries and the open one. */
  datatype EntryState = EntryState(done: seq<ExperienceEntry>, open: Option<ExperienceEntry>)

  function EntryStep(st: EntryState, x: ExpLine): EntryState {
    match x
    case Skip => st
    case JobHeader(raw, fields) =>
      var finished := if st.open.Some? then [st.open.value] else [];
      EntryState(st.done + finished, Some(NewEntry(raw, fields)))
    case Bullet(b) =>
      if st.open.Some? then st.(open := Some(st.open.value.(bullets := st.open.value.bullets + [b]))) else st
  }

  function RunEntries(xs: seq<ExpLine>): EntryState
    decreases |xs|
  {
    if xs == [] then EntryState([], None) else EntryStep(RunEntries(xs[..|xs| - 1]), xs[|xs| - 1])
  }

  /** The finished entries plus the open one. */
  function Entries(xs: seq<ExpLine>): seq<ExperienceEntry> {
    var st := RunEntries(xs);
    st.done + (if st.open.Some? then [st.open.value] else [])
  }

  /** `extract_experience_entries`; the two heuristics are parameters. */
  function ExtractExperienceEntries(section: ResumeSection, looksLikeJobHeader: String -> bool,
                                    parseJobHeader: String -> HeaderFields): (r: seq<ExperienceEntry>)
    ensures section.kind != Experience ==> r == []
  {
    if section.kind != Experience then []
    else Entries(ExpLines(Split(section.content, '\n'), looksLikeJobHeader, parseJobHeader))
  }

  /** Before the first job header nothing is open and nothing is done. */
  lemma {:induction false} NothingBeforeFirstHeader(xs: seq<ExpLine>)
    ensures RunEntries(xs).open.None? ==> RunEntries(xs).done == []
    decreases |xs|
  {
    if xs != [] {
      NothingBeforeFirstHeader(xs[..|xs| - 1]);
    }
  }

  /** The deferred loop behaves like an immediate one: a job header adds
      its entry at once, a bullet joins the latest entry (and is dropped
      before the first), and any other line changes nothing. */
  lemma EntriesSnoc(xs: seq<ExpLine>, x: ExpLine)
    ensures x.Skip? ==> Entries(xs + [x]) == Entries(xs)
    ensures x.JobHeader? ==> Entries(xs + [x]) == Entries(xs) + [NewEntry(x.raw, x.fields)]
    ensures x.Bullet? && Entries(xs) == [] ==> Entries(xs + [x]) == []
    ensures x.Bullet? && Entries(xs) != [] ==>
              var e := Entries(xs);
              Entries(xs + [x]) == e[..|e| - 1] + [e[|e| - 1].(bullets := e[|e| - 1].bullets + [x.text])]
  {
    assert (xs + [x])[..|xs|] == xs;
    NothingBeforeFirstHeader(xs);
  }

  /** The raw lines of the job headers, in order. */
  function HeaderRaws(xs: seq<ExpLine>): seq<String>
    decreases |xs|
  {
    if xs == [] then []
    else HeaderRaws(xs[..|xs| - 1]) + (if xs[|xs| - 1].JobHeader? then [xs[|xs| - 1].raw] else [])
  }

  function RawTexts(es: seq<ExperienceEntry>): (r: seq<String>)
    ensures |r| == |es|
    ensures forall k :: 0 <= k < |es| ==> r[k] == es[k].rawText
  {
    seq(|es|, k requires 0 <= k < |es| => es[k].rawText)
  }

  /** One entry per job-header line, in order, none with a company or a
      title. */
  lemma {:induction false} EntryPerHeader(xs: seq<ExpLine>)
    ensures RawTexts(Entries(xs)) == HeaderRaws(xs)
    ensures forall k :: 0 <= k < |Entries(xs)| ==> Entries(xs)[k].company == [] && Entries(xs)[k].title == []
    decreases |xs|
  {
    if xs != [] {
      var ys := xs[..|xs| - 1];
      var x := xs[|xs| - 1];
      EntryPerHeader(ys);
      EntriesSnoc(ys, x);
      assert ys + [x] == xs;
      var e := Entries(ys);
      if x.Bullet? && e != [] {
        assert RawTexts(Entries(xs)) == RawTexts(e);
      }
    }
  }

  /** The texts of the bullet lines that follow the first job header. */
  function BulletsAfterHeader(xs: seq<ExpLine>): seq<String>
    decreases |xs|
  {
    if xs == [] then []
    else
      var ys := xs[..|xs| - 1];
      var x := xs[|xs| - 1];
      BulletsAfterHeader(ys) + (if x.Bullet? && HeaderRaws(ys) != [] then [x.text] else [])
  }

  /** All entry bullets, entry after entry. */
  function EntryBullets(es: seq<ExperienceEntry>): seq<String>
    decreases |es|
  {
    if es == [] then [] else EntryBullets(es[..|es| - 1]) + es[|es| - 1].bullets
  }

  /** The entries hold exactly the bullets that follow the first job header,
      in order; bullets before it are dropped. */
  lemma {:induction false} EntriesKeepBullets(xs: seq<ExpLine>)
    ensures EntryBullets(Entries(xs)) == BulletsAfterHeader(xs)
    decreases |xs|
  {
    if xs != [] {
      var ys := xs[..|xs| - 1];
      var x := xs[|xs| - 1];
      EntriesKeepBullets(ys);
      EntriesSnoc(ys, x);
      EntryPerHeader(ys);
      assert ys + [x] == xs;
      var e := Entries(ys);
      assert |e| == |HeaderRaws(ys)|;
      assert BulletsAfterHeader(xs) ==
             BulletsAfterHeader(ys) + (if x.Bullet? && HeaderRaws(ys) != [] then [x.text] else []);
      if x.JobHeader? {
        EntryBulletsSnoc(e, NewEntry(x.raw, x.fields));
      } else if x.Bullet? && e != [] {
        assert e == e[..|e| - 1] + [e[|e| - 1]];
        EntryBulletsExtendLast(e[..|e| - 1], e[|e| - 1], x.text);
      }
    }
  }

  lemma EntryBulletsSnoc(es: seq<ExperienceEntry>, n: ExperienceEntry)
    ensures EntryBullets(es + [n]) == EntryBullets(es) + n.bullets
  {
    assert (es + [n])[..|es|] == es;
  }

  /** Adding a bullet to the last entry adds it at the end of all bullets. */
  lemma EntryBulletsExtendLast(init: seq<ExperienceEntry>, last: ExperienceEntry, t: String)
    ensures EntryBullets(init + [last.(bullets := last.bullets + [t])]) == EntryBullets(init + [last]) + [t]
  {
    EntryBulletsSnoc(init, last.(bullets := last.bullets + [t]));
    EntryBulletsSnoc(init, last);
    var b := EntryBullets(init);
    assert b + (last.bullets + [t]) == (b + last.bullets) + [t];
  }
}

=== FILE: skills.dfy ===
/** The skills matcher (`src/matching/skills_matcher.py`): a taxonomy of
    categories, each mapping canonical skill names to alias lists; a
    lower-cased reverse index from every name to its category; exact and
    substring matching of a single skill; and extraction of every skill a
    text mentions.

    The taxonomy is the parsed JSON file, kept in its insertion order (the
    order Python iterates a dictionary in). */
module Skills {
  import opened Text
  import opened Wrappers

  datatype Skill = Skill(canonical: String, aliases: seq<String>)
  datatype Category = Category(name: String, skills: seq<Skill>)
  type Taxonomy = seq<Category>

  /** `SkillMatch` */
  datatype SkillMatch = SkillMatch(
    canonical: String,
    matchedAlias: Option<String>,
    category: String,
    confidence: real)

  /** A canonical skill together with the category it is listed under, in
      the order `_get_all_skills` yields them. */
  datatype Listing = Listing(category: String, skill: Skill)

  function CategoryListings(c: Category): (ls: seq<Listing>)
    ensures |ls| == |c.skills|
    ensures forall i :: 0 <= i < |ls| ==> ls[i] == Listing(c.name, c.skills[i])
  {
    seq(|c.skills|, i requires 0 <= i < |c.skills| => Listing(c.name, c.skills[i]))
  }

  /** Every canonical skill of the taxonomy with its category, category by
      category. */
  function Listings(tax: Taxonomy): seq<Listing>
    decreases |tax|
  {
    if tax == [] then [] else CategoryListings(tax[0]) + Listings(tax[1..])
  }

  /** Each skill of each category is listed. */
  lemma {:induction false} ListingsCover(tax: Taxonomy, ci: nat, si: nat)
    requires ci < |tax| && si < |tax[ci].skills|
    ensures Listing(tax[ci].name, tax[ci].skills[si]) in Listings(tax)
    decreases ci
  {
    if ci == 0 {
      assert CategoryListings(tax[0])[si] == Listing(tax[0].name, tax[0].skills[si]);
    } else {
      ListingsCover(tax[1..], ci - 1, si);
    }
  }

  // ---------------------------------------------------------------------
  // The reverse index
  // ---------------------------------------------------------------------

  /** One assignment `index[key] = category` of `_build_skill_index`. */
  datatype Entry = Entry(key: String, category: String)

  /** The assignments for one skill: its canonical name, then its aliases. */
  function SkillEntries(l: Listing): (es: seq<Entry>)
    ensures |es| == 1 + |l.skill.aliases|
    ensures es[0] == Entry(Lower(l.skill.canonical), l.category)
    ensures forall a :: 0 <= a < |l.skill.aliases| ==> es[1 + a] == Entry(Lower(l.skill.aliases[a]), l.category)
  {
    [Entry(Lower(l.skill.canonical), l.category)]
    + seq(|l.skill.aliases|, a requires 0 <= a < |l.skill.aliases| =>
          Entry(Lower(l.skill.aliases[a]), l.category))
  }

  /** All assignments, in the order the index is built. */
  function ListingEntries(ls: seq<Listing>): seq<Entry>
    decreases |ls|
  {
    if ls == [] then [] else SkillEntries(ls[0]) + ListingEntries(ls[1..])
  }

  predicate HasKey(es: seq<Entry>, key: String) {
    exists i :: 0 <= i < |es| && es[i].key == key
  }

  /** The map the assignments leave behind: a key is present when some
      assignment wrote it, and holds the category of the LAST such one. */
  function IndexOf(es: seq<Entry>): (m: map<String, String>)
    ensures IndexInvariant(es, m)
    decreases |es|
  {
    if es == [] then map[]
    else
      var init := es[..|es| - 1];
      var e := es[|es| - 1];
      var m := IndexOf(init);
      IndexStep(init, e, m);
      assert init + [e] == es;
      m[e.key := e.category]
  }

  /** A key is present exactly when some assignment wrote it, and holds the
      category of the last assignment that did. */
  predicate IndexInvariant(es: seq<Entry>, m: map<String, String>) {
    && (forall i :: 0 <= i < |es| ==> es[i].key in m)
    && (forall k :: k in m ==> LastWrite(es, k, m[k]))
  }

  predicate LastWrite(es: seq<Entry>, k: String, category: String) {
    exists i :: 0 <= i < |es| && es[i] == Entry(k, category)
                && forall j :: i < j < |es| ==> es[j].key != k
  }

  /** One more assignment keeps the invariant. */
  lemma IndexStep(es: seq<Entry>, e: Entry, m: map<String, String>)
    requires IndexInvariant(es, m)
    ensures IndexInvariant(es + [e], m[e.key := e.category])
  {
    var es' := es + [e];
    var m' := m[e.key := e.category];
    assert es'[|es|] == e;
    forall i | 0 <= i < |es'| ensures es'[i].key in m' {
      if i < |es| { assert es'[i] == es[i]; }
    }
    forall k | k in m' ensures LastWrite(es', k, m'[k]) {
      if k != e.key {
        var i :| 0 <= i < |es| && es[i] == Entry(k, m[k]) && forall j :: i < j < |es| ==> es[j].key != k;
        assert es'[i] == es[i];
        assert forall j :: i < j < |es'| ==> es'[j].key != k by {
          forall j | i < j < |es'| ensures es'[j].key != k {
            if j < |es| { assert es'[j] == es[j]; }
          }
        }
      }
    }
  }

  /** `_build_skill_index` */
  function BuildIndex(tax: Taxonomy): map<String, String> {
    IndexOf(ListingEntries(Listings(tax)))
  }

  /** Every lower-cased canonical name and alias of a listed skill is an
      index key. */
  predicate Indexed(ls: seq<Listing>, index: map<String, String>) {
    forall i :: 0 <= i < |ls| ==>
      && Lower(ls[i].skill.canonical) in index
      && forall a :: 0 <= a < |ls[i].skill.aliases| ==> Lower(ls[i].skill.aliases[a]) in index
  }

  lemma {:induction false} EntriesHaveNames(ls: seq<Listing>, i: nat)
    requires i < |ls|
    ensures HasKey(ListingEntries(ls), Lower(ls[i].skill.canonical))
    ensures forall a :: 0 <= a < |ls[i].skill.aliases| ==>
              HasKey(ListingEntries(ls), Lower(ls[i].skill.aliases[a]))
    decreases i
  {
    var head := SkillEntries(ls[0]);
    var es := ListingEntries(ls);
    assert es == head + ListingEntries(ls[1..]);
    if i == 0 {
      assert es[0] == head[0];
      forall a | 0 <= a < |ls[0].skill.aliases|
        ensures HasKey(es, Lower(ls[0].skill.aliases[a]))
      {
        assert es[1 + a] == head[1 + a];
      }
    } else {
      EntriesHaveNames(ls[1..], i - 1);
      var tail := ListingEntries(ls[1..]);
      forall k | HasKey(tail, k) ensures HasKey(es, k) {
        var j :| 0 <= j < |tail| && tail[j].key == k;
        assert es[|head| + j] == tail[j];
      }
    }
  }

  /** Every name the taxonomy lists, canonical or alias, is in the index. */
  lemma AllNamesIndexed(tax: Taxonomy)
    ensures Indexed(Listings(tax), BuildIndex(tax))
  {
    var ls := Listings(tax);
    forall i | 0 <= i < |ls|
      ensures Lower(ls[i].skill.canonical) in BuildIndex(tax)
      ensures forall a :: 0 <= a < |ls[i].skill.aliases| ==> Lower(ls[i].skill.aliases[a]) in BuildIndex(tax)
    {
      EntriesHaveNames(ls, i);
    }
  }

  /** A later category that reuses a name takes it over in the index. */
  lemma LaterCategoryWins(first: String, a: Skill, second: String, b: Skill)
    requires Lower(a.canonical) == Lower(b.canonical)
    ensures Lower(a.canonical) in BuildIndex([Category(first, [a]), Category(second, [b])])
    ensures BuildIndex([Category(first, [a]), Category(second, [b])])[Lower(a.canonical)] == second
  {
    var la, lb := Listing(first, a), Listing(second, b);
    TwoListings(first, a, second, b);
    TwoEntries(la, lb);
    SuffixCategoryWins(SkillEntries(la), SkillEntries(lb), Lower(a.canonical), second, 0);
  }

  /** When every assignment of `eb` writes category `c` and one of them
      writes `k`, the index built from `ea + eb` maps `k` to `c`. */
  lemma SuffixCategoryWins(ea: seq<Entry>, eb: seq<Entry>, k: String, c: String, j: nat)
    requires j < |eb| && eb[j].key == k
    requires forall x :: 0 <= x < |eb| ==> eb[x].category == c
    ensures k in IndexOf(ea + eb) && IndexOf(ea + eb)[k] == c
  {
    var es := ea + eb;
    var m := IndexOf(es);
    assert es[|ea| + j] == eb[j];
    assert LastWrite(es, k, m[k]);
    var i :| 0 <= i < |es| && es[i] == Entry(k, m[k]) && forall l :: i < l < |es| ==> es[l].key != k;
    assert i >= |ea|;
    assert es[i] == eb[i - |ea|];
  }

  lemma TwoListings(first: String, a: Skill, second: String, b: Skill)
    ensures Listings([Category(first, [a]), Category(second, [b])]) == [Listing(first, a), Listing(second, b)]
  {
    var tax := [Category(first, [a]), Category(second, [b])];
    assert CategoryListings(tax[0]) == [Listing(first, a)];
    assert CategoryListings(tax[1]) == [Listing(second, b)];
    assert tax[1..] == [tax[1]];
    assert tax[1..][1..] == [];
    assert Listings(tax[1..]) == [Listing(second, b)] + [];
  }

  lemma TwoEntries(la: Listing, lb: Listing)
    ensures ListingEntries([la, lb]) == SkillEntries(la) + SkillEntries(lb)
  {
    assert [la, lb][1..] == [lb];
    assert [lb][1..] == [];
    assert ListingEntries([lb]) == SkillEntries(lb) + [];
  }

  // ---------------------------------------------------------------------
  // Canonical names
  // ---------------------------------------------------------------------

  /** `self.taxonomy.get(category, {})`: the skills of the first category
      with that name, or none. */
  function CategorySkills(tax: Taxonomy, name: String): (skills: seq<Skill>)
    ensures (forall ci :: 0 <= ci < |tax| ==> tax[ci].name != name) ==> skills == []
    ensures forall ci :: 0 <= ci < |tax| && tax[ci].name == name
                         && (forall cj :: 0 <= cj < ci ==> tax[cj].name != name)
                         ==> skills == tax[ci].skills
    decreases |tax|
  {
    if tax == [] then []
    else if tax[0].name == name then tax[0].skills
    else
      var rest := CategorySkills(tax[1..], name);
      assert forall ci :: 1 <= ci < |tax| ==> tax[1..][ci - 1] == tax[ci];
      rest
  }

  /** `get_category_skills`: the canonical names of a category. */
  function GetCategorySkills(tax: Taxonomy, name: String): (names: seq<String>)
    ensures |names| == |CategorySkills(tax, name)|
    ensures forall i :: 0 <= i < |names| ==> names[i] == CategorySkills(tax, name)[i].canonical
    ensures (forall ci :: 0 <= ci < |tax| ==> tax[ci].name != name) ==> names == []
  {
    var skills := CategorySkills(tax, name);
    seq(|skills|, i requires 0 <= i < |skills| => skills[i].canonical)
  }

  /** `get_all_categories` */
  function GetAllCategories(tax: Taxonomy): (names: seq<String>)
    ensures |names| == |tax|
    ensures forall i :: 0 <= i < |tax| ==> names[i] == tax[i].name
  {
    seq(|tax|, i requires 0 <= i < |tax| => tax[i].name)
  }

  /** A skill answers to a lower-cased key through its canonical name or
      one of its aliases. */
  predicate Names(s: Skill, key: String) {
    Lower(s.canonical) == key || exists a :: 0 <= a < |s.aliases| && Lower(s.aliases[a]) == key
  }

  /** The first skill of the list that answers to the key. */
  function FirstNaming(skills: seq<Skill>, key: String): (r: Option<nat>)
    ensures r.None? <==> forall i :: 0 <= i < |skills| ==> !Names(skills[i], key)
    ensures r.Some? ==> r.value < |skills| && Names(skills[r.value], key)
                        && forall j :: 0 <= j < r.value ==> !Names(skills[j], key)
    decreases |skills|
  {
    if skills == [] then None
    else if Names(skills[0], key) then Some(0)
    else
      match FirstNaming(skills[1..], key)
      case None => None
      case Some(i) =>
        assert forall j :: 1 <= j < i + 1 ==> skills[j] == skills[1..][j - 1];
        Some(i + 1)
  }

  /** `_find_canonical`: the canonical name of the first skill of the
      category that answers to the key, else the key in title case. */
  function FindCanonical(tax: Taxonomy, key: String, category: String): (r: String)
    ensures var skills := CategorySkills(tax, category);
            || (exists i :: 0 <= i < |skills| && Names(skills[i], key) && r == skills[i].canonical
                             && forall j :: 0 <= j < i ==> !Names(skills[j], key))
            || ((forall i :: 0 <= i < |skills| ==> !Names(skills[i], key)) && r == Title(key))
  {
    var skills := CategorySkills(tax, category);
    match FirstNaming(skills, key)
    case Some(i) => skills[i].canonical
    case None => Title(key)
  }

  // ---------------------------------------------------------------------
  // Matching one skill
  // ---------------------------------------------------------------------

  /** The substring test of the fuzzy pass: either string contains the other. */
  predicate Related(name: String, key: String) {
    Contains(name, key) || Contains(key, name)
  }

  /** The first alias of the skill related to the key. */
  function FirstRelatedAlias(aliases: seq<String>, key: String): (r: Option<nat>)
    ensures r.None? <==> forall a :: 0 <= a < |aliases| ==> !Related(Lower(aliases[a]), key)
    ensures r.Some? ==> r.value < |aliases| && Related(Lower(aliases[r.value]), key)
    ensures r.Some? ==> forall b :: 0 <= b < r.value ==> !Related(Lower(aliases[b]), key)
    decreases |aliases|
  {
    if aliases == [] then None
    else if Related(Lower(aliases[0]), key) then Some(0)
    else
      match FirstRelatedAlias(aliases[1..], key)
      case None => None
      case Some(a) =>
        assert forall b :: 1 <= b < a + 1 ==> aliases[b] == aliases[1..][b - 1];
        Some(a + 1)
  }

  /** The skill's canonical name or one of its aliases is related to the
      key. */
  predicate RelatesTo(s: Skill, key: String) {
    Related(Lower(s.canonical), key) || exists a :: 0 <= a < |s.aliases| && Related(Lower(s.aliases[a]), key)
  }

  /** One iteration of the fuzzy loop, for one listing: a related canonical
      name gives confidence 0.8 with its indexed category; otherwise the
      first related alias gives 0.7, with its indexed category and the
      canonical name looked up through it; otherwise nothing. */
  function FuzzyAt(tax: Taxonomy, l: Listing, index: map<String, String>, key: String, text: String)
    : (r: Option<SkillMatch>)
    requires Lower(l.skill.canonical) in index
    requires forall a :: 0 <= a < |l.skill.aliases| ==> Lower(l.skill.aliases[a]) in index
    ensures r.Some? <==> RelatesTo(l.skill, key)
    ensures r.Some? ==> r.value.matchedAlias == Some(text)
    ensures r.Some? ==> (r.value.confidence == 0.8 <==> Related(Lower(l.skill.canonical), key))
    ensures r.Some? && Related(Lower(l.skill.canonical), key) ==>
              r.value.canonical == l.skill.canonical && r.value.category == index[Lower(l.skill.canonical)]
    ensures r.Some? && !Related(Lower(l.skill.canonical), key) ==>
              var a := FirstRelatedAlias(l.skill.aliases, key).value;
              && r.value.confidence == 0.7
              && r.value.category == index[Lower(l.skill.aliases[a])]
              && r.value.canonical == FindCanonical(tax, Lower(l.skill.aliases[a]), r.value.category)
  {
    var s := l.skill;
    var name := Lower(s.canonical);
    if Related(name, key) then
      Some(SkillMatch(s.canonical, Some(text), index[name], 0.8))
    else
      match FirstRelatedAlias(s.aliases, key)
      case Some(a) =>
        var alias := Lower(s.aliases[a]);
        var category := index[alias];
        Some(SkillMatch(FindCanonical(tax, alias, category), Some(text), category, 0.7))
      case None => None
  }

  /** The fuzzy pass of `match_skill` over the listings in order: the first
      listing whose canonical name or some alias is related to the key
      decides the match. */
  function FuzzyMatch(tax: Taxonomy, ls: seq<Listing>, index: map<String, String>, key: String, text: String)
    : (r: Option<SkillMatch>)
    requires Indexed(ls, index)
    ensures r.None? <==> forall i :: 0 <= i < |ls| ==> !RelatesTo(ls[i].skill, key)
    ensures r.Some? ==>
              exists i :: 0 <= i < |ls| && RelatesTo(ls[i].skill, key)
                          && (forall j :: 0 <= j < i ==> !RelatesTo(ls[j].skill, key))
                          && r == FuzzyAt(tax, ls[i], index, key, text)
    decreases |ls|
  {
    if ls == [] then None
    else
      var here := FuzzyAt(tax, ls[0], index, key, text);
      if here.Some? then here
      else
        IndexedTail(ls, index);
        var r := FuzzyMatch(tax, ls[1..], index, key, text);
        FuzzyShift(tax, ls, index, key, text, r);
        r
  }

  /** A listing that relates to nothing passes the decision to the rest. */
  lemma FuzzyShift(tax: Taxonomy, ls: seq<Listing>, index: map<String, String>, key: String, text: String,
                   r: Option<SkillMatch>)
    requires ls != [] && Indexed(ls, index) && Indexed(ls[1..], index)
    requires !RelatesTo(ls[0].skill, key)
    requires r.None? <==> forall i :: 0 <= i < |ls[1..]| ==> !RelatesTo(ls[1..][i].skill, key)
    requires r.Some? ==>
               exists i :: 0 <= i < |ls[1..]| && RelatesTo(ls[1..][i].skill, key)
                           && (forall j :: 0 <= j < i ==> !RelatesTo(ls[1..][j].skill, key))
                           && r == FuzzyAt(tax, ls[1..][i], index, key, text)
    ensures r.None? <==> forall i :: 0 <= i < |ls| ==> !RelatesTo(ls[i].skill, key)
    ensures r.Some? ==>
              exists i :: 0 <= i < |ls| && RelatesTo(ls[i].skill, key)
                          && (forall j :: 0 <= j < i ==> !RelatesTo(ls[j].skill, key))
                          && r == FuzzyAt(tax, ls[i], index, key, text)
  {
    assert forall i :: 1 <= i < |ls| ==> ls[i] == ls[1..][i - 1];
    if r.Some? {
      var i :| 0 <= i < |ls[1..]| && RelatesTo(ls[1..][i].skill, key)
               && (forall j :: 0 <= j < i ==> !RelatesTo(ls[1..][j].skill, key))
               && r == FuzzyAt(tax, ls[1..][i], index, key, text);
      assert ls[i + 1] == ls[1..][i];
    }
  }

  lemma IndexedTail(ls: seq<Listing>, index: map<String, String>)
    requires ls != [] && Indexed(ls, index)
    ensures Indexed(ls[1..], index)
  {
    forall i | 0 <= i < |ls[1..]| ensures ls[1..][i] == ls[i + 1] {
    }
  }

  /** `match_skill`: an exact lookup of the lower-cased, stripped text in
      the index (confidence 1.0, alias reported only when the text differs
      from the canonical name), then the fuzzy pass. */
  function MatchSkill(tax: Taxonomy, text: String): (r: Option<SkillMatch>)
    ensures Indexed(Listings(tax), BuildIndex(tax))
    ensures var key := Strip(Lower(text));
            var index := BuildIndex(tax);
            && (key in index ==>
                  && r.Some? && r.value.confidence == 1.0
                  && r.value.category == index[key]
                  && r.value.canonical == FindCanonical(tax, key, index[key])
                  && (r.value.matchedAlias.None? <==> text == r.value.canonical)
                  && (r.value.matchedAlias.Some? ==> r.value.matchedAlias.value == text))
            && (key !in index ==> r == FuzzyMatch(tax, Listings(tax), index, key, text))
  {
    AllNamesIndexed(tax);
    var key := Strip(Lower(text));
    var index := BuildIndex(tax);
    if key in index then
      var category := index[key];
      var canonical := FindCanonical(tax, key, category);
      Some(SkillMatch(canonical, if text != canonical then Some(text) else None, category, 1.0))
    else
      FuzzyMatch(tax, Listings(tax), index, key, text)
  }

  /** No match at all exactly when the key is no name of the taxonomy and
      is related to none of them. */
  lemma MatchSkillNone(tax: Taxonomy, text: String)
    ensures var key := Strip(Lower(text));
            var ls := Listings(tax);
            MatchSkill(tax, text).None? <==>
              forall i :: 0 <= i < |ls| ==>
                && !Related(Lower(ls[i].skill.canonical), key)
                && forall a :: 0 <= a < |ls[i].skill.aliases| ==> !Related(Lower(ls[i].skill.aliases[a]), key)
  {
    var key := Strip(Lower(text));
    var ls := Listings(tax);
    AllNamesIndexed(tax);
    if key in BuildIndex(tax) {
      var i, present := IndexedName(tax, key);
      ContainsSelf(key);
      if present {
        assert Related(Lower(ls[i].skill.canonical), key);
      } else {
        var a :| 0 <= a < |ls[i].skill.aliases| && Lower(ls[i].skill.aliases[a]) == key;
        assert Related(Lower(ls[i].skill.aliases[a]), key);
      }
    }
  }

  /** An index key is the lower-cased canonical name (`canonical` true) or
      an alias of some listed skill. */
  lemma IndexedName(tax: Taxonomy, key: String) returns (i: nat, canonical: bool)
    requires key in BuildIndex(tax)
    ensures i < |Listings(tax)|
    ensures canonical ==> Lower(Listings(tax)[i].skill.canonical) == key
    ensures !canonical ==> exists a :: 0 <= a < |Listings(tax)[i].skill.aliases|
                                       && Lower(Listings(tax)[i].skill.aliases[a]) == key
  {
    var ls := Listings(tax);
    var es := ListingEntries(ls);
    assert LastWrite(es, key, BuildIndex(tax)[key]);
    var j :| 0 <= j < |es| && es[j] == Entry(key, BuildIndex(tax)[key]);
    i, canonical := EntryOrigin(ls, j);
  }

  lemma {:induction false} EntryOrigin(ls: seq<Listing>, j: nat) returns (i: nat, canonical: bool)
    requires j < |ListingEntries(ls)|
    ensures i < |ls|
    ensures canonical ==> Lower(ls[i].skill.canonical) == ListingEntries(ls)[j].key
    ensures !canonical ==> exists a :: 0 <= a < |ls[i].skill.aliases|
                                       && Lower(ls[i].skill.aliases[a]) == ListingEntries(ls)[j].key
    decreases |ls|
  {
    var head := SkillEntries(ls[0]);
    var es := ListingEntries(ls);
    assert es == head + ListingEntries(ls[1..]);
    if j < |head| {
      i := 0;
      canonical := j == 0;
      if j > 0 {
        assert es[j] == head[1 + (j - 1)];
      }
    } else {
      assert es[j] == ListingEntries(ls[1..])[j - |head|];
      var i', c' := EntryOrigin(ls[1..], j - |head|);
      i, canonical := i' + 1, c';
    }
  }

  /** `normalize_skill`: the canonical name of the match, or the text
      unchanged when nothing matches. */
  function NormalizeSkill(tax: Taxonomy, text: String): (r: String)
    ensures MatchSkill(tax, text).None? ==> r == text
    ensures MatchSkill(tax, text).Some? ==> r == MatchSkill(tax, text).value.canonical
    ensures Strip(Lower(text)) in BuildIndex(tax) ==>
              r == FindCanonical(tax, Strip(Lower(text)), BuildIndex(tax)[Strip(Lower(text))])
  {
    match MatchSkill(tax, text)
    case Some(m) => m.canonical
    case None => text
  }

  /** A blank text has the empty key, which every name contains: unless
      some name is itself blank, it fuzzily matches the first listed skill. */
  lemma BlankMatchesFirstSkill(tax: Taxonomy, text: String)
    requires Listings(tax) != []
    requires forall i :: 0 <= i < |text| ==> IsSpace(text[i])
    requires [] !in BuildIndex(tax)
    ensures MatchSkill(tax, text).Some?
    ensures MatchSkill(tax, text).value.canonical == Listings(tax)[0].skill.canonical
    ensures MatchSkill(tax, text).value.confidence == 0.8
  {
    BlankStrips(text);
    ContainsEmpty(Lower(Listings(tax)[0].skill.canonical));
  }

  lemma BlankStrips(text: String)
    requires forall i :: 0 <= i < |text| ==> IsSpace(text[i])
    ensures Strip(Lower(text)) == []
  {
    var l := Lower(text);
    assert forall i :: 0 <= i < |l| ==> IsSpace(l[i]);
    assert DropWhile(l, IsSpace) == [];
  }

  // ---------------------------------------------------------------------
  // Extraction
  // ---------------------------------------------------------------------

  /** The skill's canonical name or one of its aliases occurs in the text. */
  predicate Mentioned(s: Skill, textLower: String) {
    Contains(textLower, Lower(s.canonical))
    || exists a :: 0 <= a < |s.aliases| && Contains(textLower, Lower(s.aliases[a]))
  }

  /** How a listing justifies a match: by its canonical name (alias none,
      confidence 1.0) or, when the canonical name is absent, by one of its
      aliases (confidence 0.9). */
  predicate Justifies(l: Listing, textLower: String, m: SkillMatch) {
    && m.canonical == l.skill.canonical
    && m.category == l.category
    && (|| (m.matchedAlias.None? && m.confidence == 1.0 && Contains(textLower, Lower(l.skill.canonical)))
        || (&& m.matchedAlias.Some? && m.confidence == 0.9
            && !Contains(textLower, Lower(l.skill.canonical))
            && m.matchedAlias == FirstAliasIn(l.skill.aliases, textLower)))
  }

  /** Some listing justifies the match. */
  predicate JustifiedBy(ls: seq<Listing>, textLower: String, m: SkillMatch) {
    exists p :: 0 <= p < |ls| && Justifies(ls[p], textLower, m)
  }

  /** The first alias occurring in the text. */
  function FirstAliasIn(aliases: seq<String>, textLower: String): (r: Option<String>)
    ensures r.None? <==> forall a :: 0 <= a < |aliases| ==> !Contains(textLower, Lower(aliases[a]))
    ensures r.Some? ==> r.value in aliases && Contains(textLower, Lower(r.value))
    ensures r.Some? ==> exists a :: 0 <= a < |aliases| && aliases[a] == r.value
                                    && forall b :: 0 <= b < a ==> !Contains(textLower, Lower(aliases[b]))
    decreases |aliases|
  {
    if aliases == [] then None
    else if Contains(textLower, Lower(aliases[0])) then Some(aliases[0])
    else
      var r := FirstAliasIn(aliases[1..], textLower);
      assert forall a :: 1 <= a < |aliases| ==> aliases[a] == aliases[1..][a - 1];
      FirstAliasShift(aliases, textLower, r);
      r
  }

  lemma FirstAliasShift(aliases: seq<String>, textLower: String, r: Option<String>)
    requires aliases != [] && !Contains(textLower, Lower(aliases[0]))
    requires r.Some? ==> exists a :: 0 <= a < |aliases[1..]| && aliases[1..][a] == r.value
                                     && forall b :: 0 <= b < a ==> !Contains(textLower, Lower(aliases[1..][b]))
    ensures r.Some? ==> exists a :: 0 <= a < |aliases| && aliases[a] == r.value
                                    && forall b :: 0 <= b < a ==> !Contains(textLower, Lower(aliases[b]))
  {
    if r.Some? {
      var a :| 0 <= a < |aliases[1..]| && aliases[1..][a] == r.value
                && forall b :: 0 <= b < a ==> !Contains(textLower, Lower(aliases[1..][b]));
      assert aliases[a + 1] == r.value;
      forall b | 0 <= b < a + 1 ensures !Contains(textLower, Lower(aliases[b])) {
        if b > 0 { assert aliases[b] == aliases[1..][b - 1]; }
      }
    }
  }

  function Canonicals(ms: seq<SkillMatch>): set<String> {
    set i | 0 <= i < |ms| :: ms[i].canonical
  }

  /** What the extraction loop promises from a set of canonical names
      already reported: nothing reported twice or again, every match
      justified by a listing, every mentioned listing reported. */
  predicate Extraction(ls: seq<Listing>, textLower: String, seen: set<String>, ms: seq<SkillMatch>) {
    && (forall i :: 0 <= i < |ms| ==> ms[i].canonical !in seen)
    && (forall i, j :: 0 <= i < j < |ms| ==> ms[i].canonical != ms[j].canonical)
    && (forall i :: 0 <= i < |ms| ==> JustifiedBy(ls, textLower, ms[i]))
    && (forall p :: 0 <= p < |ls| && Mentioned(ls[p].skill, textLower) ==>
          ls[p].skill.canonical in seen + Canonicals(ms))
  }

  /** The match the loop reports for a listing: by its canonical name when
      that occurs, otherwise by its first occurring alias. */
  function MatchFor(l: Listing, textLower: String): SkillMatch {
    if Contains(textLower, Lower(l.skill.canonical)) then SkillMatch(l.skill.canonical, None, l.category, 1.0)
    else SkillMatch(l.skill.canonical, FirstAliasIn(l.skill.aliases, textLower), l.category, 0.9)
  }

  /** Listing `p` is reported: the text mentions it, its canonical name was
      not seen before the loop, and no earlier mentioned listing has the
      same canonical name. */
  predicate Reported(ls: seq<Listing>, textLower: String, seen: set<String>, p: nat)
    requires p < |ls|
  {
    && Mentioned(ls[p].skill, textLower)
    && ls[p].skill.canonical !in seen
    && forall q :: 0 <= q < p && Mentioned(ls[q].skill, textLower) ==> ls[q].skill.canonical != ls[p].skill.canonical
  }

  /** Each listing's contribution: its match when it is reported. */
  function ReportOptions(ls: seq<Listing>, textLower: String, seen: set<String>): (os: seq<Option<SkillMatch>>)
    ensures |os| == |ls|
    ensures forall p :: 0 <= p < |ls| ==>
              os[p] == if Reported(ls, textLower, seen, p) then Some(MatchFor(ls[p], textLower)) else None
  {
    seq(|ls|, p requires 0 <= p < |ls| =>
        if Reported(ls, textLower, seen, p) then Some(MatchFor(ls[p], textLower)) else None)
  }

  /** After the first listing, the rest is reported as from the names seen
      so far. */
  lemma ReportedShift(ls: seq<Listing>, textLower: String, seen: set<String>, seen': set<String>, p: nat)
    requires 1 <= p < |ls|
    requires seen' == if Reported(ls, textLower, seen, 0) then seen + {ls[0].skill.canonical} else seen
    ensures Reported(ls, textLower, seen, p) <==> Reported(ls[1..], textLower, seen', p - 1)
  {
    assert ls[1..][p - 1] == ls[p];
    assert forall q :: 1 <= q < p ==> ls[1..][q - 1] == ls[q];
    if Reported(ls[1..], textLower, seen', p - 1) {
      forall q | 0 <= q < p && Mentioned(ls[q].skill, textLower)
        ensures ls[q].skill.canonical != ls[p].skill.canonical
      {
        if q > 0 {
          assert ls[1..][q - 1] == ls[q];
        }
      }
    }
  }

  lemma ReportOptionsTail(ls: seq<Listing>, textLower: String, seen: set<String>, seen': set<String>)
    requires ls != []
    requires seen' == if Reported(ls, textLower, seen, 0) then seen + {ls[0].skill.canonical} else seen
    ensures ReportOptions(ls, textLower, seen)[1..] == ReportOptions(ls[1..], textLower, seen')
  {
    var os, os' := ReportOptions(ls, textLower, seen), ReportOptions(ls[1..], textLower, seen');
    forall p | 1 <= p < |ls| ensures os[p] == os'[p - 1] {
      assert ls[1..][p - 1] == ls[p];
      ReportedShift(ls, textLower, seen, seen', p);
    }
  }

  /** The loop of `extract_skills_from_text` from a given set of canonical
      names already reported. */
  function ExtractFrom(ls: seq<Listing>, textLower: String, seen: set<String>): (ms: seq<SkillMatch>)
    ensures Extraction(ls, textLower, seen, ms)
    ensures ms == Somes(ReportOptions(ls, textLower, seen))
    decreases |ls|
  {
    if ls == [] then []
    else
      var l := ls[0];
      var s := l.skill;
      if Contains(textLower, Lower(s.canonical)) && s.canonical !in seen then
        var rest := ExtractFrom(ls[1..], textLower, seen + {s.canonical});
        var m := SkillMatch(s.canonical, None, l.category, 1.0);
        ReportStep(ls, textLower, seen, m, rest);
        ReportTail(ls, textLower, seen, m, rest);
        [m] + rest
      else if s.canonical !in seen then
        match FirstAliasIn(s.aliases, textLower)
        case Some(a) =>
          var rest := ExtractFrom(ls[1..], textLower, seen + {s.canonical});
          var m := SkillMatch(s.canonical, Some(a), l.category, 0.9);
          ReportStep(ls, textLower, seen, m, rest);
          ReportTail(ls, textLower, seen, m, rest);
          [m] + rest
        case None =>
          var rest := ExtractFrom(ls[1..], textLower, seen);
          SkipStep(ls, textLower, seen, rest);
          SkipTail(ls, textLower, seen, rest);
          rest
      else
        var rest := ExtractFrom(ls[1..], textLower, seen);
        SkipStep(ls, textLower, seen, rest);
        SkipTail(ls, textLower, seen, rest);
        rest
  }

  /** A reported first listing heads the reference list. */
  lemma ReportTail(ls: seq<Listing>, textLower: String, seen: set<String>, m: SkillMatch, rest: seq<SkillMatch>)
    requires ls != [] && Mentioned(ls[0].skill, textLower) && ls[0].skill.canonical !in seen
    requires m == MatchFor(ls[0], textLower)
    requires rest == Somes(ReportOptions(ls[1..], textLower, seen + {ls[0].skill.canonical}))
    ensures [m] + rest == Somes(ReportOptions(ls, textLower, seen))
  {
    assert Reported(ls, textLower, seen, 0);
    ReportOptionsTail(ls, textLower, seen, seen + {ls[0].skill.canonical});
  }

  /** An unreported first listing contributes nothing. */
  lemma SkipTail(ls: seq<Listing>, textLower: String, seen: set<String>, rest: seq<SkillMatch>)
    requires ls != [] && (ls[0].skill.canonical in seen || !Mentioned(ls[0].skill, textLower))
    requires rest == Somes(ReportOptions(ls[1..], textLower, seen))
    ensures rest == Somes(ReportOptions(ls, textLower, seen))
  {
    assert !Reported(ls, textLower, seen, 0);
    ReportOptionsTail(ls, textLower, seen, seen);
  }

  /** Reporting the first listing, then the rest with its name seen. */
  lemma ReportStep(ls: seq<Listing>, textLower: String, seen: set<String>, m: SkillMatch, rest: seq<SkillMatch>)
    requires ls != [] && Justifies(ls[0], textLower, m) && m.canonical !in seen
    requires Extraction(ls[1..], textLower, seen + {m.canonical}, rest)
    ensures Extraction(ls, textLower, seen, [m] + rest)
  {
    FreshCons(seen, m, rest);
    MentionedCovered(ls, textLower, seen, m, rest);
    JustifiedTail(ls, textLower, rest);
    assert JustifiedBy(ls, textLower, ([m] + rest)[0]);
  }

  /** Reporting a fresh name ahead of fresh, distinct names keeps them all
      fresh and distinct. */
  lemma FreshCons(seen: set<String>, m: SkillMatch, rest: seq<SkillMatch>)
    requires m.canonical !in seen
    requires forall i :: 0 <= i < |rest| ==> rest[i].canonical !in seen + {m.canonical}
    requires forall i, j :: 0 <= i < j < |rest| ==> rest[i].canonical != rest[j].canonical
    ensures forall i :: 0 <= i < |[m] + rest| ==> ([m] + rest)[i].canonical !in seen
    ensures forall i, j :: 0 <= i < j < |[m] + rest| ==> ([m] + rest)[i].canonical != ([m] + rest)[j].canonical
  {
    var ms := [m] + rest;
    assert forall i :: 1 <= i < |ms| ==> ms[i] == rest[i - 1];
  }

  /** Every mentioned listing stays covered once the first one's name is
      reported. */
  lemma MentionedCovered(ls: seq<Listing>, textLower: String, seen: set<String>, m: SkillMatch, rest: seq<SkillMatch>)
    requires ls != [] && m.canonical == ls[0].skill.canonical
    requires forall p :: 0 <= p < |ls[1..]| && Mentioned(ls[1..][p].skill, textLower) ==>
               ls[1..][p].skill.canonical in seen + {m.canonical} + Canonicals(rest)
    ensures forall p :: 0 <= p < |ls| && Mentioned(ls[p].skill, textLower) ==>
              ls[p].skill.canonical in seen + Canonicals([m] + rest)
  {
    CanonicalsCons(m, rest);
    forall p | 0 <= p < |ls| && Mentioned(ls[p].skill, textLower)
      ensures ls[p].skill.canonical in seen + Canonicals([m] + rest)
    {
      if p > 0 { assert ls[p] == ls[1..][p - 1]; }
    }
  }

  /** Skipping the first listing, which is unmentioned or already seen. */
  lemma SkipStep(ls: seq<Listing>, textLower: String, seen: set<String>, rest: seq<SkillMatch>)
    requires ls != [] && (ls[0].skill.canonical in seen || !Mentioned(ls[0].skill, textLower))
    requires Extraction(ls[1..], textLower, seen, rest)
    ensures Extraction(ls, textLower, seen, rest)
  {
    assert forall p :: 1 <= p < |ls| ==> ls[p] == ls[1..][p - 1];
    JustifiedTail(ls, textLower, rest);
  }

  /** A match justified by a later listing is justified by the whole list. */
  lemma JustifiedTail(ls: seq<Listing>, textLower: String, rest: seq<SkillMatch>)
    requires ls != []
    requires forall i :: 0 <= i < |rest| ==> JustifiedBy(ls[1..], textLower, rest[i])
    ensures forall i :: 0 <= i < |rest| ==> JustifiedBy(ls, textLower, rest[i])
  {
    forall i | 0 <= i < |rest| ensures JustifiedBy(ls, textLower, rest[i]) {
      var p :| 0 <= p < |ls[1..]| && Justifies(ls[1..][p], textLower, rest[i]);
      assert ls[p + 1] == ls[1..][p];
    }
  }

  lemma CanonicalsCons(m: SkillMatch, rest: seq<SkillMatch>)
    ensures Canonicals([m] + rest) == {m.canonical} + Canonicals(rest)
  {
    var ms := [m] + rest;
    assert ms[0] == m;
    forall c | c in Canonicals(rest) ensures c in Canonicals(ms) {
      var i :| 0 <= i < |rest| && rest[i].canonical == c;
      assert ms[i + 1] == rest[i];
    }
  }

  /** `extract_skills_from_text`: one match per mentioned canonical skill,
      none repeated, each justified by its canonical name or an alias, in
      listing order. */
  function ExtractSkills(tax: Taxonomy, text: String): (ms: seq<SkillMatch>)
    ensures forall i, j :: 0 <= i < j < |ms| ==> ms[i].canonical != ms[j].canonical
    ensures forall i :: 0 <= i < |ms| ==> JustifiedBy(Listings(tax), Lower(text), ms[i])
    ensures forall p :: 0 <= p < |Listings(tax)| && Mentioned(Listings(tax)[p].skill, Lower(text)) ==>
              Listings(tax)[p].skill.canonical in Canonicals(ms)
    ensures ms == Somes(ReportOptions(Listings(tax), Lower(text), {}))
  {
    var ls := Listings(tax);
    var ms := ExtractFrom(ls, Lower(text), {});
    assert Extraction(ls, Lower(text), {}, ms);
    assert {} + Canonicals(ms) == Canonicals(ms);
    ms
  }

  /** The canonical names extracted are exactly those of the mentioned
      skills. */
  lemma ExtractedAreMentioned(tax: Taxonomy, text: String)
    ensures Canonicals(ExtractSkills(tax, text)) ==
            set p | 0 <= p < |Listings(tax)| && Mentioned(Listings(tax)[p].skill, Lower(text))
                  :: Listings(tax)[p].skill.canonical
  {
    var ms := ExtractSkills(tax, text);
    var ls := Listings(tax);
    var mentioned := set p | 0 <= p < |ls| && Mentioned(ls[p].skill, Lower(text)) :: ls[p].skill.canonical;
    forall c | c in Canonicals(ms) ensures c in mentioned {
      var i :| 0 <= i < |ms| && ms[i].canonical == c;
      var p := ExtractedIsMentioned(tax, text, i);
    }
    forall c | c in mentioned ensures c in Canonicals(ms) {
      var p :| 0 <= p < |ls| && Mentioned(ls[p].skill, Lower(text)) && ls[p].skill.canonical == c;
    }
  }

  /** Each extracted match comes from a listed skill the text mentions. */
  lemma ExtractedIsMentioned(tax: Taxonomy, text: String, i: nat) returns (p: nat)
    requires i < |ExtractSkills(tax, text)|
    ensures p < |Listings(tax)| && Mentioned(Listings(tax)[p].skill, Lower(text))
    ensures Listings(tax)[p].skill.canonical == ExtractSkills(tax, text)[i].canonical
  {
    var ms := ExtractSkills(tax, text);
    var ls := Listings(tax);
    p :| 0 <= p < |ls| && Justifies(ls[p], Lower(text), ms[i]);
    if ms[i].matchedAlias.Some? {
      var a :| 0 <= a < |ls[p].skill.aliases| && ls[p].skill.aliases[a] == ms[i].matchedAlias.value;
      assert Contains(Lower(text), Lower(ls[p].skill.aliases[a]));
    }
  }
}

=== FILE: suggestions.dfy ===
/** The deterministic parts of the suggestion generator
    (`src/generation/suggestion_generator.py`): skill insertion, the choice
    of an action-verb group, the clean-up of a model's answer into one
    bullet, and the dispatch to a language-model backend, which itself is a
    parameter. */
module Suggestions {
  import opened Text
  import opened Wrappers

  datatype SuggestionType = BulletRewrite | SkillInsertion | SummaryUpdate | KeywordAdd

  datatype Suggestion = Suggestion(
    kind: SuggestionType,
    targetSection: String,
    targetLocation: String,
    currentText: Option<String>,
    suggestedText: String,
    reason: String,
    jdRequirement: String,
    estimatedGain: int)

  // ---------------------------------------------------------------------
  // Skill insertion
  // ---------------------------------------------------------------------

  /** Each skill's contribution: itself when the section does not already
      mention it. */
  function AbsentOptions(missing: seq<String>, section: String): (os: seq<Option<String>>)
    ensures |os| == |missing|
    ensures forall j :: 0 <= j < |missing| ==>
              os[j] == if Contains(Lower(section), Lower(missing[j])) then None else Some(missing[j])
  {
    seq(|missing|, j requires 0 <= j < |missing| =>
        if Contains(Lower(section), Lower(missing[j])) then None else Some(missing[j]))
  }

  /** The skills whose lower-case form does not occur in the lower-cased
      section, in input order, each as often as it is listed. */
  function SkillsToAdd(missing: seq<String>, section: String): (r: seq<String>)
    ensures |r| <= |missing|
    ensures forall k :: 0 <= k < |r| ==> r[k] in missing && !Contains(Lower(section), Lower(r[k]))
    ensures forall s :: s in missing && !Contains(Lower(section), Lower(s)) ==> s in r
    ensures r == Somes(AbsentOptions(missing, section))
    decreases |missing|
  {
    if missing == [] then []
    else
      assert AbsentOptions(missing, section)[1..] == AbsentOptions(missing[1..], section);
      (if Contains(Lower(section), Lower(missing[0])) then [] else [missing[0]])
      + SkillsToAdd(missing[1..], section)
  }

  /** The stripped section with a trailing comma unless it is empty or
      already ends with one. */
  function CommaTerminated(section: String): (r: String)
    ensures StartsWith(r, Strip(section))
    ensures r == [] || EndsWith(r, ",")
  {
    var base := Strip(section);
    if base != [] && !EndsWith(base, ",") then base + "," else base
  }

  /** `generate_skill_insertions`: the section unchanged when every skill
      already occurs in it, case-insensitively; otherwise the stripped
      section, comma-terminated, followed by a space and the new skills
      joined by ", ". */
  function GenerateSkillInsertions(missing: seq<String>, section: String): (r: String)
    ensures SkillsToAdd(missing, section) == [] ==> r == section
    ensures SkillsToAdd(missing, section) != [] ==>
              r == CommaTerminated(section) + " " + Join(SkillsToAdd(missing, section), ", ")
  {
    var toAdd := SkillsToAdd(missing, section);
    if toAdd == [] then section else CommaTerminated(section) + " " + Join(toAdd, ", ")
  }

  /** A skill name without whitespace at either end. */
  predicate Trimmed(s: String) {
    s == [] || (NotSpace(s[0]) && NotSpace(s[|s| - 1]))
  }

  /** After insertion every skill occurs in the section, case-insensitively:
      the added ones in the appended list, the others in the kept text. */
  lemma InsertedSkillsPresent(missing: seq<String>, section: String)
    requires forall s :: s in missing ==> Trimmed(s)
    ensures forall s :: s in missing ==> Contains(Lower(GenerateSkillInsertions(missing, section)), Lower(s))
  {
    var toAdd := SkillsToAdd(missing, section);
    if toAdd != [] {
      forall s | s in missing
        ensures Contains(Lower(GenerateSkillInsertions(missing, section)), Lower(s))
      {
        SkillPresent(missing, section, s);
      }
    }
  }

  lemma SkillPresent(missing: seq<String>, section: String, s: String)
    requires s in missing && Trimmed(s)
    requires SkillsToAdd(missing, section) != []
    ensures Contains(Lower(GenerateSkillInsertions(missing, section)), Lower(s))
  {
    var toAdd := SkillsToAdd(missing, section);
    if Contains(Lower(section), Lower(s)) {
      KeptSkillPresent(section, toAdd, s);
    } else {
      var k :| 0 <= k < |toAdd| && toAdd[k] == s;
      AddedSkillPresent(CommaTerminated(section), toAdd, k);
    }
  }

  /** A skill already in the section survives in the kept, stripped text. */
  lemma KeptSkillPresent(section: String, toAdd: seq<String>, s: String)
    requires Trimmed(s) && Contains(Lower(section), Lower(s))
    ensures Contains(Lower(CommaTerminated(section) + " " + Join(toAdd, ", ")), Lower(s))
  {
    var head := CommaTerminated(section);
    var tail := " " + Join(toAdd, ", ");
    assert head + " " + Join(toAdd, ", ") == head + tail;
    LowerConcat(head, tail);
    if s == [] {
      ContainsEmpty(Lower(head + tail));
    } else {
      SkillInCommaTerminated(section, s);
      ContainsPrefix(Lower(head), Lower(tail), Lower(s));
    }
  }

  lemma SkillInCommaTerminated(section: String, s: String)
    requires s != [] && Trimmed(s) && Contains(Lower(section), Lower(s))
    ensures Contains(Lower(CommaTerminated(section)), Lower(s))
  {
    LowerContainsStrip(section, s);
    var base := Strip(section);
    var head := CommaTerminated(section);
    assert head == base + head[|base|..];
    LowerConcat(base, head[|base|..]);
    ContainsPrefix(Lower(base), Lower(head[|base|..]), Lower(s));
  }

  /** An added skill occurs in the appended list. */
  lemma AddedSkillPresent(head: String, toAdd: seq<String>, k: nat)
    requires k < |toAdd|
    ensures Contains(Lower(head + " " + Join(toAdd, ", ")), Lower(toAdd[k]))
  {
    var tail := " " + Join(toAdd, ", ");
    assert head + " " + Join(toAdd, ", ") == head + tail;
    LowerConcat(head, tail);
    JoinContains(toAdd, ", ", k);
    ContainsSuffix(" ", Join(toAdd, ", "), toAdd[k]);
    LowerContains(tail, toAdd[k]);
    ContainsSuffix(Lower(head), Lower(tail), Lower(toAdd[k]));
  }

  /** Inserting the same skills a second time changes nothing. */
  lemma SkillInsertionIdempotent(missing: seq<String>, section: String)
    requires forall s :: s in missing ==> Trimmed(s)
    ensures var once := GenerateSkillInsertions(missing, section);
            GenerateSkillInsertions(missing, once) == once
  {
    var once := GenerateSkillInsertions(missing, section);
    InsertedSkillsPresent(missing, section);
    NothingToAdd(missing, once);
  }

  lemma {:induction false} NothingToAdd(missing: seq<String>, section: String)
    requires forall s :: s in missing ==> Contains(Lower(section), Lower(s))
    ensures SkillsToAdd(missing, section) == []
    decreases |missing|
  {
    if missing != [] {
      NothingToAdd(missing[1..], section);
    }
  }

  // ---------------------------------------------------------------------
  // Action verbs
  // ---------------------------------------------------------------------

  /** The action-verb groups, in the order they are tried. */
  datatype VerbGroup = Creation | Leadership | Improvement | Analysis | Automation | DataScience
  {
    /** The group's key in the action-verb table. */
    function Key(): String {
      match this
      case Creation => "creation"
      case Leadership => "leadership"
      case Improvement => "improvement"
      case Analysis => "analysis"
      case Automation => "automation"
      case DataScience => "data_science"
    }

    function Rank(): nat {
      match this
      case Creation => 0
      case Leadership => 1
      case Improvement => 2
      case Analysis => 3
      case Automation => 4
      case DataScience => 5
    }

    /** The words that select the group. */
    function Keywords(): seq<String> {
      match this
      case Creation => ["build", "develop", "create", "design"]
      case Leadership => ["lead", "manage", "mentor"]
      case Improvement => ["improve", "optimize", "enhance"]
      case Analysis => ["analyze", "evaluate", "research"]
      case Automation => ["automate", "script", "pipeline"]
      case DataScience => ["model", "predict", "train", "ml", "machine learning"]
    }
  }

  /** Whether a keyword of the group occurs in the lower-cased requirement. */
  predicate Selects(g: VerbGroup, requirement: String) {
    AnyIn(g.Keywords(), Lower(requirement))
  }

  /** `_select_action_verbs`, up to the table lookup: the first group, in
      rank order, with a keyword in the requirement; CREATION when none
      has. */
  function SelectVerbGroup(requirement: String): (r: VerbGroup)
    ensures Selects(r, requirement) || (r == Creation && forall g: VerbGroup :: !Selects(g, requirement))
    ensures forall g: VerbGroup :: g.Rank() < r.Rank() ==> !Selects(g, requirement)
  {
    if Selects(Creation, requirement) then Creation
    else if Selects(Leadership, requirement) then Leadership
    else if Selects(Improvement, requirement) then Improvement
    else if Selects(Analysis, requirement) then Analysis
    else if Selects(Automation, requirement) then Automation
    else if Selects(DataScience, requirement) then DataScience
    else Creation
  }

  /** `_select_action_verbs`: the verbs of the selected group; a table
      without the group's key is the lookup error. */
  function SelectActionVerbs(requirement: String, verbs: map<String, seq<String>>): (r: Result<seq<String>, String>)
    ensures r.Success? <==> SelectVerbGroup(requirement).Key() in verbs
    ensures r.Success? ==> r.value == verbs[SelectVerbGroup(requirement).Key()]
  {
    var key := SelectVerbGroup(requirement).Key();
    if key in verbs then Success(verbs[key]) else Failure(key)
  }

  // ---------------------------------------------------------------------
  // Cleaning a model answer
  // ---------------------------------------------------------------------

  /** Lead-ins that announce the rewritten bullet, tried in this order. */
  function MetaPhrases(): seq<String> {
    [ "here is a rewritten bullet", "here's a rewritten bullet", "rewritten bullet:",
      "here is the rewritten", "here's the rewritten", "revised bullet:",
      "updated bullet:", "that meets the guidelines:" ]
  }

  /** The text answered in place of a bullet that still talks about
      guidelines or rewriting. */
  function Placeholder(): String {
    "[Generated " + "suggestion - " + "please review " + "and customize]"
  }

  /** The index of the first phrase, from `i` on, that occurs in the text. */
  function FirstPhraseIn(phrases: seq<String>, text: String, i: nat): (r: Option<nat>)
    requires i <= |phrases|
    ensures r.None? <==> forall k :: i <= k < |phrases| ==> !Contains(text, phrases[k])
    ensures r.Some? ==> i <= r.value < |phrases| && Contains(text, phrases[r.value])
    ensures r.Some? ==> forall k :: i <= k < r.value ==> !Contains(text, phrases[k])
    decreases |phrases| - i
  {
    if i == |phrases| then None
    else if Contains(text, phrases[i]) then Some(i)
    else FirstPhraseIn(phrases, text, i + 1)
  }

  predicate IsLeadInChar(c: char) {
    c == ':' || c == '•' || c == '-' || c == '*' || c == '+' || c == ' ' || c == '\n'
  }

  predicate IsBulletLeadChar(c: char) {
    c == '•' || c == '-' || c == '*' || c == '+' || c == ' '
  }

  predicate IsQuote(c: char) {
    c == '"' || c == '\''
  }

  /** The stripped answer after the first meta phrase found in it, with
      leading colons, glyphs, spaces and newlines removed; the whole
      stripped answer when no meta phrase occurs. */
  function AfterMetaPhrase(response: String): String {
    var r := Strip(response);
    var low := Lower(r);
    match FirstPhraseIn(MetaPhrases(), low, 0)
    case None => r
    case Some(k) =>
      var idx := FindIndex(low, MetaPhrases()[k]);
      DropWhile(Strip(r[idx + |MetaPhrases()[k]|..]), IsLeadInChar)
  }

  /** The non-blank lines of the text, stripped. */
  function NonBlankLines(text: String): seq<String> {
    var ls := Split(text, '\n');
    Somes(seq(|ls|, k requires 0 <= k < |ls| => if Strip(ls[k]) != [] then Some(Strip(ls[k])) else None))
  }

  /** A line long enough to be the bullet and not itself a lead-in. */
  predicate Substantial(line: String) {
    |line| > 20
    && !StartsWith(Lower(line), "here") && !StartsWith(Lower(line), "this") && !StartsWith(Lower(line), "note")
  }

  function SubstantialFlags(lines: seq<String>): (r: seq<bool>)
    ensures |r| == |lines|
    ensures forall k :: 0 <= k < |lines| ==> r[k] == Substantial(lines[k])
  {
    seq(|lines|, k requires 0 <= k < |lines| => Substantial(lines[k]))
  }

  /** The line taken as the bullet: the first substantial line, else the
      first line, else the whole text when it has no non-blank line. */
  function ChosenLine(text: String): String {
    var lines := NonBlankLines(text);
    if lines == [] then text
    else match FirstTrue(SubstantialFlags(lines), 0)
      case Some(k) => lines[k]
      case None => lines[0]
  }

  /** The answer without its lead-in and leading glyphs, reduced to the
      chosen line, with quotes stripped from both ends. */
  function UnquotedLine(response: String): (r: String)
    ensures r == [] || (!IsQuote(r[0]) && !IsQuote(r[|r| - 1]))
  {
    var t := ChosenLine(DropWhile(AfterMetaPhrase(response), IsBulletLeadChar));
    StripWithEnds(t, IsQuote);
    StripWith(t, IsQuote)
  }

  /** `_extract_bullet_from_response`: the cleaned line, or the
      placeholder when it still mentions guidelines or rewriting. */
  function ExtractBulletFromResponse(response: String): (r: String)
    ensures !Contains(Lower(r), "guideline") && !Contains(Lower(r), "rewritten")
    ensures r == Placeholder() || (r == UnquotedLine(response) && (r == [] || (!IsQuote(r[0]) && !IsQuote(r[|r| - 1]))))
    ensures r == UnquotedLine(response) <==>
              !Contains(Lower(UnquotedLine(response)), "guideline") && !Contains(Lower(UnquotedLine(response)), "rewritten")
  {
    var bullet := UnquotedLine(response);
    if Contains(Lower(bullet), "guideline") || Contains(Lower(bullet), "rewritten") then
      PlaceholderIsClean();
      Placeholder()
    else
      bullet
  }

  lemma StripWithEnds(s: String, p: char -> bool)
    ensures var r := StripWith(s, p); r == [] || (!p(r[0]) && !p(r[|r| - 1]))
  {
    var u := DropWhile(s, p);
    var r := DropLastWhile(u, p);
    if r != [] {
      assert r[0] == u[0];
    }
  }

  /** When a non-blank line is substantial, the first such line is the one
      chosen; otherwise the first non-blank line is. */
  lemma ChosenLineRule(text: String)
    requires NonBlankLines(text) != []
    ensures var lines := NonBlankLines(text);
            (exists k :: 0 <= k < |lines| && Substantial(lines[k])) ==>
              exists k :: 0 <= k < |lines| && ChosenLine(text) == lines[k] && Substantial(lines[k])
                          && forall l :: 0 <= l < k ==> !Substantial(lines[l])
    ensures var lines := NonBlankLines(text);
            (forall k :: 0 <= k < |lines| ==> !Substantial(lines[k])) ==> ChosenLine(text) == lines[0]
  {
    var lines := NonBlankLines(text);
    var flags := SubstantialFlags(lines);
    FirstTrueNone(flags, 0);
    if FirstTrue(flags, 0).Some? {
      FirstTrueHit(flags, 0);
    }
  }

  /** No two neighbouring characters of `s`, lower-cased, are `a` then
      `b`. */
  predicate NoPairCI(s: String, a: char, b: char) {
    forall i :: 0 <= i < |s| - 1 ==> !(LowerChar(s[i]) == a && LowerChar(s[i + 1]) == b)
  }

  /** A text in which two neighbouring letters of `p` never stand side by
      side does not contain `p`, case-insensitively. */
  lemma NoPairNoContains(s: String, p: String, j: nat)
    requires j + 1 < |p| && NoPairCI(s, p[j], p[j + 1])
    ensures !Contains(Lower(s), p)
  {
    var t := Lower(s);
    forall i | 0 <= i <= |t| - |p| ensures !OccursAt(t, p, i) {
      assert !(t[i + j] == p[j] && t[i + j + 1] == p[j + 1]);
      assert t[i..i + |p|][j] == t[i + j] && t[i..i + |p|][j + 1] == t[i + j + 1];
    }
  }

  lemma NoPairConcat(x: String, y: String, a: char, b: char)
    requires NoPairCI(x, a, b) && NoPairCI(y, a, b)
    requires x == [] || y == [] || !(LowerChar(x[|x| - 1]) == a && LowerChar(y[0]) == b)
    ensures NoPairCI(x + y, a, b)
  {
    var s := x + y;
    forall i | 0 <= i < |s| - 1 ensures !(LowerChar(s[i]) == a && LowerChar(s[i + 1]) == b) {
      if i + 1 < |x| {
        assert s[i] == x[i] && s[i + 1] == x[i + 1];
      } else if i >= |x| {
        assert s[i] == y[i - |x|] && s[i + 1] == y[i + 1 - |x|];
      }
    }
  }

  /** Neither "gu" nor "wr" occurs in a piece of the placeholder. */
  predicate PieceClean(s: String) {
    NoPairCI(s, 'g', 'u') && NoPairCI(s, 'w', 'r')
  }

  lemma GeneratedPieceClean()
    ensures PieceClean("[Generated ")
  {
  }

  lemma SuggestionPieceClean()
    ensures PieceClean("suggestion - ")
  {
  }

  lemma PleaseReviewPieceClean()
    ensures PieceClean("please review ")
  {
  }

  lemma AndCustomizePieceClean()
    ensures PieceClean("and customize]")
  {
  }

  lemma PlaceholderNoPair(a: char, b: char)
    requires (a == 'g' && b == 'u') || (a == 'w' && b == 'r')
    ensures NoPairCI(Placeholder(), a, b)
  {
    GeneratedPieceClean();
    SuggestionPieceClean();
    PleaseReviewPieceClean();
    AndCustomizePieceClean();
    NoPairConcat("[Generated ", "suggestion - ", a, b);
    NoPairConcat("[Generated " + "suggestion - ", "please review ", a, b);
    NoPairConcat("[Generated " + "suggestion - " + "please review ", "and customize]", a, b);
  }

  /** The placeholder mentions neither guidelines nor rewriting: it has no
      "gu" and no "wr". */
  lemma PlaceholderIsClean()
    ensures !Contains(Lower(Placeholder()), "guideline") && !Contains(Lower(Placeholder()), "rewritten")
  {
    PlaceholderNoPair('g', 'u');
    PlaceholderNoPair('w', 'r');
    NoPairNoContains(Placeholder(), "guideline", 0);
    NoPairNoContains(Placeholder(), "rewritten", 2);
  }

  // ---------------------------------------------------------------------
  // Backends
  // ---------------------------------------------------------------------

  /** The backend names `_call_llm` knows. */
  function KnownBackends(): seq<String> {
    ["ollama", "openai", "anthropic", "gemini"]
  }

  /** `_call_llm`: the answer of the named backend, or the error for a
      name it does not know. `call` stands for the four backends, each of
      which turns its own failures into an answer text. */
  function CallLlm(backend: String, prompt: String, call: (String, String) -> String): (r: Result<String, String>)
    ensures r.Success? <==> backend in KnownBackends()
    ensures r.Success? ==> r.value == call(backend, prompt)
  {
    if backend in KnownBackends() then Success(call(backend, prompt))
    else Failure("Unsupported LLM backend: " + backend)
  }

  /** `generate_bullet_rewrite` from an already built prompt: the cleaned
      answer of the backend, or the backend error. */
  function GenerateBulletRewrite(backend: String, prompt: String, call: (String, String) -> String): (r: Result<String, String>)
    ensures r.Failure? <==> backend !in KnownBackends()
    ensures r.Success? ==> !Contains(Lower(r.value), "guideline") && !Contains(Lower(r.value), "rewritten")
  {
    match CallLlm(backend, prompt, call)
    case Success(answer) => Success(ExtractBulletFromResponse(answer))
    case Failure(e) => Failure(e)
  }
}

=== FILE: tailor.dfy ===
/** The orchestrator (`src/core/ats_tailor.py`): it validates the inputs,
    lays out the resume for the evidence index, matches every must-have
    requirement to its best evidence, picks the resume's current title,
    ranks the suggestions and assembles the final report.

    File reading, the document clean-up, the contact extractor, the job
    title heuristic, the nearest-neighbour index, Python's set iteration
    order, the prompt texts and the language model are all parameters
    (`Oracles`). */
module Tailor {
  import opened Text
  import opened Wrappers
  import Sectionizer
  import Jd
  import Sk = Skills
  import Evidence
  import Scorer
  import Suggestions

  type Section = Sectionizer.ResumeSection

  // ---------------------------------------------------------------------
  // Inputs
  // ---------------------------------------------------------------------

  /** Python truthiness of an optional string: present and non-empty. */
  predicate Given(o: Option<String>) {
    o.Some? && o.value != []
  }

  /** `x or default` on an optional string. */
  function OrElse(o: Option<String>, default: String): (r: String)
    ensures Given(o) ==> r == o.value
    ensures !Given(o) ==> r == default
  {
    if Given(o) then o.value else default
  }

  datatype AnalyzeError =
    | MissingResume              // "Must provide either resume_path or resume_text"
    | MissingJd                  // "Must provide either jd_path or jd_text"
    | Retrieval(cause: Evidence.RetrievalError)
    | Llm(message: String)       // "Unsupported LLM backend: ..."

  /** Step 1 of `analyze`: a path wins over a text; the resume is checked
      first. A resume given as text goes through the parser's clean-up, a
      job description given as text is used as it is. */
  function LoadDocuments(resumePath: Option<String>, resumeText: Option<String>,
                         jdText: Option<String>, jdPath: Option<String>,
                         readFile: String -> String, cleanText: String -> String)
    : (r: Result<(String, String), AnalyzeError>)
    ensures r == Failure(MissingResume) <==> !Given(resumePath) && !Given(resumeText)
    ensures r == Failure(MissingJd) <==>
              (Given(resumePath) || Given(resumeText)) && !Given(jdPath) && !Given(jdText)
    ensures r.Failure? ==> r.error == MissingResume || r.error == MissingJd
    ensures r.Success? && Given(resumePath) ==> r.value.0 == readFile(resumePath.value)
    ensures r.Success? && !Given(resumePath) ==> r.value.0 == cleanText(resumeText.value)
    ensures r.Success? && Given(jdPath) ==> r.value.1 == readFile(jdPath.value)
    ensures r.Success? && !Given(jdPath) ==> r.value.1 == jdText.value
  {
    if !Given(resumePath) && !Given(resumeText) then Failure(MissingResume)
    else if !Given(jdPath) && !Given(jdText) then Failure(MissingJd)
    else
      var resume := if Given(resumePath) then readFile(resumePath.value) else cleanText(resumeText.value);
      var jd := if Given(jdPath) then readFile(jdPath.value) else jdText.value;
      Success((resume, jd))
  }

  // ---------------------------------------------------------------------
  // Bullets and index units
  // ---------------------------------------------------------------------

  /** Number of bullets over all sections. */
  function BulletCount(sections: seq<Section>): nat
    decreases |sections|
  {
    if sections == [] then 0 else |sections[0].bullets| + BulletCount(sections[1..])
  }

  /** `_extract_all_bullets`: every section's bullets, section after
      section. */
  function AllBullets(sections: seq<Section>): (r: seq<String>)
    ensures |r| == BulletCount(sections)
    decreases |sections|
  {
    if sections == [] then [] else sections[0].bullets + AllBullets(sections[1..])
  }

  /** Bullet `j` of section `i` sits after the bullets of the sections
      before it. */
  lemma {:induction false} AllBulletsAt(sections: seq<Section>, i: nat, j: nat)
    requires i < |sections| && j < |sections[i].bullets|
    ensures BulletCount(sections[..i]) + j < |AllBullets(sections)|
    ensures AllBullets(sections)[BulletCount(sections[..i]) + j] == sections[i].bullets[j]
    decreases i
  {
    if i > 0 {
      AllBulletsAt(sections[1..], i - 1, j);
      assert sections[1..][..i - 1] == sections[..i][1..];
    }
  }

  /** A section is indexed as a whole when it has content but no bullets. */
  predicate IndexedWhole(s: Section) {
    s.content != [] && s.bullets == []
  }

  function WholeCount(sections: seq<Section>): nat
    decreases |sections|
  {
    if sections == [] then 0 else (if IndexedWhole(sections[0]) then 1 else 0) + WholeCount(sections[1..])
  }

  /** The units of one section: one per bullet, then the whole content if
      there are no bullets. */
  function SectionUnits(s: Section): (us: seq<Evidence.Unit>)
    ensures |us| == |s.bullets| + (if IndexedWhole(s) then 1 else 0)
    ensures forall i :: 0 <= i < |s.bullets| ==> us[i] == Evidence.Unit(s.bullets[i], s.title, Some(i))
    ensures IndexedWhole(s) ==> us[|s.bullets|] == Evidence.Unit(s.content, s.title, None)
  {
    seq(|s.bullets|, i requires 0 <= i < |s.bullets| => Evidence.Unit(s.bullets[i], s.title, Some(i)))
    + (if IndexedWhole(s) then [Evidence.Unit(s.content, s.title, None)] else [])
  }

  /** `_prepare_resume_for_indexing` */
  function IndexUnits(sections: seq<Section>): (us: seq<Evidence.Unit>)
    ensures |us| == BulletCount(sections) + WholeCount(sections)
    decreases |sections|
  {
    if sections == [] then [] else SectionUnits(sections[0]) + IndexUnits(sections[1..])
  }

  /** The texts of the per-bullet units, in order. */
  function BulletTexts(us: seq<Evidence.Unit>): seq<String>
    decreases |us|
  {
    if us == [] then []
    else (if us[0].bulletIndex.Some? then [us[0].text] else []) + BulletTexts(us[1..])
  }

  lemma {:induction false} BulletTextsConcat(a: seq<Evidence.Unit>, b: seq<Evidence.Unit>)
    ensures BulletTexts(a + b) == BulletTexts(a) + BulletTexts(b)
    decreases |a|
  {
    if a != [] {
      BulletTextsConcat(a[1..], b);
      assert (a + b)[0] == a[0];
      assert (a + b)[1..] == a[1..] + b;
    } else {
      assert a + b == b;
    }
  }

  lemma {:induction false} BulletTextsOfBullets(us: seq<Evidence.Unit>, bullets: seq<String>)
    requires |us| == |bullets|
    requires forall i :: 0 <= i < |us| ==> us[i].bulletIndex.Some? && us[i].text == bullets[i]
    ensures BulletTexts(us) == bullets
    decreases |us|
  {
    if us != [] {
      BulletTextsOfBullets(us[1..], bullets[1..]);
    }
  }

  lemma BulletTextsOfSection(s: Section)
    ensures BulletTexts(SectionUnits(s)) == s.bullets
  {
    var us := SectionUnits(s);
    var n := |s.bullets|;
    assert us == us[..n] + us[n..];
    BulletTextsConcat(us[..n], us[n..]);
    BulletTextsOfBullets(us[..n], s.bullets);
    if IndexedWhole(s) {
      assert us[n..] == [Evidence.Unit(s.content, s.title, None)];
    } else {
      assert us[n..] == [];
    }
  }

  /** The per-bullet units carry exactly the bullets the scorer sees, in the
      same order; the other units are whole sections. */
  lemma {:induction false} UnitsCarryAllBullets(sections: seq<Section>)
    ensures BulletTexts(IndexUnits(sections)) == AllBullets(sections)
    decreases |sections|
  {
    if sections != [] {
      UnitsCarryAllBullets(sections[1..]);
      BulletTextsConcat(SectionUnits(sections[0]), IndexUnits(sections[1..]));
      BulletTextsOfSection(sections[0]);
    }
  }

  /** Where a unit came from: a bullet of the section, by position, or the
      section's whole content. */
  predicate UnitOf(s: Section, u: Evidence.Unit) {
    && u.section == s.title
    && (match u.bulletIndex
        case Some(j) => j < |s.bullets| && u.text == s.bullets[j]
        case None => IndexedWhole(s) && u.text == s.content)
  }

  /** Every unit comes from some section. */
  lemma {:induction false} UnitsSound(sections: seq<Section>, k: nat) returns (i: nat)
    requires k < |IndexUnits(sections)|
    ensures i < |sections| && UnitOf(sections[i], IndexUnits(sections)[k])
    decreases |sections|
  {
    var head := SectionUnits(sections[0]);
    if k < |head| {
      i := 0;
    } else {
      var i' := UnitsSound(sections[1..], k - |head|);
      i := i' + 1;
    }
  }

  /** Every bullet and every whole-content section is indexed. */
  lemma {:induction false} UnitsComplete(sections: seq<Section>, i: nat)
    requires i < |sections|
    ensures forall j :: 0 <= j < |sections[i].bullets| ==>
              Evidence.Unit(sections[i].bullets[j], sections[i].title, Some(j)) in IndexUnits(sections)
    ensures IndexedWhole(sections[i]) ==>
              Evidence.Unit(sections[i].content, sections[i].title, None) in IndexUnits(sections)
    decreases i
  {
    var head := SectionUnits(sections[0]);
    if i == 0 {
      forall j | 0 <= j < |sections[0].bullets|
        ensures Evidence.Unit(sections[0].bullets[j], sections[0].title, Some(j)) in IndexUnits(sections)
      {
        assert IndexUnits(sections)[j] == head[j];
      }
      if IndexedWhole(sections[0]) {
        assert IndexUnits(sections)[|sections[0].bullets|] == head[|sections[0].bullets|];
      }
    } else {
      UnitsComplete(sections[1..], i - 1);
      assert IndexUnits(sections) == head + IndexUnits(sections[1..]);
    }
  }

  // ---------------------------------------------------------------------
  // The resume's current title
  // ---------------------------------------------------------------------

  /** The lines of `lines` longer than five characters, others masked. */
  function LongLines(lines: seq<String>): (os: seq<Option<String>>)
    ensures |os| == |lines|
    ensures forall k :: 0 <= k < |lines| ==> os[k] == (if |lines[k]| > 5 then Some(lines[k]) else None)
  {
    seq(|lines|, k requires 0 <= k < |lines| => if |lines[k]| > 5 then Some(lines[k]) else None)
  }

  /** At most the first five lines of a text. */
  function FirstFive(text: String): (r: seq<String>)
    ensures |r| <= 5 && |r| <= |Split(text, '\n')| && r == Split(text, '\n')[..|r|]
    ensures |r| == 5 || r == Split(text, '\n')
  {
    var lines := Split(text, '\n');
    if |lines| <= 5 then lines else lines[..5]
  }

  /** The candidate title of one section: the first of the first five
      lines of an experience section that is longer than five characters
      once stripped, stripped. */
  function SectionTitleLine(s: Section): Option<String> {
    if s.kind == Sectionizer.Experience then FirstSome(LongLines(Sectionizer.StripAll(FirstFive(s.content))))
    else None
  }

  function TitleCandidates(sections: seq<Section>): (cs: seq<Option<String>>)
    ensures |cs| == |sections|
    ensures forall i :: 0 <= i < |sections| ==> cs[i] == SectionTitleLine(sections[i])
  {
    seq(|sections|, i requires 0 <= i < |sections| => SectionTitleLine(sections[i]))
  }

  /** `_extract_resume_title`: the candidate of the first experience
      section that has one, else "Professional". */
  function ResumeTitle(sections: seq<Section>): (r: String)
    ensures (forall i :: 0 <= i < |sections| ==> SectionTitleLine(sections[i]).None?) ==> r == "Professional"
    ensures forall i :: 0 <= i < |sections| && SectionTitleLine(sections[i]).Some?
                        && (forall m :: 0 <= m < i ==> SectionTitleLine(sections[m]).None?)
                        ==> r == SectionTitleLine(sections[i]).value
  {
    var cs := TitleCandidates(sections);
    var r := FirstValueOr(cs, "Professional");
    forall i | 0 <= i < |sections| && cs[i].Some? && (forall m :: 0 <= m < i ==> cs[m].None?)
      ensures r == cs[i].value
    {
    }
    r
  }

  /** A title taken from the resume is one of the first five lines of an
      experience section, stripped, and longer than five characters; no
      earlier line of that section qualifies. */
  lemma SectionTitleOrigin(s: Section)
    requires SectionTitleLine(s).Some?
    ensures s.kind == Sectionizer.Experience
    ensures var lines := Split(s.content, '\n');
            exists k :: 0 <= k < 5 && k < |lines| && SectionTitleLine(s).value == Strip(lines[k])
                        && |Strip(lines[k])| > 5
                        && forall m :: 0 <= m < k ==> |Strip(lines[m])| <= 5
  {
    var first := FirstFive(s.content);
    var os := LongLines(Sectionizer.StripAll(first));
    var k := FirstSomeAt(os);
    assert first[k] == Split(s.content, '\n')[k];
    forall m | 0 <= m < k
      ensures |Strip(Split(s.content, '\n')[m])| <= 5
    {
      assert os[m].None?;
      assert first[m] == Split(s.content, '\n')[m];
    }
  }

  /** The title is the fallback or comes from an experience section. */
  lemma ResumeTitleOrigin(sections: seq<Section>)
    ensures ResumeTitle(sections) == "Professional" ||
            exists i :: 0 <= i < |sections| && SectionTitleLine(sections[i]) == Some(ResumeTitle(sections))
  {
    var cs := TitleCandidates(sections);
    if FirstSome(cs).Some? {
      var i := FirstSomeAt(cs);
      assert ResumeTitle(sections) == FirstSome(cs).value;
      assert SectionTitleLine(sections[i]) == cs[i];
    }
  }

  // ---------------------------------------------------------------------
  // Must-have evidence
  // ---------------------------------------------------------------------

  /** `RequirementMatch`; the edit target is always a string here because
      the evidence's section is one. */
  datatype RequirementMatch = RequirementMatch(
    requirement: String,
    kind: Jd.RequirementType,
    skills: seq<String>,
    status: Evidence.MatchStatus,
    evidence: Option<String>,
    confidence: real,
    editTarget: String)

  /** Python's `list(s)` for a set: some order of its elements. */
  ghost predicate Lists(xs: seq<String>, s: set<String>) {
    |xs| == |s| && forall x :: x in xs <==> x in s
  }

  /** The set-to-list conversion lists every set exactly once. */
  ghost predicate Enumerates(listing: set<String> -> seq<String>) {
    forall s: set<String> :: Lists(listing(s), s)
  }

  /** A listing has no repeated element: a repeat would leave fewer
      distinct elements than positions. */
  lemma ListedDistinct(xs: seq<String>, s: set<String>)
    requires Lists(xs, s)
    ensures forall i, j :: 0 <= i < j < |xs| ==> xs[i] != xs[j]
  {
    forall i, j | 0 <= i < j < |xs|
      ensures xs[i] != xs[j]
    {
      if xs[i] == xs[j] {
        assert (set x | x in xs) == s;
        DuplicateShrinks(xs, i, j);
      }
    }
  }

  lemma {:induction false} ElementsBound(xs: seq<String>)
    ensures |set x | x in xs| <= |xs|
  {
    if xs != [] {
      ElementsBound(xs[1..]);
      assert (set x | x in xs) == (set x | x in xs[1..]) + {xs[0]};
    }
  }

  lemma {:induction false} DuplicateShrinks(xs: seq<String>, i: nat, j: nat)
    requires i < j < |xs| && xs[i] == xs[j]
    ensures |set x | x in xs| < |xs|
  {
    assert (set x | x in xs) == (set x | x in xs[1..]) + {xs[0]};
    if i == 0 {
      ElementsBound(xs[1..]);
      assert xs[0] == xs[1..][j - 1];
    } else {
      DuplicateShrinks(xs[1..], i - 1, j - 1);
    }
  }

  /** Each requirement's contribution: itself when it is must-have. */
  function MustHaveOptions(reqs: seq<Jd.JobRequirement>): (os: seq<Option<Jd.JobRequirement>>)
    ensures |os| == |reqs|
    ensures forall j :: 0 <= j < |reqs| ==> os[j] == if reqs[j].kind == Jd.MustHave then Some(reqs[j]) else None
  {
    seq(|reqs|, j requires 0 <= j < |reqs| => if reqs[j].kind == Jd.MustHave then Some(reqs[j]) else None)
  }

  /** The must-have requirements, in order, one entry per must-have
      requirement. */
  function MustHaves(reqs: seq<Jd.JobRequirement>): (r: seq<Jd.JobRequirement>)
    ensures |r| <= |reqs|
    ensures forall i :: 0 <= i < |r| ==> r[i].kind == Jd.MustHave && r[i] in reqs
    ensures forall q :: q in reqs && q.kind == Jd.MustHave ==> q in r
    ensures r == Somes(MustHaveOptions(reqs))
    decreases |reqs|
  {
    if reqs == [] then []
    else
      assert MustHaveOptions(reqs)[1..] == MustHaveOptions(reqs[1..]);
      (if reqs[0].kind == Jd.MustHave then [reqs[0]] else []) + MustHaves(reqs[1..])
  }

  /** The evidence of each must-have requirement, in order, or the first
      retrieval error. */
  function EvidenceFor(r: Evidence.Retriever, musts: seq<Jd.JobRequirement>, search: Evidence.Search,
                       listing: set<String> -> seq<String>)
    : (res: Result<seq<Evidence.EvidenceRecord>, Evidence.RetrievalError>)
    requires Evidence.Valid(r) && (r.indexed ==> Evidence.SearchOk(search, |r.texts|))
    ensures res.Failure? <==> musts != [] && (!r.indexed || r.topK == 0 || r.texts == [])
    ensures res.Failure? ==> res.error == (if r.indexed then Evidence.NoCandidates else Evidence.NotIndexed)
    ensures res.Success? ==> |res.value| == |musts|
    ensures res.Success? ==> forall i :: 0 <= i < |musts| ==>
              Evidence.RetrieveEvidence(r, musts[i].text, listing(musts[i].skills), search) == Success(res.value[i])
              && res.value[i].requirementText == musts[i].text
    decreases |musts|
  {
    if musts == [] then Success([])
    else
      match Evidence.RetrieveEvidence(r, musts[0].text, listing(musts[0].skills), search)
      case Failure(e) => Failure(e)
      case Success(first) =>
        match EvidenceFor(r, musts[1..], search, listing)
        case Failure(e) => assert false; Failure(e)
        case Success(rest) =>
          assert forall i :: 1 <= i < |musts| ==> musts[i] == musts[1..][i - 1];
          Success([first] + rest)
  }

  /** `suggested_edit_target`: "section > bullet i" for a bullet index
      other than 0, the bare section otherwise (0 is falsy). */
  function EditTarget(section: String, bulletIndex: Option<nat>): (t: String)
    ensures (bulletIndex.None? || bulletIndex == Some(0)) ==> t == section
    ensures bulletIndex.Some? && bulletIndex.value > 0 ==>
              && StartsWith(t, section + " > bullet ")
              && |t| > |section| + 10
              && (forall k :: |section| + 10 <= k < |t| ==> IsDigit(t[k]))
              && t[|section| + 10] != '0'
              && DigitsValue(t[|section| + 10..]) == bulletIndex.value
  {
    match bulletIndex
    case Some(i) =>
      if i != 0 then
        var t := section + " > bullet " + NatToString(i);
        DigitsValueOfNatToString(i);
        assert t[|section| + 10..] == NatToString(i);
        t
      else section
    case None => section
  }

  /** The section part of an edit target, as the suggestion step reads it
      back: the text before the first '>', stripped; "Experience" for an
      empty target. */
  function TargetSection(target: String): (r: String)
    ensures target == [] ==> r == "Experience"
    ensures target != [] ==>
              exists n :: 0 <= n <= |target| && '>' !in target[..n] && (n == |target| || target[n] == '>')
                          && r == Strip(target[..n])
  {
    if target == [] then "Experience"
    else
      SplitHead(target, '>');
      Strip(Split(target, '>')[0])
  }

  /** Reading the section back from an edit target gives the section,
      stripped, as long as its name has no '>'. */
  lemma TargetSectionRoundTrip(section: String, bulletIndex: Option<nat>)
    requires section != [] && '>' !in section
    ensures TargetSection(EditTarget(section, bulletIndex)) == Strip(section)
  {
    var t := EditTarget(section, bulletIndex);
    if bulletIndex.Some? && bulletIndex.value > 0 {
      var tail := " bullet " + NatToString(bulletIndex.value);
      assert t == (section + " ") + ['>'] + tail;
      SplitAtSeparator(section + " ", tail, '>');
      StripSpaceSnoc(section, ' ');
    } else {
      SplitNoSeparator(section, '>');
    }
  }

  /** One `RequirementMatch` of the must-have loop. */
  function MatchOf(q: Jd.JobRequirement, e: Evidence.EvidenceRecord, listing: set<String> -> seq<String>)
    : (m: RequirementMatch)
    ensures m.requirement == q.text && m.kind == q.kind && m.skills == listing(q.skills)
    ensures m.status == e.status && m.confidence == e.similarity
    ensures m.evidence.None? <==> e.status == Evidence.Missing
    ensures m.evidence.Some? ==> m.evidence.value == e.resumeText
    ensures m.editTarget == EditTarget(e.section, e.bulletIndex)
  {
    RequirementMatch(q.text, q.kind, listing(q.skills), e.status,
                     if e.status != Evidence.Missing then Some(e.resumeText) else None,
                     e.similarity, EditTarget(e.section, e.bulletIndex))
  }

  function Matches(musts: seq<Jd.JobRequirement>, evidence: seq<Evidence.EvidenceRecord>,
                   listing: set<String> -> seq<String>): (ms: seq<RequirementMatch>)
    requires |evidence| == |musts|
    ensures |ms| == |musts|
    ensures forall i :: 0 <= i < |ms| ==> ms[i] == MatchOf(musts[i], evidence[i], listing)
  {
    seq(|musts|, i requires 0 <= i < |musts| => MatchOf(musts[i], evidence[i], listing))
  }

  /** Only must-have requirements are matched, one match each, in order,
      and a match names evidence exactly when it is not missing. */
  lemma MatchesOfMustHaves(reqs: seq<Jd.JobRequirement>, evidence: seq<Evidence.EvidenceRecord>,
                           listing: set<String> -> seq<String>, i: nat)
    requires |evidence| == |MustHaves(reqs)| && i < |evidence|
    ensures var m := Matches(MustHaves(reqs), evidence, listing)[i];
            && m.kind == Jd.MustHave
            && (exists j :: 0 <= j < |reqs| && reqs[j].kind == Jd.MustHave && reqs[j].text == m.requirement)
            && (m.evidence.None? <==> m.status == Evidence.Missing)
  {
    var q := MustHaves(reqs)[i];
    assert q in reqs;
  }

  // ---------------------------------------------------------------------
  // Ranking by estimated gain
  // ---------------------------------------------------------------------

  type Suggestion = Suggestions.Suggestion

  function Gain(s: Suggestion): int {
    s.estimatedGain
  }

  /** Ranked by `key`, highest first. */
  predicate Descending<T>(key: T -> int, s: seq<T>) {
    forall i, j :: 0 <= i < j < |s| ==> key(s[i]) >= key(s[j])
  }

  /** Puts `x` after every element whose key is at least its own. */
  function InsertBy<T>(key: T -> int, x: T, s: seq<T>): (r: seq<T>)
    ensures multiset(r) == multiset(s) + multiset{x}
    ensures |r| == |s| + 1
    decreases |s|
  {
    if s == [] then [x]
    else if key(s[0]) >= key(x) then
      assert s == [s[0]] + s[1..];
      [s[0]] + InsertBy(key, x, s[1..])
    else
      [x] + s
  }

  lemma {:induction false} InsertHead<T>(key: T -> int, x: T, s: seq<T>)
    ensures var r := InsertBy(key, x, s); r[0] == x || (s != [] && r[0] == s[0])
  {
  }

  lemma {:induction false} InsertDescending<T>(key: T -> int, x: T, s: seq<T>)
    requires Descending(key, s)
    ensures Descending(key, InsertBy(key, x, s))
    decreases |s|
  {
    if s != [] && key(s[0]) >= key(x) {
      var rest := InsertBy(key, x, s[1..]);
      InsertDescending(key, x, s[1..]);
      InsertHead(key, x, s[1..]);
      var r := [s[0]] + rest;
      forall i, j | 0 <= i < j < |r| ensures key(r[i]) >= key(r[j]) {
        if i == 0 {
          assert key(r[0]) >= key(rest[0]);
          assert r[j] == rest[j - 1];
        } else {
          assert r[i] == rest[i - 1] && r[j] == rest[j - 1];
        }
      }
    }
  }

  /** Python's stable `sort(key=key, reverse=True)`, as insertion sort: a
      permutation of its input. */
  function SortBy<T>(key: T -> int, xs: seq<T>): (r: seq<T>)
    ensures multiset(r) == multiset(xs)
    ensures |r| == |xs|
    decreases |xs|
  {
    if xs == [] then []
    else
      var init := xs[..|xs| - 1];
      assert xs == init + [xs[|xs| - 1]];
      InsertBy(key, xs[|xs| - 1], SortBy(key, init))
  }

  /** The sort ranks its output. */
  lemma {:induction false} SortDescending<T>(key: T -> int, xs: seq<T>)
    ensures Descending(key, SortBy(key, xs))
    decreases |xs|
  {
    if xs != [] {
      SortDescending(key, xs[..|xs| - 1]);
      InsertDescending(key, xs[|xs| - 1], SortBy(key, xs[..|xs| - 1]));
    }
  }

  /** The elements with key `g`, in order. */
  function WithKey<T>(key: T -> int, s: seq<T>, g: int): seq<T>
    decreases |s|
  {
    if s == [] then []
    else (if key(s[0]) == g then [s[0]] else []) + WithKey(key, s[1..], g)
  }

  lemma {:induction false} WithKeyConcat<T>(key: T -> int, a: seq<T>, b: seq<T>, g: int)
    ensures WithKey(key, a + b, g) == WithKey(key, a, g) + WithKey(key, b, g)
    decreases |a|
  {
    if a == [] {
      assert a + b == b;
    } else {
      var ab := a + b;
      assert ab[0] == a[0];
      assert ab[1..] == a[1..] + b;
      WithKeyConcat(key, a[1..], b, g);
      var h := if key(a[0]) == g then [a[0]] else [];
      assert WithKey(key, ab, g) == h + WithKey(key, a[1..] + b, g);
      assert WithKey(key, a, g) == h + WithKey(key, a[1..], g);
    }
  }

  lemma {:induction false} WithKeyNone<T>(key: T -> int, s: seq<T>, g: int)
    requires forall k :: 0 <= k < |s| ==> key(s[k]) < g
    ensures WithKey(key, s, g) == []
    decreases |s|
  {
    if s != [] {
      WithKeyNone(key, s[1..], g);
    }
  }

  /** Inserting into a ranked list keeps each key class in order and puts
      the new element last in its class. */
  lemma {:induction false} InsertKeepsClasses<T>(key: T -> int, x: T, s: seq<T>, g: int)
    requires Descending(key, s)
    ensures WithKey(key, InsertBy(key, x, s), g) == WithKey(key, s, g) + (if key(x) == g then [x] else [])
    decreases |s|
  {
    var r := InsertBy(key, x, s);
    if s == [] {
      assert WithKey(key, [x], g) == (if key(x) == g then [x] else []) + WithKey(key, [], g);
    } else if key(s[0]) >= key(x) {
      var rest := InsertBy(key, x, s[1..]);
      InsertKeepsClasses(key, x, s[1..], g);
      assert r[0] == s[0] && r[1..] == rest;
    } else {
      assert r[0] == x && r[1..] == s;
      if key(x) == g {
        WithKeyNone(key, s, g);
      }
    }
  }

  lemma WithKeySnoc<T>(key: T -> int, s: seq<T>, x: T, g: int)
    ensures WithKey(key, s + [x], g) == WithKey(key, s, g) + (if key(x) == g then [x] else [])
  {
    WithKeyConcat(key, s, [x], g);
    assert WithKey(key, [x], g) == (if key(x) == g then [x] else []) + WithKey(key, [], g);
  }

  /** The sort is stable: within one key, the input order is kept. */
  lemma {:induction false} SortIsStable<T>(key: T -> int, xs: seq<T>, g: int)
    ensures WithKey(key, SortBy(key, xs), g) == WithKey(key, xs, g)
    decreases |xs|
  {
    if xs != [] {
      var init := xs[..|xs| - 1];
      var last := xs[|xs| - 1];
      assert xs == init + [last];
      SortIsStable(key, init, g);
      SortDescending(key, init);
      InsertKeepsClasses(key, last, SortBy(key, init), g);
      WithKeySnoc(key, init, last, g);
    }
  }

  /** The first `n` elements, or all of them. */
  function Take<T>(s: seq<T>, n: nat): (r: seq<T>)
    ensures |r| == if |s| <= n then |s| else n
    ensures r == s[..|r|]
  {
    if |s| <= n then s else s[..n]
  }

  // ---------------------------------------------------------------------
  // Configuration and parameters
  // ---------------------------------------------------------------------

  /** The configuration `ATSTailor` reads: retrieval thresholds, the
      neighbour count, the language-model backend and the score weights. */
  datatype Config = Config(
    tauHigh: real,
    tauLow: real,
    topK: nat,
    backend: String,
    weights: Scorer.Weights)

  /** The defaults of `ATSTailor.__init__`. */
  const DefaultConfig: Config := Config(0.75, 0.50, 5, "ollama", Scorer.DefaultWeights)

  /** Everything outside the model, as functions:
      reading a file (`DocumentParser.parse`), cleaning a pasted text
      (`parse_text`), the contact extractor, `extract_job_title`, the
      nearest-neighbour index built over a list of texts, Python's
      set-to-list order, the two prompt builders and the model call. */
  datatype Oracles = Oracles(
    readFile: String -> String,
    cleanText: String -> String,
    contact: String -> map<String, String>,
    jobTitle: String -> Option<String>,
    search: seq<String> -> Evidence.Search,
    listing: set<String> -> seq<String>,
    rewritePrompt: (String, String, seq<String>) -> String,
    summaryPrompt: (String, String, seq<String>) -> String,
    call: (String, String) -> String)

  /** The index answers like an exact inner-product index over whatever it
      was built from, and sets are listed element by element. */
  ghost predicate WellBehaved(o: Oracles) {
    && Enumerates(o.listing)
    && forall texts: seq<String> :: Evidence.SearchOk(o.search(texts), |texts|)
  }

  // ---------------------------------------------------------------------
  // Suggestions
  // ---------------------------------------------------------------------

  /** The matches that call for a rewrite: weak or missing. */
  function Flagged(ms: seq<RequirementMatch>): (r: seq<RequirementMatch>)
    ensures |r| <= |ms|
    ensures forall k :: 0 <= k < |r| ==> r[k].status != Evidence.Present && r[k] in ms
    ensures forall m :: m in ms && m.status != Evidence.Present ==> m in r
    ensures r == Somes(FlaggedOptions(ms))
    decreases |ms|
  {
    if ms == [] then []
    else
      assert FlaggedOptions(ms)[1..] == FlaggedOptions(ms[1..]);
      (if ms[0].status != Evidence.Present then [ms[0]] else []) + Flagged(ms[1..])
  }

  /** Each match's contribution: itself when it is weak or missing. */
  function FlaggedOptions(ms: seq<RequirementMatch>): (os: seq<Option<RequirementMatch>>)
    ensures |os| == |ms|
    ensures forall j :: 0 <= j < |ms| ==> os[j] == if ms[j].status != Evidence.Present then Some(ms[j]) else None
  {
    seq(|ms|, j requires 0 <= j < |ms| => if ms[j].status != Evidence.Present then Some(ms[j]) else None)
  }

  /** The improvement a rewrite is scored as: coverage for a missing
      requirement, explicitness for a weak one. */
  function GainKind(m: RequirementMatch): String {
    if m.status == Evidence.Missing then "coverage" else "explicitness"
  }

  /** The BULLET_REWRITE suggestion for one weak or missing match, or the
      backend error. */
  function RewriteFor(m: RequirementMatch, c: Config, score: Scorer.ATSScore, o: Oracles)
    : (r: Result<Suggestion, String>)
    ensures r.Failure? <==> c.backend !in Suggestions.KnownBackends()
    ensures r.Success? ==>
              && r.value.kind == Suggestions.BulletRewrite
              && r.value.jdRequirement == m.requirement
              && r.value.estimatedGain == Scorer.EstimateScoreGain(c.weights, score, GainKind(m))
              && 1 <= r.value.estimatedGain <= 15
  {
    var prompt := o.rewritePrompt(OrElse(m.evidence, "Worked on relevant projects"), m.requirement, m.skills);
    var text :- Suggestions.GenerateBulletRewrite(c.backend, prompt, o.call);
    Success(Suggestions.Suggestion(
      Suggestions.BulletRewrite,
      TargetSection(m.editTarget),
      if m.editTarget == [] then "Experience > bullet" else m.editTarget,
      Some(OrElse(m.evidence, "Add new bullet point")),
      text,
      "JD requires: " + m.requirement,
      m.requirement,
      Scorer.EstimateScoreGain(c.weights, score, GainKind(m))))
  }

  /** A rewrite never carries the model's meta-commentary. */
  lemma RewriteIsClean(m: RequirementMatch, c: Config, score: Scorer.ATSScore, o: Oracles)
    requires RewriteFor(m, c, score, o).Success?
    ensures var t := RewriteFor(m, c, score, o).value.suggestedText;
            !Contains(Lower(t), "guideline") && !Contains(Lower(t), "rewritten")
  {
  }

  /** A rewrite's target section is read back from the match's edit
      target, and its target location is that edit target. */
  lemma RewriteTargets(m: RequirementMatch, c: Config, score: Scorer.ATSScore, o: Oracles)
    requires RewriteFor(m, c, score, o).Success?
    ensures var v := RewriteFor(m, c, score, o).value;
            && v.targetSection == TargetSection(m.editTarget)
            && (m.editTarget != [] ==> v.targetLocation == m.editTarget)
            && (m.evidence.Some? && m.evidence.value != [] ==> v.currentText == m.evidence)
  {
  }

  /** The rewrites of the flagged matches, in order: the first backend
      error stops the loop, and with a known backend none occurs. */
  function RewriteAll(flagged: seq<RequirementMatch>, c: Config, score: Scorer.ATSScore, o: Oracles)
    : (r: Result<seq<Suggestion>, String>)
    ensures r.Failure? <==> flagged != [] && c.backend !in Suggestions.KnownBackends()
    ensures r.Success? ==> |r.value| == |flagged|
    ensures r.Success? ==> forall k :: 0 <= k < |flagged| ==> RewriteFor(flagged[k], c, score, o) == Success(r.value[k])
  {
    if flagged != [] && c.backend !in Suggestions.KnownBackends() then
      Failure(RewriteFor(flagged[0], c, score, o).error)
    else
      Success(seq(|flagged|, k requires 0 <= k < |flagged| => RewriteFor(flagged[k], c, score, o).value))
  }

  /** The first section of a kind (`next(..., None)`). */
  function FirstOfKind(sections: seq<Section>, kind: Sectionizer.SectionType): (r: Option<Section>)
    ensures r.None? <==> forall i :: 0 <= i < |sections| ==> sections[i].kind != kind
    ensures r.Some? ==> r.value.kind == kind && r.value in sections
    decreases |sections|
  {
    if sections == [] then None
    else if sections[0].kind == kind then Some(sections[0])
    else
      var rest := FirstOfKind(sections[1..], kind);
      assert forall i :: 1 <= i < |sections| ==> sections[i] == sections[1..][i - 1];
      rest
  }

  /** The section found is the first of its kind. */
  lemma {:induction false} FirstOfKindIsFirst(sections: seq<Section>, kind: Sectionizer.SectionType, i: nat)
    requires i < |sections| && sections[i].kind == kind
    requires forall m :: 0 <= m < i ==> sections[m].kind != kind
    ensures FirstOfKind(sections, kind) == Some(sections[i])
    decreases i
  {
    if i > 0 {
      FirstOfKindIsFirst(sections[1..], kind, i - 1);
    }
  }

  /** The SKILL_INSERTION suggestion: only when some must-have skill is not
      among the resume's skills and the resume has a skills section. */
  function SkillInsertionFor(sections: seq<Section>, mustHave: set<String>, resumeSkills: set<String>,
                             c: Config, score: Scorer.ATSScore, o: Oracles): (r: Option<Suggestion>)
    ensures r.Some? <==> mustHave - resumeSkills != {} && exists i :: 0 <= i < |sections| && sections[i].kind == Sectionizer.Skills
    ensures r.Some? ==>
              && r.value.kind == Suggestions.SkillInsertion
              && r.value.targetSection == "Skills"
              && r.value.currentText == Some(FirstOfKind(sections, Sectionizer.Skills).value.content)
              && r.value.suggestedText == Suggestions.GenerateSkillInsertions(
                   o.listing(mustHave - resumeSkills), FirstOfKind(sections, Sectionizer.Skills).value.content)
              && r.value.estimatedGain == Scorer.EstimateScoreGain(c.weights, score, "coverage")
  {
    var missing := mustHave - resumeSkills;
    if missing == {} then None
    else
      match FirstOfKind(sections, Sectionizer.Skills)
      case None => None
      case Some(sk) =>
        Some(Suggestions.Suggestion(
          Suggestions.SkillInsertion, "Skills", "Skills section", Some(sk.content),
          Suggestions.GenerateSkillInsertions(o.listing(missing), sk.content),
          "Add missing must-have skills", "Multiple requirements",
          Scorer.EstimateScoreGain(c.weights, score, "coverage")))
  }

  /** Every suggestion before ranking: one rewrite per weak or missing
      match, in order, then the skill insertion if there is one. */
  function Candidates(matches: seq<RequirementMatch>, sections: seq<Section>,
                      mustHave: set<String>, resumeSkills: set<String>,
                      c: Config, score: Scorer.ATSScore, o: Oracles)
    : (r: Result<seq<Suggestion>, String>)
    ensures r.Failure? <==> Flagged(matches) != [] && c.backend !in Suggestions.KnownBackends()
    ensures r.Success? ==>
              var ins := SkillInsertionFor(sections, mustHave, resumeSkills, c, score, o);
              && |r.value| == |Flagged(matches)| + (if ins.Some? then 1 else 0)
              && (forall k :: 0 <= k < |Flagged(matches)| ==>
                    RewriteFor(Flagged(matches)[k], c, score, o) == Success(r.value[k]))
              && (ins.Some? ==> r.value[|Flagged(matches)|] == ins.value)
  {
    var flagged := Flagged(matches);
    match RewriteAll(flagged, c, score, o)
    case Failure(e) => Failure(e)
    case Success(rewrites) =>
      var ins := SkillInsertionFor(sections, mustHave, resumeSkills, c, score, o);
      RewritesKept(flagged, rewrites, ins, c, score, o);
      Success(AppendOption(rewrites, ins))
  }

  /** Appending the skill insertion leaves the rewrites in place. */
  lemma RewritesKept(flagged: seq<RequirementMatch>, rewrites: seq<Suggestion>, ins: Option<Suggestion>,
                     c: Config, score: Scorer.ATSScore, o: Oracles)
    requires |rewrites| == |flagged|
    requires forall k :: 0 <= k < |flagged| ==> RewriteFor(flagged[k], c, score, o) == Success(rewrites[k])
    ensures forall k :: 0 <= k < |flagged| ==> RewriteFor(flagged[k], c, score, o) == Success(AppendOption(rewrites, ins)[k])
  {
    var all := AppendOption(rewrites, ins);
    assert forall k :: 0 <= k < |flagged| ==> all[k] == rewrites[k];
  }

  /** The ranking: highest estimated gain first, ties in input order, at
      most twenty, a selection of the input. */
  function Rank(all: seq<Suggestion>): (r: seq<Suggestion>)
    ensures |r| == (if |all| <= 20 then |all| else 20)
    ensures Descending(Gain, r)
    ensures multiset(r) <= multiset(all)
    ensures |all| <= 20 ==> multiset(r) == multiset(all)
    ensures KeepsHighest(all, r)
  {
    var ranked := SortBy(Gain, all);
    SortDescending(Gain, all);
    var top := Take(ranked, 20);
    PrefixOfRanked(Gain, ranked, |top|);
    top
  }

  /** A prefix of a ranked list is ranked, a selection of the list, and
      ranks at least as high as what is left. */
  lemma PrefixOfRanked<T>(key: T -> int, s: seq<T>, n: nat)
    requires n <= |s| && Descending(key, s)
    ensures Descending(key, s[..n])
    ensures multiset(s[..n]) <= multiset(s)
    ensures n == |s| ==> multiset(s[..n]) == multiset(s)
    ensures forall x, y :: x in multiset(s) - multiset(s[..n]) && y in s[..n] ==> key(x) <= key(y)
  {
    assert s == s[..n] + s[n..];
    PrefixDominates(key, s, n);
  }

  /** Whatever `all` holds beyond `r` gains no more than anything in `r`. */
  predicate KeepsHighest(all: seq<Suggestion>, r: seq<Suggestion>) {
    forall x, y :: x in multiset(all) - multiset(r) && y in r ==> Gain(x) <= Gain(y)
  }

  /** In a ranked list, whatever lies past a prefix ranks no higher than
      anything in the prefix. */
  lemma PrefixDominates<T>(key: T -> int, s: seq<T>, n: nat)
    requires n <= |s| && Descending(key, s)
    ensures forall x, y :: x in multiset(s) - multiset(s[..n]) && y in s[..n] ==> key(x) <= key(y)
  {
    assert s == s[..n] + s[n..];
    assert multiset(s) - multiset(s[..n]) == multiset(s[n..]);
    forall x, y | x in multiset(s) - multiset(s[..n]) && y in s[..n] ensures key(x) <= key(y) {
      var j :| 0 <= j < |s[n..]| && s[n..][j] == x;
      var i :| 0 <= i < n && s[..n][i] == y;
      assert s[n + j] == x && s[i] == y;
    }
  }

  /** `_generate_suggestions`: the candidates, ranked. */
  function GenerateSuggestions(matches: seq<RequirementMatch>, sections: seq<Section>,
                               mustHave: set<String>, resumeSkills: set<String>,
                               c: Config, score: Scorer.ATSScore, o: Oracles)
    : (r: Result<seq<Suggestion>, String>)
    ensures r.Failure? <==> Flagged(matches) != [] && c.backend !in Suggestions.KnownBackends()
    ensures r.Success? ==> |r.value| <= 20 && Descending(Gain, r.value)
    ensures r.Success? ==>
              var all := Candidates(matches, sections, mustHave, resumeSkills, c, score, o).value;
              && multiset(r.value) <= multiset(all) && (|all| <= 20 ==> multiset(r.value) == multiset(all))
              && KeepsHighest(all, r.value)
  {
    var all := Candidates(matches, sections, mustHave, resumeSkills, c, score, o);
    if all.Failure? then Failure(all.error) else Success(Rank(all.value))
  }

  /** Nothing is dropped when there are at most twenty suggestions. */
  lemma RankKeepsAll(all: seq<Suggestion>, i: nat)
    requires i < |all| <= 20
    ensures all[i] in Rank(all)
  {
    assert all[i] in multiset(all);
  }

  /** A candidate that occurs once in the input occurs at most once in the
      ranking. */
  lemma RankNoDuplicate(all: seq<Suggestion>, x: Suggestion, i: nat, j: nat)
    requires multiset(all)[x] <= 1
    requires i < j < |Rank(all)|
    ensures Rank(all)[i] != x || Rank(all)[j] != x
  {
    CountTwoPositions(Rank(all), i, j);
  }

  /** Two equal positions count twice. */
  lemma CountTwoPositions<T>(r: seq<T>, i: nat, j: nat)
    requires i < j < |r|
    ensures multiset(r)[r[i]] >= 1 + (if r[j] == r[i] then 1 else 0)
  {
    assert r == r[..i] + [r[i]] + r[i + 1..j] + [r[j]] + r[j + 1..];
  }

  /** The candidate list holds the skill insertion at most once and every
      other candidate is a rewrite. */
  lemma CandidatesKinds(matches: seq<RequirementMatch>, sections: seq<Section>,
                        mustHave: set<String>, resumeSkills: set<String>,
                        c: Config, score: Scorer.ATSScore, o: Oracles)
    requires Candidates(matches, sections, mustHave, resumeSkills, c, score, o).Success?
    ensures var all := Candidates(matches, sections, mustHave, resumeSkills, c, score, o).value;
            forall k :: 0 <= k < |all| && all[k].kind == Suggestions.SkillInsertion ==> k == |all| - 1
  {
    var all := Candidates(matches, sections, mustHave, resumeSkills, c, score, o).value;
    var flagged := Flagged(matches);
    forall k | 0 <= k < |flagged| ensures all[k].kind == Suggestions.BulletRewrite {
      assert RewriteFor(flagged[k], c, score, o) == Success(all[k]);
    }
  }

  lemma LastOnlyOnce(all: seq<Suggestion>)
    requires all != []
    requires forall k :: 0 <= k < |all| && all[k].kind == Suggestions.SkillInsertion ==> k == |all| - 1
    ensures all[|all| - 1].kind == Suggestions.SkillInsertion ==> multiset(all)[all[|all| - 1]] == 1
  {
    var x := all[|all| - 1];
    var init := all[..|all| - 1];
    assert all == init + [x];
    if x.kind == Suggestions.SkillInsertion {
      assert x !in init;
    }
  }

  /** When nothing is cut, every weak or missing match gets its rewrite
      among the suggestions. */
  lemma EveryFlaggedMatchRewritten(matches: seq<RequirementMatch>, sections: seq<Section>,
                                   mustHave: set<String>, resumeSkills: set<String>,
                                   c: Config, score: Scorer.ATSScore, o: Oracles, m: RequirementMatch)
    requires m in matches && m.status != Evidence.Present
    requires c.backend in Suggestions.KnownBackends()
    requires |Flagged(matches)| < 20
    ensures var r := GenerateSuggestions(matches, sections, mustHave, resumeSkills, c, score, o);
            r.Success? && exists k :: 0 <= k < |r.value| && r.value[k].kind == Suggestions.BulletRewrite
                                      && r.value[k].jdRequirement == m.requirement
  {
    var flagged := Flagged(matches);
    assert m in flagged;
    var cands := Candidates(matches, sections, mustHave, resumeSkills, c, score, o);
    assert cands.Success?;
    var all := cands.value;
    var i :| 0 <= i < |flagged| && flagged[i] == m;
    var rewrite := RewriteFor(m, c, score, o);
    assert rewrite == Success(all[i]);
    RankKeepsAll(all, i);
    var ranked := Rank(all);
    var k :| 0 <= k < |ranked| && ranked[k] == all[i];
    assert GenerateSuggestions(matches, sections, mustHave, resumeSkills, c, score, o) == Success(ranked);
  }

  /** At most one skill insertion is suggested. */
  lemma AtMostOneInsertion(matches: seq<RequirementMatch>, sections: seq<Section>,
                           mustHave: set<String>, resumeSkills: set<String>,
                           c: Config, score: Scorer.ATSScore, o: Oracles)
    requires GenerateSuggestions(matches, sections, mustHave, resumeSkills, c, score, o).Success?
    ensures var r := GenerateSuggestions(matches, sections, mustHave, resumeSkills, c, score, o).value;
            forall i, j :: 0 <= i < j < |r| ==> r[i].kind != Suggestions.SkillInsertion || r[j].kind != Suggestions.SkillInsertion
  {
    var all := Candidates(matches, sections, mustHave, resumeSkills, c, score, o).value;
    CandidatesKinds(matches, sections, mustHave, resumeSkills, c, score, o);
    InsertionsInRanking(all);
  }

  lemma InsertionsInRanking(all: seq<Suggestion>)
    requires forall k :: 0 <= k < |all| && all[k].kind == Suggestions.SkillInsertion ==> k == |all| - 1
    ensures var r := Rank(all);
            forall i, j :: 0 <= i < j < |r| ==> r[i].kind != Suggestions.SkillInsertion || r[j].kind != Suggestions.SkillInsertion
  {
    forall i, j | 0 <= i < j < |Rank(all)| {
      OneInsertionAt(all, i, j);
    }
  }

  lemma OneInsertionAt(all: seq<Suggestion>, i: nat, j: nat)
    requires forall k :: 0 <= k < |all| && all[k].kind == Suggestions.SkillInsertion ==> k == |all| - 1
    requires i < j < |Rank(all)|
    ensures Rank(all)[i].kind != Suggestions.SkillInsertion || Rank(all)[j].kind != Suggestions.SkillInsertion
  {
    var r := Rank(all);
    if r[i].kind == Suggestions.SkillInsertion && r[j].kind == Suggestions.SkillInsertion {
      assert r[i] in multiset(all) && r[j] in multiset(all);
      var x := all[|all| - 1];
      LastOnlyOnce(all);
      assert r[i] == x && r[j] == x;
      RankNoDuplicate(all, x, i, j);
    }
  }

  // ---------------------------------------------------------------------
  // The report
  // ---------------------------------------------------------------------

  /** One entry of `top_edits`. */
  datatype Edit = Edit(target: String, current: Option<String>, suggested: String, reason: String, gain: int)

  /** `TailorResult` */
  datatype TailorResult = TailorResult(
    overall: int,
    breakdown: map<String, real>,
    mustHaves: seq<RequirementMatch>,
    topEdits: seq<Edit>,
    skillsInsertions: seq<String>,
    summary: Option<String>,
    explanation: String)

  function BreakdownKeys(): set<String> {
    {"coverage", "explicitness", "role_alignment", "keywords", "writing"}
  }

  /** The breakdown as the report names it. */
  function BreakdownMap(b: Scorer.Breakdown): (m: map<String, real>)
    ensures m.Keys == BreakdownKeys()
    ensures Scorer.InUnitRange(b) ==> forall k :: k in m ==> 0.0 <= m[k] <= 1.0
    ensures m["coverage"] == b.coverage && m["explicitness"] == b.explicitness
    ensures m["role_alignment"] == b.roleAlignment && m["keywords"] == b.keywords
    ensures m["writing"] == b.writingQuality
  {
    map["coverage" := b.coverage, "explicitness" := b.explicitness, "role_alignment" := b.roleAlignment,
        "keywords" := b.keywords, "writing" := b.writingQuality]
  }

  function EditOf(s: Suggestion): Edit {
    Edit(s.targetLocation, s.currentText, s.suggestedText, s.reason, s.estimatedGain)
  }

  /** The summary rewrite: asked for only when the resume has a summary
      section; the backend's stripped answer to the prompt built from the
      first summary section's content, the job title and the first five
      listed must-have skills. */
  function SummaryUpdate(sections: seq<Section>, mustHave: set<String>, jdTitle: String, c: Config, o: Oracles)
    : (r: Result<Option<String>, String>)
    ensures r.Failure? <==> FirstOfKind(sections, Sectionizer.Summary).Some? && c.backend !in Suggestions.KnownBackends()
    ensures r.Success? ==> (r.value.Some? <==> FirstOfKind(sections, Sectionizer.Summary).Some?)
    ensures r.Success? && r.value.Some? ==> r.value.value == Strip(r.value.value)
    ensures r.Success? && r.value.Some? ==>
              r.value.value == Strip(o.call(c.backend, SummaryPrompt(sections, mustHave, jdTitle, o)))
  {
    match FirstOfKind(sections, Sectionizer.Summary)
    case None => Success(None)
    case Some(summary) =>
      var prompt := o.summaryPrompt(summary.content, jdTitle, Take(o.listing(mustHave), 5));
      var answer :- Suggestions.CallLlm(c.backend, prompt, o.call);
      StripIdempotent(answer);
      Success(Some(Strip(answer)))
  }

  /** The prompt of the summary rewrite, for a resume with a summary section. */
  function SummaryPrompt(sections: seq<Section>, mustHave: set<String>, jdTitle: String, o: Oracles): String
    requires FirstOfKind(sections, Sectionizer.Summary).Some?
  {
    o.summaryPrompt(FirstOfKind(sections, Sectionizer.Summary).value.content, jdTitle, Take(o.listing(mustHave), 5))
  }

  /** `_compile_result` */
  function CompileResult(score: Scorer.ATSScore, matches: seq<RequirementMatch>, suggestions: seq<Suggestion>,
                         mustHave: set<String>, resumeSkills: set<String>, jdTitle: String,
                         sections: seq<Section>, c: Config, o: Oracles)
    : (r: Result<TailorResult, String>)
    requires Enumerates(o.listing)
    ensures r.Failure? <==> FirstOfKind(sections, Sectionizer.Summary).Some? && c.backend !in Suggestions.KnownBackends()
    ensures r.Success? ==>
              var missing := mustHave - resumeSkills;
              && r.value.overall == score.overall
              && r.value.explanation == score.explanation
              && r.value.mustHaves == matches
              && r.value.breakdown == BreakdownMap(score.breakdown)
              && r.value.breakdown.Keys == BreakdownKeys()
              && r.value.skillsInsertions == Take(o.listing(missing), 10)
              && |r.value.skillsInsertions| == (if |missing| <= 10 then |missing| else 10)
              && (forall k :: 0 <= k < |r.value.skillsInsertions| ==> r.value.skillsInsertions[k] in missing)
              && (forall i, j :: 0 <= i < j < |r.value.skillsInsertions| ==>
                    r.value.skillsInsertions[i] != r.value.skillsInsertions[j])
              && |r.value.topEdits| == |suggestions|
              && (forall k :: 0 <= k < |suggestions| ==>
                    && r.value.topEdits[k].target == suggestions[k].targetLocation
                    && r.value.topEdits[k].current == suggestions[k].currentText
                    && r.value.topEdits[k].suggested == suggestions[k].suggestedText
                    && r.value.topEdits[k].reason == suggestions[k].reason
                    && r.value.topEdits[k].gain == suggestions[k].estimatedGain)
              && (r.value.summary.Some? <==> exists i :: 0 <= i < |sections| && sections[i].kind == Sectionizer.Summary)
              && (r.value.summary.Some? ==>
                    r.value.summary.value == Strip(o.call(c.backend, SummaryPrompt(sections, mustHave, jdTitle, o))))
  {
    var summary :- SummaryUpdate(sections, mustHave, jdTitle, c, o);
    var missing := o.listing(mustHave - resumeSkills);
    assert Lists(missing, mustHave - resumeSkills);
    ListedDistinct(missing, mustHave - resumeSkills);
    var edits := seq(|suggestions|, k requires 0 <= k < |suggestions| => EditOf(suggestions[k]));
    Success(TailorResult(score.overall, BreakdownMap(score.breakdown), matches, edits,
                         Take(missing, 10), summary, score.explanation))
  }

  // ---------------------------------------------------------------------
  // analyze
  // ---------------------------------------------------------------------

  /** Step 3 of `analyze`: the canonical skills found in any section. */
  function ResumeSkills(tax: Sk.Taxonomy, sections: seq<Section>): (r: set<String>)
    ensures forall x :: x in r <==>
              exists i :: 0 <= i < |sections| && x in Sk.Canonicals(Sk.ExtractSkills(tax, sections[i].content))
  {
    var found := seq(|sections|, i requires 0 <= i < |sections| =>
                       Sk.Canonicals(Sk.ExtractSkills(tax, sections[i].content)));
    assert forall i :: 0 <= i < |sections| ==>
             found[i] == Sk.Canonicals(Sk.ExtractSkills(tax, sections[i].content));
    UnionAll(found)
  }

  /** Steps 2 to 5 of `analyze` once the texts are known: structure,
      skills, the index and the must-have evidence. */
  datatype Analysis = Analysis(
    sections: seq<Section>,
    requirements: seq<Jd.JobRequirement>,
    resumeSkills: set<String>,
    mustHave: set<String>,
    preferred: set<String>,
    evidence: seq<Evidence.EvidenceRecord>,
    matches: seq<RequirementMatch>)

  /** Steps 2 and 3 of `analyze` for the resume: its sections, which
      never include OTHER, and the skills found in them. */
  method ReadResume(o: Oracles, tax: Sk.Taxonomy, resume: String)
    returns (sections: seq<Section>, skills: set<String>)
    ensures forall i :: 0 <= i < |sections| ==> sections[i].kind != Sectionizer.Other
    ensures sections == Sectionizer.Sectionize(resume, o.contact)
    ensures skills == ResumeSkills(tax, sections)
  {
    sections := Sectionizer.Sectionize(resume, o.contact);
    Sectionizer.NoOtherSection(resume, o.contact);
    skills := ResumeSkills(tax, sections);
  }

  /** Step 2 of `analyze` for the job description: its requirements, none
      of them nice-to-have. */
  method ReadJd(tax: Sk.Taxonomy, jd: String) returns (reqs: seq<Jd.JobRequirement>)
    ensures forall i :: 0 <= i < |reqs| ==> reqs[i].kind != Jd.NiceToHave
    ensures reqs == Jd.ExtractRequirements(tax, jd)
  {
    reqs := Jd.ExtractRequirements(tax, jd);
  }

  /** What stops steps 4 and 5 of `analyze`, if anything: a resume with no
      unit to index makes `index_resume` raise whatever the job description
      asks, and otherwise must-have requirements with `top_k` 0 find no
      neighbour. */
  function RetrievalFailure(c: Config, o: Oracles, tax: Sk.Taxonomy, resume: String, jd: String)
    : Option<Evidence.RetrievalError>
  {
    if IndexUnits(Sectionizer.Sectionize(resume, o.contact)) == [] then Some(Evidence.EmptyIndex)
    else if MustHaves(Jd.ExtractRequirements(tax, jd)) != [] && c.topK == 0 then Some(Evidence.NoCandidates)
    else None
  }

  /** Steps 2 to 5 of `analyze`: the sections and requirements read from the
      texts, the skills of each, and one piece of evidence per must-have
      requirement. */
  method AnalyzeTexts(c: Config, o: Oracles, tax: Sk.Taxonomy, resume: String, jd: String)
    returns (r: Result<Analysis, AnalyzeError>)
    requires WellBehaved(o)
    ensures r.Failure? <==> RetrievalFailure(c, o, tax, resume, jd).Some?
    ensures r.Failure? ==> r.error == Retrieval(RetrievalFailure(c, o, tax, resume, jd).value)
    ensures r.Success? ==>
              && r.value.sections == Sectionizer.Sectionize(resume, o.contact)
              && r.value.requirements == Jd.ExtractRequirements(tax, jd)
              && r.value.resumeSkills == ResumeSkills(tax, r.value.sections)
              && r.value.mustHave == Jd.MustHaveSkills(r.value.requirements)
              && r.value.preferred == Jd.PreferredSkills(r.value.requirements)
    ensures r.Success? ==>
              && |r.value.matches| == |r.value.evidence| == |MustHaves(r.value.requirements)|
              && (forall i :: 0 <= i < |r.value.matches| ==>
                    r.value.matches[i].kind == Jd.MustHave
                    && r.value.evidence[i].requirementText == MustHaves(r.value.requirements)[i].text
                    && r.value.matches[i].requirement == r.value.evidence[i].requirementText)
  {
    var sections, skills := ReadResume(o, tax, resume);
    var reqs := ReadJd(tax, jd);
    var units := IndexUnits(sections);
    var indexed := Evidence.IndexResume(Evidence.NewRetriever(c.tauHigh, c.tauLow, c.topK), units);
    if indexed.Failure? {
      return Failure(Retrieval(indexed.error));
    }
    var retriever := indexed.value;
    assert retriever.indexed && retriever.texts != [] && retriever.topK == c.topK;
    var musts := MustHaves(reqs);
    var evidence := EvidenceFor(retriever, musts, o.search(retriever.texts), o.listing);
    if evidence.Failure? {
      return Failure(Retrieval(evidence.error));
    }
    var matches := Matches(musts, evidence.value, o.listing);
    r := Success(Analysis(sections, reqs, skills, Jd.MustHaveSkills(reqs), Jd.PreferredSkills(reqs),
                          evidence.value, matches));
  }

  /** Step 6 of `analyze`: the score, from the analysis, the job title
      (or "Target Role") and the resume's title. */
  method Score(c: Config, o: Oracles, jd: String, a: Analysis) returns (score: Scorer.ATSScore, jdTitle: String)
    ensures Scorer.InUnitRange(score.breakdown)
    ensures Scorer.NonNegative(c.weights) && Scorer.WeightTotal(c.weights) <= 1.0 ==> 0 <= score.overall <= 100
  {
    jdTitle := OrElse(o.jobTitle(jd), "Target Role");
    var inputs := Scorer.ScoreInputs(a.mustHave, a.preferred, a.evidence, a.resumeSkills, AllBullets(a.sections),
                                     jdTitle, ResumeTitle(a.sections), a.mustHave + a.preferred);
    score := Scorer.CalculateScore(c.weights, inputs);
  }

  method Report(c: Config, o: Oracles, jd: String, a: Analysis) returns (r: Result<TailorResult, AnalyzeError>)
    requires Enumerates(o.listing)
    ensures r.Failure? <==>
              c.backend !in Suggestions.KnownBackends()
              && (Flagged(a.matches) != [] || FirstOfKind(a.sections, Sectionizer.Summary).Some?)
    ensures r.Failure? ==> r.error.Llm? && c.backend !in Suggestions.KnownBackends()
    ensures r.Success? ==>
              && |r.value.topEdits| <= 20
              && (forall i, j :: 0 <= i < j < |r.value.topEdits| ==> r.value.topEdits[i].gain >= r.value.topEdits[j].gain)
              && |r.value.skillsInsertions| <= 10
              && (forall k :: 0 <= k < |r.value.skillsInsertions| ==> r.value.skillsInsertions[k] in a.mustHave - a.resumeSkills)
              && r.value.breakdown.Keys == BreakdownKeys()
              && (forall k :: k in r.value.breakdown ==> 0.0 <= r.value.breakdown[k] <= 1.0)
              && r.value.mustHaves == a.matches
    ensures r.Success? && Scorer.NonNegative(c.weights) && Scorer.WeightTotal(c.weights) <= 1.0 ==>
              0 <= r.value.overall <= 100
  {
    var score, jdTitle := Score(c, o, jd, a);
    var suggestions := GenerateSuggestions(a.matches, a.sections, a.mustHave, a.resumeSkills, c, score, o);
    if suggestions.Failure? {
      return Failure(Llm(suggestions.error));
    }
    var result := CompileResult(score, a.matches, suggestions.value, a.mustHave, a.resumeSkills,
                                jdTitle, a.sections, c, o);
    if result.Failure? {
      return Failure(Llm(result.error));
    }
    r := Success(result.value);
  }

  /** `analyze`. */
  method Analyze(c: Config, o: Oracles, tax: Sk.Taxonomy,
                 resumePath: Option<String>, resumeText: Option<String>,
                 jdText: Option<String>, jdPath: Option<String>)
    returns (r: Result<TailorResult, AnalyzeError>)
    requires WellBehaved(o)
    ensures r == Failure(MissingResume) <==> !Given(resumePath) && !Given(resumeText)
    ensures r == Failure(MissingJd) <==>
              (Given(resumePath) || Given(resumeText)) && !Given(jdPath) && !Given(jdText)
    ensures r.Failure? && r.error.Llm? ==> c.backend !in Suggestions.KnownBackends()
    ensures r.Failure? && r.error.Retrieval? <==>
              var d := LoadDocuments(resumePath, resumeText, jdText, jdPath, o.readFile, o.cleanText);
              d.Success? && RetrievalFailure(c, o, tax, d.value.0, d.value.1).Some?
    ensures r.Failure? && r.error.Retrieval? ==>
              var d := LoadDocuments(resumePath, resumeText, jdText, jdPath, o.readFile, o.cleanText);
              d.Success? && r.error.cause == RetrievalFailure(c, o, tax, d.value.0, d.value.1).value
    ensures c.backend in Suggestions.KnownBackends() ==>
              (r.Success? <==>
                 var d := LoadDocuments(resumePath, resumeText, jdText, jdPath, o.readFile, o.cleanText);
                 d.Success? && RetrievalFailure(c, o, tax, d.value.0, d.value.1).None?)
    ensures r.Success? ==>
              && |r.value.topEdits| <= 20
              && |r.value.skillsInsertions| <= 10
              && r.value.breakdown.Keys == BreakdownKeys()
              && (forall k :: 0 <= k < |r.value.mustHaves| ==> r.value.mustHaves[k].kind == Jd.MustHave)
    ensures r.Success? && Scorer.NonNegative(c.weights) && Scorer.WeightTotal(c.weights) <= 1.0 ==>
              0 <= r.value.overall <= 100
  {
    var docs :- LoadDocuments(resumePath, resumeText, jdText, jdPath, o.readFile, o.cleanText);
    var a :- AnalyzeTexts(c, o, tax, docs.0, docs.1);
    r := Report(c, o, docs.1, a);
  }
}

=== FILE: text.dfy ===
/** The string primitives the matching engine is built from, with Python's
    `str` semantics restricted to ASCII: `lower()`, `strip()`, `split('\n')`,
    `split()`, `join`, `in` (substring), `startswith`, `endswith`, `find`,
    `title()`. */
module Text {

  type String = seq<char>

  // ---------------------------------------------------------------------
  // Character classes (ASCII)
  // ---------------------------------------------------------------------

  predicate IsUpper(c: char) { 'A' <= c <= 'Z' }

  predicate IsLowerLetter(c: char) { 'a' <= c <= 'z' }

  predicate IsLetter(c: char) { IsUpper(c) || IsLowerLetter(c) }

  predicate IsDigit(c: char) { '0' <= c <= '9' }

  /** `str.isspace()` on ASCII: tab, newline, vertical tab, form feed,
      carriage return, the four separators 0x1C-0x1F, and space. */
  predicate IsSpace(c: char) {
    c == ' ' || ('\t' <= c <= '\r') || ('\U{1C}' <= c <= '\U{1F}')
  }

  predicate NotSpace(c: char) { !IsSpace(c) }

  function LowerChar(c: char): (r: char)
    ensures !IsUpper(r)
    ensures IsSpace(r) <==> IsSpace(c)
    ensures IsDigit(r) <==> IsDigit(c)
    ensures IsLetter(r) <==> IsLetter(c)
    ensures !IsUpper(c) ==> r == c
  {
    if IsUpper(c) then (c as int + 32) as char else c
  }

  function UpperChar(c: char): (r: char)
    ensures IsLetter(r) <==> IsLetter(c)
    ensures !IsLowerLetter(r)
  {
    if IsLowerLetter(c) then (c as int - 32) as char else c
  }

  // ---------------------------------------------------------------------
  // Lower-casing
  // ---------------------------------------------------------------------

  /** `s.lower()` */
  function Lower(s: String): (r: String)
    ensures |r| == |s|
    ensures forall i :: 0 <= i < |s| ==> r[i] == LowerChar(s[i])
  {
    seq(|s|, i requires 0 <= i < |s| => LowerChar(s[i]))
  }

  lemma LowerIdempotent(s: String)
    ensures Lower(Lower(s)) == Lower(s)
  {
  }

  lemma LowerConcat(a: String, b: String)
    ensures Lower(a + b) == Lower(a) + Lower(b)
  {
  }

  /** A string with no upper-case letter is its own lower-case form. */
  lemma LowerOfLower(s: String)
    requires forall i :: 0 <= i < |s| ==> !IsUpper(s[i])
    ensures Lower(s) == s
  {
  }

  // ---------------------------------------------------------------------
  // Prefixes, suffixes and substrings
  // ---------------------------------------------------------------------

  predicate StartsWith(s: String, p: String) {
    |p| <= |s| && s[..|p|] == p
  }

  predicate EndsWith(s: String, p: String) {
    |p| <= |s| && s[|s| - |p|..] == p
  }

  /** `p` occurs in `s` starting at index `i`. */
  predicate OccursAt(s: String, p: String, i: int) {
    0 <= i && i + |p| <= |s| && s[i..i + |p|] == p
  }

  /** Python's `p in s` for strings. */
  predicate Contains(s: String, p: String) {
    exists i | 0 <= i <= |s| - |p| :: OccursAt(s, p, i)
  }

  lemma ContainsEmpty(s: String)
    ensures Contains(s, [])
  {
    assert OccursAt(s, [], 0);
  }

  lemma ContainsSelf(s: String)
    ensures Contains(s, s)
  {
    assert OccursAt(s, s, 0);
  }

  /** One of the phrases occurs in the text. */
  predicate AnyIn(phrases: seq<String>, text: String) {
    exists i :: 0 <= i < |phrases| && Contains(text, phrases[i])
  }

  /** Substring occurrence survives extending the haystack on either side. */
  lemma ContainsInConcat(a: String, s: String, b: String, p: String)
    requires Contains(s, p)
    ensures Contains(a + s + b, p)
  {
    var i :| 0 <= i <= |s| - |p| && OccursAt(s, p, i);
    assert (a + s + b)[|a| + i..|a| + i + |p|] == s[i..i + |p|];
    assert OccursAt(a + s + b, p, |a| + i);
  }

  lemma ContainsPrefix(s: String, t: String, p: String)
    requires Contains(s, p)
    ensures Contains(s + t, p)
  {
    ContainsInConcat([], s, t, p);
    assert [] + s + t == s + t;
  }

  lemma ContainsSuffix(s: String, t: String, p: String)
    requires Contains(t, p)
    ensures Contains(s + t, p)
  {
    ContainsInConcat(s, t, [], p);
    assert s + t + [] == s + t;
  }

  /** Lower-casing preserves every substring occurrence. */
  lemma LowerContains(s: String, p: String)
    requires Contains(s, p)
    ensures Contains(Lower(s), Lower(p))
  {
    var i :| 0 <= i <= |s| - |p| && OccursAt(s, p, i);
    assert Lower(s)[i..i + |p|] == Lower(p);
    assert OccursAt(Lower(s), Lower(p), i);
  }

  /** An occurrence of a string that neither contains `c` can be found on one
      side of a separator character `c`. */
  lemma ContainsAroundSeparator(a: String, c: char, b: String, p: String)
    requires c !in p
    requires Contains(a + [c] + b, p)
    ensures Contains(a, p) || Contains(b, p)
  {
    var s := a + [c] + b;
    var i :| 0 <= i <= |s| - |p| && OccursAt(s, p, i);
    if i + |p| <= |a| {
      assert s[i..i + |p|] == a[i..i + |p|];
      assert OccursAt(a, p, i);
    } else {
      assert forall j :: i <= j < i + |p| ==> s[j] == p[j - i];
      assert s[|a|] == c;
      assert i > |a|;
      assert s[i..i + |p|] == b[i - |a| - 1..i - |a| - 1 + |p|];
      assert OccursAt(b, p, i - |a| - 1);
    }
  }

  /** Any prefix of an occurring string occurs too. */
  lemma ContainsPrefixOfNeedle(s: String, p: String, k: nat)
    requires k <= |p|
    requires Contains(s, p)
    ensures Contains(s, p[..k])
  {
    var i :| 0 <= i <= |s| - |p| && OccursAt(s, p, i);
    assert s[i..i + k] == p[..k];
    assert OccursAt(s, p[..k], i);
  }

  /** Containment is transitive: whatever occurs in an occurring string
      occurs in the whole. */
  lemma ContainsTransitive(s: String, p: String, q: String)
    requires Contains(s, p) && Contains(p, q)
    ensures Contains(s, q)
  {
    var i :| 0 <= i <= |s| - |p| && OccursAt(s, p, i);
    var j :| 0 <= j <= |p| - |q| && OccursAt(p, q, j);
    assert forall k :: 0 <= k < |q| ==> s[i + j + k] == p[j + k] == q[k];
    assert s[i + j..i + j + |q|] == q;
    assert OccursAt(s, q, i + j);
  }

  /** Index of the first occurrence (`str.find` when the needle occurs). */
  function FindIndex(s: String, p: String): (i: nat)
    requires Contains(s, p)
    ensures OccursAt(s, p, i)
    ensures forall j :: 0 <= j < i ==> !OccursAt(s, p, j)
    decreases |s|
  {
    if OccursAt(s, p, 0) then 0
    else
      var i :| 0 <= i <= |s| - |p| && OccursAt(s, p, i);
      ShiftOccurrence(s, p, i - 1);
      var k := FindIndex(s[1..], p);
      ShiftOccurrence(s, p, k);
      assert forall j :: 1 <= j < k + 1 ==> !OccursAt(s, p, j) by {
        forall j | 1 <= j < k + 1 ensures !OccursAt(s, p, j) {
          ShiftOccurrence(s, p, j - 1);
        }
      }
      k + 1
  }

  /** Occurrences in `s[1..]` are the occurrences in `s` shifted by one. */
  lemma ShiftOccurrence(s: String, p: String, j: int)
    requires |s| > 0 && j >= 0
    ensures OccursAt(s[1..], p, j) <==> OccursAt(s, p, j + 1)
  {
    if j + 1 + |p| <= |s| {
      assert s[1..][j..j + |p|] == s[j + 1..j + 1 + |p|];
    }
  }

  // ---------------------------------------------------------------------
  // Stripping
  // ---------------------------------------------------------------------

  /** Removes the longest prefix whose characters all satisfy `p`. */
  function DropWhile(s: String, p: char -> bool): (r: String)
    ensures |r| <= |s| && r == s[|s| - |r|..]
    ensures forall i :: 0 <= i < |s| - |r| ==> p(s[i])
    ensures r == [] || !p(r[0])
    decreases |s|
  {
    if |s| > 0 && p(s[0]) then DropWhile(s[1..], p) else s
  }

  /** Removes the longest suffix whose characters all satisfy `p`. */
  function DropLastWhile(s: String, p: char -> bool): (r: String)
    ensures |r| <= |s| && r == s[..|r|]
    ensures forall i :: |r| <= i < |s| ==> p(s[i])
    ensures r == [] || !p(r[|r| - 1])
    decreases |s|
  {
    if |s| > 0 && p(s[|s| - 1]) then DropLastWhile(s[..|s| - 1], p) else s
  }

  /** Everything is dropped from a string whose characters all satisfy `p`. */
  lemma {:induction false} DropWhileAll(s: String, p: char -> bool)
    requires forall i :: 0 <= i < |s| ==> p(s[i])
    ensures DropWhile(s, p) == []
    decreases |s|
  {
    if |s| > 0 {
      DropWhileAll(s[1..], p);
    }
  }

  /** `s.lstrip(chars).strip()` for a set `p` that covers whitespace: the
      result starts with no character of the set and occurs in `s`. */
  lemma StripAfterDrop(s: String, p: char -> bool)
    requires forall c :: IsSpace(c) ==> p(c)
    ensures Strip(DropWhile(s, p)) == [] || !p(Strip(DropWhile(s, p))[0])
    ensures Contains(s, Strip(DropWhile(s, p)))
  {
    var u := DropWhile(s, p);
    if u != [] {
      assert !IsSpace(u[0]) by { assert !p(u[0]); }
    }
    StripKeepsStart(u);
    PrefixOfSuffixOccurs(s, u, Strip(u));
  }

  /** Stripping a string that starts with no whitespace keeps a prefix of
      it, starting with the same character. */
  lemma StripKeepsStart(u: String)
    requires u == [] || !IsSpace(u[0])
    ensures |Strip(u)| <= |u| && Strip(u) == u[..|Strip(u)|]
    ensures Strip(u) == [] || Strip(u)[0] == u[0]
  {
    DropWhileStops(u, IsSpace);
  }

  /** A prefix of a suffix of `s` occurs in `s`. */
  lemma PrefixOfSuffixOccurs(s: String, u: String, r: String)
    requires |u| <= |s| && u == s[|s| - |u|..]
    requires |r| <= |u| && r == u[..|r|]
    ensures Contains(s, r)
  {
    var k := |s| - |u|;
    assert s[k..k + |r|] == s[k..][..|r|];
    assert OccursAt(s, r, k);
  }

  /** Nothing is dropped from a string whose first character fails `p`. */
  lemma DropWhileStops(s: String, p: char -> bool)
    requires s == [] || !p(s[0])
    ensures DropWhile(s, p) == s
  {
  }

  /** The longest prefix whose characters all satisfy `p`. */
  function TakeWhile(s: String, p: char -> bool): (r: String)
    ensures |r| <= |s| && r == s[..|r|]
    ensures forall i :: 0 <= i < |r| ==> p(s[i])
    ensures |r| < |s| ==> !p(s[|r|])
    decreases |s|
  {
    if |s| > 0 && p(s[0]) then [s[0]] + TakeWhile(s[1..], p) else []
  }

  /** `\s*`: the text after its leading whitespace. */
  function SkipSpaces(t: String): (r: String)
    ensures |r| <= |t|
    ensures r == t[|t| - |r|..]
    ensures forall k :: 0 <= k < |t| - |r| ==> IsSpace(t[k])
    ensures r == [] || !IsSpace(r[0])
    decreases |t|
  {
    if t != [] && IsSpace(t[0]) then SkipSpaces(t[1..]) else t
  }

  /** `\d+` taken greedily: the leading digits of the text. */
  function DigitRun(t: String): (r: String)
    ensures |r| <= |t|
    ensures forall k :: 0 <= k < |r| ==> IsDigit(r[k])
    decreases |t|
  {
    if t != [] && IsDigit(t[0]) then [t[0]] + DigitRun(t[1..]) else []
  }

  /** `s.strip(chars)` for the character set `p`. */
  function StripWith(s: String, p: char -> bool): String {
    DropLastWhile(DropWhile(s, p), p)
  }

  /** `s.strip()` */
  function Strip(s: String): String {
    StripWith(s, IsSpace)
  }

  lemma {:induction false} DropWhileSnoc(s: String, c: char, p: char -> bool)
    ensures DropWhile(s + [c], p) == if DropWhile(s, p) == [] then DropWhile([c], p) else DropWhile(s, p) + [c]
    decreases |s|
  {
    if s == [] {
      assert s + [c] == [c];
    } else {
      assert (s + [c])[0] == s[0];
      assert (s + [c])[1..] == s[1..] + [c];
      if p(s[0]) {
        DropWhileSnoc(s[1..], c, p);
      }
    }
  }

  /** A trailing blank does not change the stripped text. */
  lemma StripSpaceSnoc(s: String, c: char)
    requires IsSpace(c)
    ensures Strip(s + [c]) == Strip(s)
  {
    DropWhileSnoc(s, c, IsSpace);
    var d := DropWhile(s, IsSpace);
    if d == [] {
      assert DropWhile([c], IsSpace) == DropWhile([c][1..], IsSpace);
      assert [c][1..] == [];
    } else {
      assert (d + [c])[..|d + [c]| - 1] == d;
    }
  }

  /** Stripping twice is stripping once. */
  lemma StripIdempotent(s: String)
    ensures Strip(Strip(s)) == Strip(s)
  {
    var d := DropWhile(s, IsSpace);
    var r := DropLastWhile(d, IsSpace);
    assert r == [] || r[0] == d[0];
    assert DropWhile(r, IsSpace) == r;
    assert DropLastWhile(r, IsSpace) == r;
  }

  /** Stripping only removes characters. */
  lemma StripChars(s: String)
    ensures forall c :: c in Strip(s) ==> c in s
  {
    var u := DropWhile(s, IsSpace);
    var r := DropLastWhile(u, IsSpace);
    forall c | c in r ensures c in s {
      var p :| 0 <= p < |r| && r[p] == c;
      assert u[p] == c;
      assert s[|s| - |u| + p] == c;
    }
  }

  lemma StripFirstChar(s: String)
    ensures Strip(s) == [] || !IsSpace(Strip(s)[0])
  {
    var u := DropWhile(s, IsSpace);
    var r := DropLastWhile(u, IsSpace);
    if r != [] {
      assert r[0] == u[0];
    }
  }

  /** A non-empty string without surrounding whitespace that occurs in `s`
      occurs in `s.strip()`, also case-insensitively. */
  lemma LowerContainsStrip(s: String, k: String)
    requires k != [] && NotSpace(k[0]) && NotSpace(k[|k| - 1])
    requires Contains(Lower(s), Lower(k))
    ensures Contains(Lower(Strip(s)), Lower(k))
  {
    LowerStrip(s);
    ContainsStrip(Lower(s), Lower(k));
  }

  /** A non-empty needle whose ends are not whitespace survives `strip()`. */
  lemma ContainsStrip(t: String, q: String)
    requires q != [] && NotSpace(q[0]) && NotSpace(q[|q| - 1])
    requires Contains(t, q)
    ensures Contains(Strip(t), q)
  {
    ContainsDropWhile(t, q);
    ContainsDropLastWhile(DropWhile(t, IsSpace), q);
  }

  /** Dropping a first character that differs from the needle's first
      character keeps an occurrence. */
  lemma ContainsDropFirst(t: String, q: String)
    requires q != [] && |t| > 0 && t[0] != q[0]
    requires Contains(t, q)
    ensures Contains(t[1..], q)
  {
    var i :| 0 <= i <= |t| - |q| && OccursAt(t, q, i);
    assert t[i] == q[0];
    ShiftOccurrence(t, q, i - 1);
  }

  /** Dropping a last character that differs from the needle's last
      character keeps an occurrence. */
  lemma ContainsDropLast(t: String, q: String)
    requires q != [] && |t| > 0 && t[|t| - 1] != q[|q| - 1]
    requires Contains(t, q)
    ensures Contains(t[..|t| - 1], q)
  {
    var i :| 0 <= i <= |t| - |q| && OccursAt(t, q, i);
    assert t[i + |q| - 1] == q[|q| - 1];
    assert t[..|t| - 1][i..i + |q|] == t[i..i + |q|];
    assert OccursAt(t[..|t| - 1], q, i);
  }

  lemma {:induction false} ContainsDropWhile(t: String, q: String)
    requires q != [] && NotSpace(q[0])
    requires Contains(t, q)
    ensures Contains(DropWhile(t, IsSpace), q)
    decreases |t|
  {
    if |t| > 0 && IsSpace(t[0]) {
      ContainsDropFirst(t, q);
      ContainsDropWhile(t[1..], q);
    }
  }

  lemma {:induction false} ContainsDropLastWhile(t: String, q: String)
    requires q != [] && NotSpace(q[|q| - 1])
    requires Contains(t, q)
    ensures Contains(DropLastWhile(t, IsSpace), q)
    decreases |t|
  {
    if |t| > 0 && IsSpace(t[|t| - 1]) {
      ContainsDropLast(t, q);
      ContainsDropLastWhile(t[..|t| - 1], q);
    }
  }

  lemma {:induction false} LowerDropWhile(s: String)
    ensures Lower(DropWhile(s, IsSpace)) == DropWhile(Lower(s), IsSpace)
    decreases |s|
  {
    if |s| > 0 {
      assert Lower(s)[1..] == Lower(s[1..]);
      LowerDropWhile(s[1..]);
    }
  }

  lemma {:induction false} LowerDropLastWhile(s: String)
    ensures Lower(DropLastWhile(s, IsSpace)) == DropLastWhile(Lower(s), IsSpace)
    decreases |s|
  {
    if |s| > 0 {
      assert Lower(s)[..|s| - 1] == Lower(s[..|s| - 1]);
      LowerDropLastWhile(s[..|s| - 1]);
    }
  }

  /** Lower-casing commutes with `strip()`. */
  lemma LowerStrip(s: String)
    ensures Lower(Strip(s)) == Strip(Lower(s))
  {
    LowerDropWhile(s);
    LowerDropLastWhile(DropWhile(s, IsSpace));
  }

  // ---------------------------------------------------------------------
  // Splitting and joining
  // ---------------------------------------------------------------------

  /** `s.split(sep)` for a one-character separator: never empty, and no
      piece contains the separator. */
  function Split(s: String, sep: char): (r: seq<String>)
    ensures |r| >= 1
    ensures forall i :: 0 <= i < |r| ==> sep !in r[i]
    decreases |s|
  {
    if s == [] then [[]]
    else
      var rest := Split(s[1..], sep);
      if s[0] == sep then [[]] + rest
      else
        var head := [s[0]] + rest[0];
        assert sep !in head;
        [head] + rest[1..]
  }

  /** `sep.join(ls)` */
  function Join(ls: seq<String>, sep: String): String
    decreases |ls|
  {
    if |ls| == 0 then []
    else if |ls| == 1 then ls[0]
    else ls[0] + sep + Join(ls[1..], sep)
  }

  /** The first piece of a split is the text before the first separator,
      or the whole text when there is none. */
  lemma {:induction false} SplitHead(s: String, sep: char)
    ensures exists n :: 0 <= n <= |s| && Split(s, sep)[0] == s[..n] && (n == |s| || s[n] == sep)
    decreases |s|
  {
    if s != [] && s[0] != sep {
      SplitHead(s[1..], sep);
      var n :| 0 <= n <= |s[1..]| && Split(s[1..], sep)[0] == s[1..][..n] && (n == |s[1..]| || s[1..][n] == sep);
      assert s[..n + 1] == [s[0]] + s[1..][..n];
    } else {
      assert s[..0] == [];
    }
  }

  /** Joining the pieces of a split restores the original string. */
  lemma {:induction false} JoinSplit(s: String, sep: char)
    ensures Join(Split(s, sep), [sep]) == s
    decreases |s|
  {
    if s != [] {
      var rest := Split(s[1..], sep);
      JoinSplit(s[1..], sep);
      if s[0] == sep {
        assert Split(s, sep) == [[]] + rest;
        assert ([[]] + rest)[1..] == rest;
        assert s == [] + [sep] + s[1..];
      } else {
        var head := [s[0]] + rest[0];
        var r := [head] + rest[1..];
        assert Split(s, sep) == r;
        if |rest| == 1 {
          assert Join(rest, [sep]) == rest[0];
        } else {
          assert r[1..] == rest[1..];
          assert Join(rest, [sep]) == rest[0] + [sep] + Join(rest[1..], [sep]);
          assert Join(r, [sep]) == head + [sep] + Join(rest[1..], [sep]);
        }
      }
    }
  }

  lemma {:induction false} SplitNoSeparator(p: String, sep: char)
    requires sep !in p
    ensures Split(p, sep) == [p]
    decreases |p|
  {
    if p != [] {
      SplitNoSeparator(p[1..], sep);
      assert [p[0]] + p[1..] == p;
    }
  }

  lemma {:induction false} SplitAtSeparator(p: String, t: String, sep: char)
    requires sep !in p
    ensures Split(p + [sep] + t, sep) == [p] + Split(t, sep)
    decreases |p|
  {
    var s := p + [sep] + t;
    if p == [] {
      assert s[1..] == t;
    } else {
      assert s[1..] == p[1..] + [sep] + t;
      SplitAtSeparator(p[1..], t, sep);
      assert [p[0]] + p[1..] == p;
    }
  }

  /** Splitting a join of separator-free pieces gives back the pieces. */
  lemma {:induction false} SplitJoin(ls: seq<String>, sep: char)
    requires |ls| >= 1
    requires forall i :: 0 <= i < |ls| ==> sep !in ls[i]
    ensures Split(Join(ls, [sep]), sep) == ls
    decreases |ls|
  {
    if |ls| == 1 {
      SplitNoSeparator(ls[0], sep);
    } else {
      SplitJoin(ls[1..], sep);
      SplitAtSeparator(ls[0], Join(ls[1..], [sep]), sep);
      assert [ls[0]] + ls[1..] == ls;
    }
  }

  /** Every string in the list occurs in its join. */
  lemma {:induction false} JoinContains(ls: seq<String>, sep: String, k: nat)
    requires k < |ls|
    ensures Contains(Join(ls, sep), ls[k])
    decreases |ls|
  {
    if |ls| == 1 {
      ContainsSelf(ls[0]);
    } else if k == 0 {
      ContainsSelf(ls[0]);
      ContainsPrefix(ls[0], sep + Join(ls[1..], sep), ls[0]);
      assert ls[0] + sep + Join(ls[1..], sep) == ls[0] + (sep + Join(ls[1..], sep));
    } else {
      JoinContains(ls[1..], sep, k - 1);
      ContainsSuffix(ls[0] + sep, Join(ls[1..], sep), ls[k]);
    }
  }

  /** Python's `s.split()`: the maximal runs of non-whitespace characters. */
  function Words(s: String): (r: seq<String>)
    decreases |s|
  {
    var t := DropWhile(s, IsSpace);
    if t == [] then []
    else
      var w := LeadingWord(t);
      assert |t[|w|..]| < |s|;
      [w] + Words(t[|w|..])
  }

  /** The leading run of non-whitespace of a string that starts with one. */
  function LeadingWord(t: String): (w: String)
    requires t != [] && NotSpace(t[0])
    ensures IsWord(w) && |w| <= |t| && w == t[..|w|]
    ensures |w| < |t| ==> IsSpace(t[|w|])
  {
    var w := TakeWhile(t, NotSpace);
    assert w[0] == t[0];
    w
  }

  /** A non-empty string without whitespace. */
  predicate IsWord(w: String) {
    w != [] && forall j :: 0 <= j < |w| ==> NotSpace(w[j])
  }

  /** `s.split()` is empty exactly when `s` is all whitespace. */
  lemma WordsEmpty(s: String)
    ensures Words(s) == [] <==> forall i :: 0 <= i < |s| ==> IsSpace(s[i])
  {
    var t := DropWhile(s, IsSpace);
    if t != [] {
      assert !IsSpace(s[|s| - |t|]);
    }
  }

  /** A word followed by whitespace (or nothing) is the first word. */
  lemma WordsLeading(w: String, rest: String)
    requires IsWord(w) && (rest == [] || IsSpace(rest[0]))
    ensures Words(w + rest) == [w] + Words(rest)
  {
    var s := w + rest;
    assert s[0] == w[0];
    assert DropWhile(s, IsSpace) == s;
    TakeWhileWord(w, rest);
    assert s[|w|..] == rest;
  }

  lemma {:induction false} TakeWhileWord(w: String, rest: String)
    requires forall j :: 0 <= j < |w| ==> NotSpace(w[j])
    requires rest == [] || IsSpace(rest[0])
    ensures TakeWhile(w + rest, NotSpace) == w
    decreases |w|
  {
    var s := w + rest;
    if w == [] {
      assert s == rest;
    } else {
      assert s[0] == w[0];
      assert s[1..] == w[1..] + rest;
      TakeWhileWord(w[1..], rest);
      assert [w[0]] + w[1..] == w;
    }
  }

  /** Leading whitespace does not change the words. */
  lemma WordsSkipSpace(s: String)
    requires s != [] && IsSpace(s[0])
    ensures Words(s) == Words(s[1..])
  {
    assert DropWhile(s, IsSpace) == DropWhile(s[1..], IsSpace);
  }

  /** A digit occurs somewhere in the string (`re.search(r'\d+', s)`). */
  predicate HasDigit(s: String) {
    exists i :: 0 <= i < |s| && IsDigit(s[i])
  }

  // ---------------------------------------------------------------------
  // Title case and numbers
  // ---------------------------------------------------------------------

  function TitleFrom(s: String, afterLetter: bool): (r: String)
    ensures |r| == |s|
    decreases |s|
  {
    if s == [] then []
    else
      var c := if !IsLetter(s[0]) then s[0]
               else if afterLetter then LowerChar(s[0]) else UpperChar(s[0]);
      [c] + TitleFrom(s[1..], IsLetter(s[0]))
  }

  /** `s.title()`: a letter is upper-cased when it starts a run of letters
      and lower-cased otherwise; other characters are kept. */
  function Title(s: String): (r: String)
    ensures |r| == |s|
  {
    TitleFrom(s, false)
  }

  /** What `title()` does to the character at position `i` of `s`, where
      `afterLetter` says whether the text before `s` ended in a letter. */
  function TitleCharAfter(s: String, i: nat, afterLetter: bool): char
    requires i < |s|
  {
    var prevLetter := if i == 0 then afterLetter else IsLetter(s[i - 1]);
    if !IsLetter(s[i]) then s[i]
    else if prevLetter then LowerChar(s[i]) else UpperChar(s[i])
  }

  /** Position by position, `Title` upper-cases the letters that start a run
      of letters, lower-cases the other letters and keeps everything else. */
  lemma TitlePointwise(s: String)
    ensures |Title(s)| == |s|
    ensures forall i :: 0 <= i < |s| ==>
      Title(s)[i] == (if !IsLetter(s[i]) then s[i]
                      else if i > 0 && IsLetter(s[i - 1]) then LowerChar(s[i])
                      else UpperChar(s[i]))
  {
    TitleFromPointwise(s, false);
    forall i | 0 <= i < |s|
      ensures Title(s)[i] == TitleCharAfter(s, i, false)
    {
      assert Title(s)[i] == TitleFrom(s, false)[i];
    }
  }

  lemma {:induction false} TitleFromPointwise(s: String, afterLetter: bool)
    ensures forall i :: 0 <= i < |s| ==> TitleFrom(s, afterLetter)[i] == TitleCharAfter(s, i, afterLetter)
    decreases |s|
  {
    if s != [] {
      var t := s[1..];
      var c := if !IsLetter(s[0]) then s[0]
               else if afterLetter then LowerChar(s[0]) else UpperChar(s[0]);
      assert TitleFrom(s, afterLetter) == [c] + TitleFrom(t, IsLetter(s[0]));
      TitleFromPointwise(t, IsLetter(s[0]));
      forall i | 0 <= i < |s|
        ensures TitleFrom(s, afterLetter)[i] == TitleCharAfter(s, i, afterLetter)
      {
        if i > 0 {
          assert t[i - 1] == s[i];
          assert i - 1 > 0 ==> t[i - 2] == s[i - 1];
          assert TitleFrom(s, afterLetter)[i] == TitleFrom(t, IsLetter(s[0]))[i - 1];
          assert TitleFrom(t, IsLetter(s[0]))[i - 1] == TitleCharAfter(t, i - 1, IsLetter(s[0]));
        }
      }
    }
  }

  function DigitChar(d: nat): char
    requires d < 10
  {
    ('0' as int + d) as char
  }

  /** `str(n)` for a natural number. */
  function NatToString(n: nat): (r: String)
    ensures |r| >= 1
    ensures forall i :: 0 <= i < |r| ==> IsDigit(r[i])
    ensures r[0] == '0' <==> n == 0
    decreases n
  {
    if n < 10 then [DigitChar(n)] else NatToString(n / 10) + [DigitChar(n % 10)]
  }

  /** The value of one decimal digit; other characters count as zero. */
  function DigitValue(c: char): (r: nat)
    ensures r < 10
  {
    if IsDigit(c) then c as int - '0' as int else 0
  }

  /** The value of a string of decimal digits (`int(s)`); it is only ever
      applied to digit runs. */
  function DigitsValue(s: String): nat
    decreases |s|
  {
    if s == [] then 0 else DigitsValue(s[..|s| - 1]) * 10 + DigitValue(s[|s| - 1])
  }

  /** Reading back the decimal rendering of `n` gives `n`. */
  lemma {:induction false} DigitsValueOfNatToString(n: nat)
    ensures DigitsValue(NatToString(n)) == n
    decreases n
  {
    var r := NatToString(n);
    if n >= 10 {
      DigitsValueOfNatToString(n / 10);
      assert r[..|r| - 1] == NatToString(n / 10);
    }
  }
}

=== FILE: wrappers.dfy ===
/** Optional values and results with an error, used wherever the modelled
    code returns `None` or raises an exception. */
module Wrappers {

  datatype Option<+T> = None | Some(value: T) {

    /** The value, or `default` when there is none (Python's `x or default`). */
    function GetOr(default: T): T {
      match this
      case Some(v) => v
      case None => default
    }
  }

  datatype Result<+R, +E> = Success(value: R) | Failure(error: E) {

    predicate IsFailure() {
      Failure?
    }

    function PropagateFailure<U>(): Result<U, E>
      requires Failure?
    {
      Failure(error)
    }

    function Extract(): R
      requires Success?
    {
      value
    }
  }

  /** The first present value among `f(i), f(i + 1), ..., f(n)`: a left-to-right
      search that stops at its first hit. */
  function FirstFrom<T>(f: nat -> Option<T>, i: nat, n: nat): Option<T>
    requires i <= n
    decreases n - i
  {
    if f(i).Some? then f(i)
    else if i == n then None
    else FirstFrom(f, i + 1, n)
  }

  lemma {:induction false} FirstFromNone<T>(f: nat -> Option<T>, i: nat, n: nat)
    requires i <= n
    ensures FirstFrom(f, i, n).None? <==> forall j: nat :: i <= j <= n ==> f(j).None?
    decreases n - i
  {
    if f(i).None? && i < n {
      FirstFromNone(f, i + 1, n);
    }
  }

  /** A found value is found at some index, after indices that find nothing. */
  lemma FirstFromSome<T>(f: nat -> Option<T>, i: nat, n: nat)
    requires i <= n && FirstFrom(f, i, n).Some?
    ensures exists j: nat :: i <= j <= n && f(j) == FirstFrom(f, i, n) && forall l: nat :: i <= l < j ==> f(l).None?
  {
    var j := FirstFromHit(f, i, n);
  }

  lemma {:induction false} FirstFromHit<T>(f: nat -> Option<T>, i: nat, n: nat) returns (j: nat)
    requires i <= n && FirstFrom(f, i, n).Some?
    ensures i <= j <= n && f(j) == FirstFrom(f, i, n)
    ensures forall l: nat :: i <= l < j ==> f(l).None?
    decreases n - i
  {
    if f(i).Some? {
      j := i;
    } else {
      j := FirstFromHit(f, i + 1, n);
    }
  }

  /** The present values of `os`, in order (a filter-map). */
  function Somes<T>(os: seq<Option<T>>): (r: seq<T>)
    ensures |r| <= |os|
    decreases |os|
  {
    if os == [] then [] else (if os[0].Some? then [os[0].value] else []) + Somes(os[1..])
  }

  /** `Somes` of a concatenation is the concatenation of the parts' `Somes`:
      values keep their order and none is added or lost. */
  lemma {:induction false} SomesAppend<T>(a: seq<Option<T>>, b: seq<Option<T>>)
    ensures Somes(a + b) == Somes(a) + Somes(b)
    decreases |a|
  {
    if a == [] {
      assert a + b == b;
    } else {
      assert (a + b)[0] == a[0];
      assert (a + b)[1..] == a[1..] + b;
      SomesAppend(a[1..], b);
    }
  }

  /** One option contributes its value, or nothing. */
  lemma SomesOne<T>(o: Option<T>)
    ensures Somes([o]) == if o.Some? then [o.value] else []
  {
    assert [o][1..] == [];
  }

  /** Every value kept by `Somes` is present at some position of `os`. */
  lemma {:induction false} SomesSound<T>(os: seq<Option<T>>, i: nat) returns (j: nat)
    requires i < |Somes(os)|
    ensures j < |os| && os[j] == Some(Somes(os)[i])
    decreases |os|
  {
    if os[0].Some? && i == 0 {
      j := 0;
    } else {
      var i' := if os[0].Some? then i - 1 else i;
      var j' := SomesSound(os[1..], i');
      j := j' + 1;
    }
  }

  /** Every present value of `os` is kept by `Somes`. */
  lemma {:induction false} SomesComplete<T>(os: seq<Option<T>>, j: nat)
    requires j < |os| && os[j].Some?
    ensures os[j].value in Somes(os)
    decreases |os|
  {
    if j > 0 {
      SomesComplete(os[1..], j - 1);
    }
  }

  /** The index of the first `true` from `i` on. */
  function FirstTrue(bs: seq<bool>, i: nat): (r: Option<nat>)
    requires i <= |bs|
    ensures r.Some? ==> i <= r.value < |bs|
    decreases |bs| - i
  {
    if i == |bs| then None else if bs[i] then Some(i) else FirstTrue(bs, i + 1)
  }

  lemma {:induction false} FirstTrueNone(bs: seq<bool>, i: nat)
    requires i <= |bs|
    ensures FirstTrue(bs, i).None? <==> forall k :: i <= k < |bs| ==> !bs[k]
    decreases |bs| - i
  {
    if i < |bs| && !bs[i] {
      FirstTrueNone(bs, i + 1);
    }
  }

  lemma {:induction false} FirstTrueHit(bs: seq<bool>, i: nat)
    requires i <= |bs| && FirstTrue(bs, i).Some?
    ensures i <= FirstTrue(bs, i).value < |bs| && bs[FirstTrue(bs, i).value]
    ensures forall k :: i <= k < FirstTrue(bs, i).value ==> !bs[k]
    decreases |bs| - i
  {
    if !bs[i] {
      FirstTrueHit(bs, i + 1);
    }
  }

  /** The first present value of `os`. */
  function FirstSome<T>(os: seq<Option<T>>): (r: Option<T>)
    ensures r.None? <==> forall k :: 0 <= k < |os| ==> os[k].None?
    ensures forall k :: 0 <= k < |os| && os[k].Some? && (forall m :: 0 <= m < k ==> os[m].None?) ==> r == os[k]
    decreases |os|
  {
    if os == [] then None
    else if os[0].Some? then os[0]
    else
      var rest := FirstSome(os[1..]);
      assert forall k :: 1 <= k < |os| ==> os[k] == os[1..][k - 1];
      rest
  }

  /** The value of the first present option, or `default` when none is
      present (`next((...), None)` followed by `or default`). */
  function FirstValueOr<T>(os: seq<Option<T>>, default: T): (r: T)
    ensures (forall k :: 0 <= k < |os| ==> os[k].None?) ==> r == default
    ensures forall k :: 0 <= k < |os| && os[k].Some? && (forall m :: 0 <= m < k ==> os[m].None?) ==> r == os[k].value
  {
    FirstSome(os).GetOr(default)
  }

  /** The position `FirstSome` takes its value from. */
  lemma {:induction false} FirstSomeAt<T>(os: seq<Option<T>>) returns (k: nat)
    requires FirstSome(os).Some?
    ensures k < |os| && os[k] == FirstSome(os)
    ensures forall m :: 0 <= m < k ==> os[m].None?
    decreases |os|
  {
    if os[0].Some? {
      k := 0;
    } else {
      var k' := FirstSomeAt(os[1..]);
      k := k' + 1;
    }
  }

  lemma FirstSomeWitness<T>(os: seq<Option<T>>)
    requires FirstSome(os).Some?
    ensures exists k :: 0 <= k < |os| && os[k] == FirstSome(os) && forall m :: 0 <= m < k ==> os[m].None?
  {
    var k := FirstSomeAt(os);
  }

  /** The union of a sequence of sets. */
  function UnionAll<T(!new)>(ss: seq<set<T>>): (r: set<T>)
    ensures forall x :: x in r <==> exists i :: 0 <= i < |ss| && x in ss[i]
    decreases |ss|
  {
    if ss == [] then {}
    else
      var rest := UnionAll(ss[1..]);
      assert forall i :: 1 <= i < |ss| ==> ss[i] == ss[1..][i - 1];
      ss[0] + rest
  }

  /** `xs`, followed by the value of `o` when there is one. */
  function AppendOption<T>(xs: seq<T>, o: Option<T>): (r: seq<T>)
    ensures |r| == |xs| + (if o.Some? then 1 else 0)
    ensures forall k :: 0 <= k < |xs| ==> r[k] == xs[k]
    ensures o.Some? ==> r[|xs|] == o.value
  {
    match o
    case None => xs
    case Some(v) => xs + [v]
  }

  /** `f` applied to each element, in order. */
  function Map<A, B>(f: A -> B, xs: seq<A>): (r: seq<B>)
    ensures |r| == |xs|
    ensures forall k :: 0 <= k < |xs| ==> r[k] == f(xs[k])
  {
    seq(|xs|, k requires 0 <= k < |xs| => f(xs[k]))
  }

  lemma MapSnoc<A, B>(f: A -> B, xs: seq<A>, x: A)
    ensures Map(f, xs + [x]) == Map(f, xs) + [f(x)]
  {
    assert forall k :: 0 <= k < |xs| ==> (xs + [x])[k] == xs[k];
  }
}
